=== FILE: README.md ===
# A verified model of a mini-CRM's core

The system is a small customer-relationship manager. An Express and
MongoDB server keeps customers, orders, segments, campaigns and messages.
A React and redux client lists and edits them. This project models the
parts that decide what the system stores and shows:

- **Segment rules.** A segment's rules (field, operator, value) are compiled into a
  MongoDB filter under `AND` or `OR`. The campaign send path builds its own, different
  filter; the model proves where the two agree and where they diverge.
- **Audiences.** The segment customer list, the segment preview and size, and a
  campaign's customer list with its statistics.
- **Dispatch.** Campaign sending in batches of ten, with a vendor reply per message,
  a single success draw, batch counters and the later engagement update.
- **Campaign lifecycle.** Create, update, delete and list, guarded by status. Also the
  separate sender in `messages.ts` and the mark-as-read route.
- **Orders and customers.** Order validation, totals recomputed from the items,
  delivered spend per customer, the cascade when a customer is deleted, and the list
  endpoints' pagination.
- **Error handling.** The Express error middleware.
- **Client.** The redux slices, and the logic of the SegmentList, CampaignForm,
  CampaignList, CustomerList, OrderList, OrderForm and Dashboard components.

Documents are maps from field names to values. A value is a string, a number
(an exact `real`) or absent, which stands for missing, `null` or `undefined`.
JavaScript's `NaN` is written as `None`. Booleans, arrays and nested objects are
not field values here. The one nested shape the core answers with is
Mongoose's `populate` on the order and campaign lists, which replaces a
stored reference id by an object holding a few of the referenced document's
fields, or by `null` when that document is gone; those rows have their own
datatypes (`OrderRoutes.CustomerRef`, `Lifecycle.SegmentSummary`). The clock, random draws and the
vendor's replies are parameters. Each module follows one source file. The
route modules return the collection after the request together with the
response, so every contract can say what a request writes as well as what
it answers.

## Model

| member | source | states |
|---|---|---|
| SegmentRules.Run | server/src/routes/segments.ts:269-273 | The store rejects an `$and`/`$or` over an empty rule list with a server error (500); otherwise it returns exactly the customers that match the query, in store order. |
| SegmentRules.CompileSegment | server/src/routes/segments.ts:236-269 | The query has one fragment per rule, in order, and it is a conjunction exactly when `ruleOperator` is the string `AND`. |
| SegmentRules.TranslateSound | server/src/routes/segments.ts:236-266 | A rule's filter fragment matches exactly the customers the rule accepts, read directly. |
| SegmentRules.TranslateEquality | server/src/routes/segments.ts:238-259 | `equals` with a numeric string matches the field as that string or as its number; `notEquals` excludes both forms; any other value compares exactly. |
| SegmentRules.TranslateEquals | server/src/routes/segments.ts:238-248 | An `equals` rule's fragment holds exactly when the field equals the rule value, or equals the number a numeric-string value spells. |
| SegmentRules.TranslateNotEquals | server/src/routes/segments.ts:249-259 | A `notEquals` rule's fragment holds exactly when neither of those two equalities holds. |
| SegmentRules.TranslateOrder | server/src/routes/segments.ts:260-265 | `greaterThan`/`lessThan` compare the field strictly against `Number(value)`; any other operator leaves the customer unconstrained. |
| SegmentRules.CompiledMatches | server/src/routes/segments.ts:236-269 | The compiled query matches a customer exactly when all rules (operator `AND`) or at least one rule (anything else) accept it. |
| SegmentRules.AudienceCorrect | server/src/routes/campaigns.ts:418-459 | The audience is a server error exactly when the rule list is empty; otherwise it is the store filtered by the segment's meaning, in store order. |
| SegmentRules.SizeIsAudienceLength | server/src/routes/segments.ts:317-356 | In the model, where every rule value is read as the stored fields are, `calculateSegmentSize` fails exactly when listing fails, and otherwise counts exactly the customers the list returns. |
| SegmentRules.NotEqualsComplementsEquals | server/src/routes/segments.ts:249-259 | For the same field and value, `notEquals` accepts exactly the customers `equals` rejects, missing fields included. |
| SegmentRules.DigitStringMatchesBothForms | server/src/routes/segments.ts:238-247 | A digit-string value matches a field that stores it as the string or as the number it spells, and `notEquals` then excludes that number. |
| SegmentRules.EmptyValueMatchesZero | server/src/routes/segments.ts:240-244 | `Number('')` is 0, so `equals ""` also matches a field holding the number 0. |
| SegmentRules.RangeRulesNeedNumbers | server/src/routes/segments.ts:260-263 | A range rule accepts only numeric fields, and it accepts nobody when its bound is NaN. |
| SegmentRules.UnknownOperatorAdmitsAll | server/src/routes/segments.ts:264-269 | A rule with an unknown operator places no restriction, so an OR segment containing one admits every customer. |
| SegmentRules.AddingRuleMonotone | server/src/routes/segments.ts:269 | Adding a rule never widens an AND segment and never narrows an OR segment. |
| SegmentRules.OperatorIsCaseSensitive | server/src/routes/segments.ts:269 | For every rule list and customer, any operator other than exactly `AND` (among them `and`, `And` and the empty string) accepts exactly what `OR` accepts. |
| AudienceResolution.FindSegment | server/src/routes/segments.ts:230-233 | The lookup returns a stored segment with that id, or reports that none has it. |
| AudienceResolution.FindCampaign | server/src/routes/campaigns.ts:373-383 | The lookup returns a stored campaign with that id, or reports that none has it. |
| AudienceResolution.Average | server/src/routes/segments.ts:306-308 | The average times the count gives the total, and an empty list averages 0. |
| AudienceResolution.OrdersTotalFieldIsZero | server/src/routes/segments.ts:282-288 | The segment list sums `$orders.total`, a path orders do not have, so every row's `totalSpent` is 0. |
| AudienceResolution.SegmentRowFacts | server/src/routes/segments.ts:289-298 | A segment-list row keeps the customer's id, name and e-mail, drops `visits`, and reports `totalSpent` 0. |
| AudienceResolution.SegmentCustomerListErrors | server/src/routes/segments.ts:228-233 | An unknown segment gives 404 "Segment not found"; a known segment fails exactly when it has no rules, and then with 500. |
| AudienceResolution.SegmentCustomerListRows | server/src/routes/segments.ts:272-310 | For a segment with rules, the rows are the segment's members in store order, and the statistics give their count, zero spend and zero average. |
| AudienceResolution.PreviewCountIsListLength | server/src/routes/segments.ts:97-113 | In the model, the preview count and the stored `customerCount` equal the length of the segment's customer list whenever that list can be produced. |
| AudienceResolution.Populate | server/src/routes/campaigns.ts:376-379 | The populated customers come from the store and from the id list, each resolvable id is present, and there are never more than there are ids. |
| AudienceResolution.PopulateResolvesInOrder | server/src/routes/campaigns.ts:376-379 | The populated list holds one stored customer per resolvable id, in the order of the ids, duplicates kept: its ids are exactly the resolvable ids, and each entry is the customer its id finds. |
| AudienceResolution.SnapshotIgnoresSegmentAndOrders | server/src/routes/campaigns.ts:386-409 | A completed or failed campaign whose stored customers resolve is answered from that snapshot, whatever the segments and orders are. |
| AudienceResolution.DraftUsesSegment | server/src/routes/campaigns.ts:412-415 | A draft is always resolved through its segment: a missing segment gives 400, and otherwise the answer succeeds exactly when the segment has rules. |
| AudienceResolution.LiveRowFacts | server/src/routes/campaigns.ts:468-494 | A live row keeps the id, name, e-mail and visits, shows the delivered spend as `totalSpent`, and has no other field. |
| AudienceResolution.LiveRowsAreAudience | server/src/routes/campaigns.ts:455-495 | The live rows are the segment's members in store order, each with its delivered spend and only the projected fields. |
| AudienceResolution.StatisticsAgreeWithRows | server/src/routes/campaigns.ts:391-549 | In both answers the count is the number of rows, and the visit total, spend total and average spend are those of the rows returned. |
| SendQuery.BuildSendFilterSpec | server/src/routes/campaigns.ts:597-620 | The send filter has an entry for exactly the fields some effective rule names, and each entry is the one the last such rule wrote. |
| SendQuery.SendFilterCorrect | server/src/routes/campaigns.ts:597-623 | The send filter matches exactly the customers who satisfy the last effective rule on every field, whatever the segment's AND/OR. |
| SendQuery.NotEqualsIgnoredAtSend | server/src/routes/campaigns.ts:603-617 | A `notEquals` rule writes no filter entry, so on its own it targets the whole store. |
| SendQuery.ContainsOnlyAtSend | server/src/routes/campaigns.ts:607-608 | `contains` is a case-insensitive substring test at send time but no restriction in the segment compiler. |
| SendQuery.LaterRuleOverwrites | server/src/routes/campaigns.ts:601-605 | Of two effective rules on one field, only the second survives in the filter. |
| SendQuery.OrSegmentNarrowedAtSend | server/src/routes/campaigns.ts:597-623 | The OR segment "name is Ann or name is Bob" lists both customers, while the send targets Bob alone. |
| Dispatch.OrNull | server/src/routes/campaigns.ts:703-704 | The `null` fallback keeps a vendor string exactly when it is present and not the empty string. |
| Dispatch.MessageForStatus | server/src/routes/campaigns.ts:672-732 | A message is delivered exactly when the campaign succeeded and the vendor replied with success. It is never pending, is unread, and carries the campaign's name and text. A campaign that did not succeed records "Campaign failed to send". A vendor reply is copied with an empty id or error read as null. A thrown call records the exception's message, or "Unknown error". |
| Dispatch.DispatchBatches | server/src/routes/campaigns.ts:666-748 | One message per customer, in audience order. There are ceil(N/10) counter updates, and update k describes exactly the first min(10(k+1), N) messages, with `delivered + failed == sent`. |
| Dispatch.SendBatch | server/src/routes/campaigns.ts:670-734 | Customers `lo` to `hi` of the audience each get the message built from their own vendor reply, in audience order, and the delivered count is the number of those messages marked delivered. |
| Dispatch.NextBatch | server/src/routes/campaigns.ts:667-748 | One turn of the loop keeps the loop's invariant: the first min(i, N) customers have their messages in order, the counters add up, and each counter update describes the messages sent so far. |
| Dispatch.ProgressStep | server/src/routes/campaigns.ts:667-748 | Sending the next stretch of up to ten planned messages and adding its delivered count keeps the loop invariant. Messages stay a prefix of the plan, `delivered + failed` stays equal to the messages sent, and the new counter update describes all of them. |
| Dispatch.InitialStats | server/src/routes/campaigns.ts:645-656 | The upfront counters give `delivered + failed == sent == totalAudience` with clicks ≤ opens ≤ delivered, and zero delivered, opens and clicks for a failed campaign. |
| Dispatch.SendCampaign | server/src/routes/campaigns.ts:561-635 | Missing user gives 401, unknown campaign 404, and an already sent one 400, with nothing changed. Every error leaves statuses and counters untouched and records no message. Success replaces only the target campaign, sent to the resolved targets. The sent campaign keeps its stored customer list when it has one and otherwise records the targets' ids; its name, segment and text are unchanged. |
| Dispatch.Deliver | server/src/routes/campaigns.ts:637-748 | One message per target. The status is drawn once (completed iff the draw is at most 0.9) and `sentAt` is set. The final counters describe exactly the recorded messages, and nothing is delivered when the draw fails. |
| Dispatch.NoneDelivered | server/src/routes/campaigns.ts:684-691 | When no message is delivered, the delivered counter is 0. |
| Dispatch.EngagementUpdate | server/src/routes/campaigns.ts:761-787 | Only a campaign still completed is touched: opens become ⌊0.8·d⌋ and clicks ⌊0.4·d⌋ of the delivered messages, and nothing else changes. |
| Dispatch.EngagementAfterSend | server/src/routes/campaigns.ts:767-770 | With no earlier messages for the campaign, the store's delivered count equals the send's `delivered` counter. |
| Lifecycle.GuardsByStatus | server/src/routes/campaigns.ts:187-189 | Update and delete refuse only completed campaigns, while send refuses completed and failed ones; the send guard is exactly "status is draft". |
| Lifecycle.ValidationMessages | server/src/routes/campaigns.ts:30-36 | The validators pass exactly when the name and message are not blank, the segment id is a 24-hex object id, the date is well formed, and the status, if given, is one of the five request statuses. |
| Lifecycle.ConvertIds | server/src/routes/campaigns.ts:125-126 | Converting the body's customer ids succeeds exactly when every id is an object id, and then keeps them in order; otherwise it is a server error. |
| Lifecycle.CreateCampaignResult | server/src/routes/campaigns.ts:103-137 | A successful create needs a user, passing validators and an existing segment. It appends one campaign with zeroed counters and the trimmed, non-empty name. Its audience is the given ids, or else the customers tagged with the segment. Its status is the requested one. |
| Lifecycle.ScheduledCreateRejected | server/src/routes/campaigns.ts:136 | A create that asks for `scheduled` (a date without a status) or `running` is refused by the schema's status enum, and nothing is stored. |
| Lifecycle.CreateValidationFirst | server/src/routes/campaigns.ts:110-114 | Failing validators give a 400 listing every message, joined by ", ", before any lookup or write. |
| Lifecycle.EditCampaignFields | server/src/routes/campaigns.ts:191-258 | An edit keeps the id, counters and send time and trims name and message. A move to another segment replaces the audience with that segment's tagged customers, overriding ids sent in the same request. |
| Lifecycle.EditCampaignFails | server/src/routes/campaigns.ts:191-258 | The edit fails exactly for a bad id in the list, an unknown new segment or a status outside the enum. |
| Lifecycle.ApplySegmentChange | server/src/routes/campaigns.ts:218-227 | A missing, empty or unchanged segment id leaves the campaign as it is; a new one is refused with 404 when no such segment exists, and otherwise replaces the segment and the audience with the customers tagged with it, changing nothing else. |
| Lifecycle.UpdateCampaignFrame | server/src/routes/campaigns.ts:169-269 | An update writes at most the campaign with that id, writes nothing when it fails, and succeeds only for an existing, non-completed campaign. |
| Lifecycle.UpdateCampaignWrites | server/src/routes/campaigns.ts:251-264 | A successful update stores the campaign it returns, under the same id, in place of the old one. |
| Lifecycle.CompletedIsFrozen | server/src/routes/campaigns.ts:284-286 | Every update and every delete of a completed campaign is refused with 400, and nothing changes. |
| Lifecycle.FailedCanBeReset | server/src/routes/campaigns.ts:256-258 | A failed campaign can be updated back to draft, after which the send guard admits it again. |
| Lifecycle.ListCampaigns | server/src/routes/campaigns.ts:39-66 | Without a user the list is a 401; with one it fails exactly when the skip is negative. `total` is the collection size. The page holds `PageSize` rows, newest first: row `k` is the `(skip + k)`-th most recently created campaign, with its segment populated as `PopulateSegment` gives it. |
| Lifecycle.PopulateSegment | server/src/routes/campaigns.ts:50-51 | A campaign's populated segment is `null` exactly when no stored segment has its `segmentId`; otherwise it carries that id and that segment's name. |
| Lifecycle.DeleteCampaignEffect | server/src/routes/campaigns.ts:272-288 | A delete succeeds exactly for an existing, non-completed campaign and then removes exactly the campaigns with that id. A failed delete changes nothing. |
| Lifecycle.SendLoop | server/src/routes/messages.ts:79-99 | Every tagged customer ends up either as a created message or in `errors`. With a pending label the schema rejects, nothing is created and every customer is an error. |
| Lifecycle.AsWrittenAlwaysFails | server/src/routes/messages.ts:81-105 | With the upper-case labels as written, a campaign whose segment has tagged customers always gets a 500 "No messages were created". No message is created and the campaign is unchanged. |
| Lifecycle.CorrectedSenderOutcome | server/src/routes/messages.ts:67-112 | With the schema's labels, every tagged customer is a message or an error, and every message has a valid status. The campaign ends failed exactly when some message failed. |
| Lifecycle.FindOwned | server/src/routes/messages.ts:39-43 | The lookup finds the first message with that id owned by the requester, or reports that none exists. |
| Lifecycle.MarkReadOwnership | server/src/routes/messages.ts:33-49 | Only a message with that id owned by the requester is marked read, and only its `read` flag changes. Otherwise the answer is 404 and nothing changes. |
| CampaignModel.ParseStatus | server/src/models/Campaign.ts:42-46 | The status enum accepts exactly `draft`, `completed` and `failed` (so not `scheduled` or `running`), and names back the string it read. |
| CampaignModel.NewCampaign | server/src/models/Campaign.ts:23-60 | A new campaign has a trimmed name, the status given (or draft by default), all six counters 0, no send time, and the given customer ids. |
| SegmentModel.NewSegment | server/src/models/Segment.ts:37-64 | A new segment has `customerCount` 0 and `ruleOperator` defaulting to AND, and keeps its rules, name and creator. |
| SegmentModel.NewSegmentSchema | server/src/models/Segment.ts:21-64 | A new segment passes the schema exactly when it has a name and a creator, every rule has a field, an enum operator and a value, and its operator is AND or OR. |
| MessageModel.ParseMessageStatus | server/src/models/Message.ts:48-52 | The message status enum accepts exactly the three lower-case names, case-sensitively. |
| MessageModel.NewMessage | server/src/models/Message.ts:44-60 | A new message is unread and has no vendor id and no error. |
| CustomerModel.WithDefaults | server/src/models/Customer.ts:41-50 | Creation fills a missing `visits` and a missing `totalSpent` with 0 and changes no other field. |
| CustomerModel.DefaultsSatisfySchema | server/src/models/Customer.ts:20-55 | After the defaults, a named customer with an e-mail passes the schema exactly when any visit count it brought is a non-negative number and any `totalSpent` is a number. |
| OrderModel.StatusFor | server/src/models/Order.ts:57-61 | A status string maps to the enum member it names, or to an unlisted status exactly when the enum rejects it. |
| OrderModel.ParseOrderStatus | server/src/models/Order.ts:57-61 | The order status enum accepts exactly the five lower-case names. |
| OrderModel.StatusNameRoundTrip | server/src/models/Order.ts:59 | Reading back the name of an enum status gives that status. |
| OrderModel.ItemsTotalAppend | server/src/routes/orders.ts:91 | The order total is additive over a split of the item list. |
| OrderModel.ItemCountAppend | client/src/components/OrderList.tsx:172 | The unit count is additive over a split of the item list. |
| OrderModel.ItemsTotalByLines | server/src/routes/orders.ts:91 | Two item lists whose line amounts agree position by position have the same total. |
| OrderModel.ItemsTotalReplace | client/src/components/OrderList.tsx:222-224 | Replacing one item moves the total by exactly the difference of the two line amounts. |
| OrderModel.ItemsTotalRemove | client/src/components/OrderList.tsx:222-224 | Removing one item lowers the total by exactly its line amount. |
| OrderModel.ValidItemsBounds | server/src/models/Order.ts:36-56 | Items within the schema bounds (quantity at least 1, price at least 0) give a non-negative total and at least one unit per item. |
| OrderModel.DeliveredSpendAppend | server/src/routes/customers.ts:26-41 | A customer's delivered spend is additive over a split of the order store. |
| OrderModel.DeliveredSpendExtend | server/src/routes/campaigns.ts:470-484 | A new order raises a customer's spend by its amount (missing counts as 0) exactly when it is theirs and delivered; otherwise the spend is unchanged. |
| OrderModel.DeliveredSpendNonNegative | server/src/routes/customers.ts:26-41 | Orders with non-negative totals give a non-negative spend. |
| OrderRoutes.StoredItems | server/src/routes/orders.ts:73-75 | The sanitized items keep the posted order, one stored item per posted item. |
| OrderRoutes.CreateOrderStores | server/src/routes/orders.ts:67-98 | An invalid body is a 400 and every failure writes nothing. A success appends exactly the returned order, with a fresh order number, at least one item, and the total of its own items. |
| OrderRoutes.CreateIgnoresClientTotal | server/src/routes/orders.ts:89-98 | The total and order number a client sends make no difference to a create. |
| OrderRoutes.CreatedOrderValid | server/src/routes/orders.ts:70-98 | A created order satisfies the Order schema: valid items, a non-negative total, an enum status and a complete address. |
| OrderRoutes.CreateKeepsNumbersUnique | server/src/models/Order.ts:31-35 | Creating keeps the store's order numbers unique. |
| OrderRoutes.FindOrder | server/src/routes/orders.ts:137-145 | The lookup returns a stored order with that id, or reports that none has it. |
| OrderRoutes.UpdateOrderFrame | server/src/routes/orders.ts:197-208 | An update changes at most the order with that id, writes nothing when it fails, and gives 404 for an unknown id. |
| OrderRoutes.UpdateOrderResult | server/src/routes/orders.ts:193-204 | An updated order keeps its id, has the total of its new items, and takes the body's status as given. |
| OrderRoutes.WriteUpdate | server/src/routes/orders.ts:193-208 | A valid update writes only the order with that id, is refused with nothing written for an unknown id or a taken number, succeeds when the number is not changed, and stores the requested status as given. |
| OrderRoutes.UpdateIgnoresClientTotal | server/src/routes/orders.ts:193-204 | The total a client sends makes no difference to an update. |
| OrderRoutes.UpdateBypassesStatusEnum | server/src/routes/orders.ts:197-204 | An update with the status `lost` succeeds and stores an order the schema would reject, since the update runs no schema validators. |
| OrderRoutes.PatchStatusFacts | server/src/routes/orders.ts:124-145 | The patch accepts exactly the five enum names for an existing order and then changes only that order's status. Any other status is a 400, and every failure writes nothing. |
| OrderRoutes.DeleteOrderFacts | server/src/routes/orders.ts:234-240 | A delete fails with 404 exactly when no order has that id. Otherwise it removes exactly the orders with that id. |
| OrderRoutes.ListOrders | server/src/routes/orders.ts:17-47 | The listing fails exactly when the skip is negative and reports the store's size as `total`. The page holds `PageSize` rows, newest first: row `k` is the `(skip + k)`-th most recent order, shown with its total filled in, and its customer populated as `PopulateCustomer` gives it. |
| OrderRoutes.PopulateCustomer | server/src/routes/orders.ts:23-24 | An order's populated customer is `null` exactly when no stored customer has its `customerId`; otherwise it carries that id and that customer's `name` and `email`. |
| OrderRoutes.ListedTotals | server/src/routes/orders.ts:30-35 | A listed order always has a total. A missing or zero total is filled in from the items, and any other stored total is passed through unchanged. |
| OrderRoutes.CreatedOrderListsItsTotal | server/src/routes/orders.ts:30-35 | A freshly created order is listed with its items' total, and listing is idempotent on it. |
| CustomerRoutes.CreateMessages | server/src/routes/customers.ts:63-79 | The create validators pass exactly when the e-mail matches the pattern, the trimmed name has at least two characters, and a phone, if present at all, is ten or more digits after trimming. |
| CustomerRoutes.CreateCustomerFacts | server/src/routes/customers.ts:81-128 | A created customer carries the trimmed name, the trimmed lower-cased e-mail, the trimmed phone or `''`, between 1 and 50 visits and no spend, and is the only document added; a refused create writes nothing. |
| CustomerRoutes.CreateKeepsStoreValid | server/src/routes/customers.ts:94-104 | With a fresh id, a create keeps every stored customer within the schema and keeps e-mails and ids unique. |
| CustomerRoutes.AppendKeepsValid | server/src/models/Customer.ts:20-55 | Adding a schema-valid customer whose e-mail and id are new keeps the store valid. |
| CustomerRoutes.EmailNonEmpty | server/src/routes/customers.ts:96 | An address that passed the pattern is still non-empty after trimming and lower-casing, so the required e-mail is present. |
| CustomerRoutes.EmptyPhoneRejected | server/src/routes/customers.ts:75-79 | An empty phone is checked despite `optional()` and the create fails with the phone message. |
| CustomerRoutes.Put | server/src/routes/customers.ts:148-152 | Writing an optional field changes that field only when a value is given and leaves every other field and the id alone. |
| CustomerRoutes.UpdateCustomerFacts | server/src/routes/customers.ts:133-179 | An update refuses visits that are not non-negative whole numbers (a sign is allowed, and a minus only on zero). It writes the body's `totalSpent` when one is sent, keeps the fields the body does not name, never touches other customers, and writes nothing when it fails. |
| CustomerRoutes.SignedVisits | server/src/routes/customers.ts:139 | `isInt({ min: 0 })` accepts a leading plus and "-0", and refuses a negative number, a bare sign and the empty string. |
| Strings.NoBreakSpacesAreBlank | server/src/routes/customers.ts:137 | `trim()` also strips no-break spaces, so a name of no-break spaces is blank. |
| CustomerRoutes.DeleteCascades | server/src/routes/customers.ts:182-193 | A delete removes exactly the orders of that customer, even when the customer does not exist and the answer is 404; only the named customer leaves the store. |
| CustomerRoutes.ListedSpendIsDelivered | server/src/routes/customers.ts:12-53 | The page holds `PageSize` customers, newest first: row `k` is the selected fields of the `(skip + k)`-th most recent customer, showing the sum of its delivered orders' totals. |
| CustomerRoutes.ListCustomers | server/src/routes/customers.ts:12-53 | Listing fails exactly when the skip is negative and reports the store's size. Exactly the customers on the page are saved back with their delivered spend, no other field of theirs changes, and customers off the page are not written. |
| CustomerRoutes.SaveSpends | server/src/routes/customers.ts:35-37 | The store after the page's saves keeps every id, gives each customer on the page its delivered spend with no other field changed, and leaves every other customer as it was. |
| CustomerRoutes.ListedRows | server/src/routes/customers.ts:19-39 | Rows read from the newest-first store are listed as the selected fields of those stored customers, each keeping its id and showing its delivered spend. |
| CustomerRoutes.WithSpendFacts | server/src/routes/customers.ts:33-36 | A listed customer keeps its id and shows its delivered spend as `totalSpent`. |
| Pagination.QueryInt | server/src/routes/orders.ts:19-20 | `parseInt(q) or default` never yields 0 when the default is not 0, and yields either the default or the parsed value. |
| Pagination.QueryIntDefaults | server/src/routes/customers.ts:14-15 | A missing, empty, non-numeric or zero page or limit gives the default; a plain non-zero digit string gives its value. |
| Pagination.CeilDiv | server/src/routes/orders.ts:45 | `Math.ceil(total / limit)` for a positive limit is the count `r` with `(r - 1) * limit < total <= r * limit`; a negative limit gives no positive count. |
| Pagination.PagesIsLeast | server/src/routes/campaigns.ts:64 | The `pages` figure is the fewest pages of `limit` rows that hold every row. |
| Pagination.Window | server/src/routes/orders.ts:21-27 | A page fails exactly when the skip is negative. It holds `PageSize` rows, at most the limit's size, and is the run of rows starting at the skip. |
| Pagination.NewestFirst | server/src/routes/campaigns.ts:52 | `sort({ createdAt: -1 })` over a collection kept in creation order lists every document once, the most recent first. |
| Pagination.NewestFirstAppend | server/src/routes/campaigns.ts:52 | A document just created heads the listing, ahead of the others in their previous order. |
| Pagination.Info | server/src/routes/campaigns.ts:46-66 | The page and limit reported are never 0 and `pages` is the ceiling of total over limit. |
| Pagination.PagesCoverRows | server/src/routes/customers.ts:14-23 | With a positive limit every row appears on exactly one page between 1 and `pages`, at the offset the skip formula gives. |
| JsNumber.Decimal | server/src/routes/segments.ts:240 | The decimal spelling of a count is a non-empty digit string without a leading zero. |
| JsNumber.DecimalRoundTrip | server/src/routes/segments.ts:240-244 | Reading back the spelling of `n`, with the digit reader or with `parseInt`, gives `n`. |
| JsNumber.DecimalInjective | server/src/routes/segments.ts:240-244 | Different numbers have different spellings. |
| JsNumber.ScanDecimal | server/src/routes/segments.ts:261-263 | A decimal literal read from the start of a string ends inside the string and after at least one character. |
| JsNumber.DigitStringsConvert | server/src/routes/segments.ts:240-263 | A plain digit string converts to the number it spells under `Number`, `parseFloat` and `parseInt` alike. |
| JsNumber.EmptyStringConversions | server/src/routes/segments.ts:240 | `Number('')` is 0, so an empty value counts as numeric, while `parseInt('')` and `parseFloat('')` are NaN. |
| JsNumber.TrailingTextDiffers | client/src/components/OrderForm.tsx:202 | Text after the digits makes `Number` NaN while `parseFloat` still reads the leading number. |
| Validators.JoinEmpty | server/src/routes/customers.ts:86 | Joining non-empty validation messages gives an empty string only when there are none. |
| Validators.EmailHasOneAt | client/src/components/CustomerList.tsx:76-79 | An address the pattern accepts has exactly one `@`. |
| Validators.EmailExamples | server/src/routes/customers.ts:66 | The pattern accepts `ann@shop.io` and refuses addresses without a dotted domain, without a local part, with a one-letter top-level domain, or with leading space. |
| Validators.NoSplitWithoutDot | server/src/routes/customers.ts:66 | An address without any dot never matches the pattern. |
| ErrorHandler.FieldEntries | server/src/middleware/errorHandler.ts:32-35 | A validation error yields one entry per failing path, in order, naming the path and its message. |
| ErrorHandler.ItemEntries | server/src/middleware/errorHandler.ts:70-73 | A validator array yields one entry per item, with its `param` as the field and its `msg` as the message. |
| ErrorHandler.FirstMatch | server/src/middleware/errorHandler.ts:30-119 | The branch chosen is the first of the seven guards that holds, or the fallback when none does. |
| ErrorHandler.HandleIsFirstMatch | server/src/middleware/errorHandler.ts:22-120 | The if-chain answers exactly as a table of guarded branches searched in order. |
| ErrorHandler.AppErrorsPassThrough | server/src/middleware/errorHandler.ts:82-88 | An AppError reaches the client with its own status, message and entries, whatever its name or code. |
| ErrorHandler.ValidationEntriesPerField | server/src/middleware/errorHandler.ts:30-41 | A Mongoose validation error is a 400 "Validation Error" with one entry per failing path, even when it also carries code 11000. |
| ErrorHandler.DuplicateKeyNeedsMongooseError | server/src/middleware/errorHandler.ts:43-54 | Code 11000 on an error that is not a Mongoose error falls through to a 500; on a Mongoose error it is a 400 naming the first key. |
| ErrorHandler.CastErrorIsInvalidId | server/src/middleware/errorHandler.ts:56-66 | A cast error is a 400 "Invalid ID" on its path. |
| ErrorHandler.TokenErrors | server/src/middleware/errorHandler.ts:90-109 | Token errors are recognised by name and answered with 401 and "Please log in again", but only when no earlier branch, such as AppError, claims them. |
| ErrorHandler.UnknownErrorsHideDetails | server/src/middleware/errorHandler.ts:111-119 | Anything unrecognised, an empty thrown array included, is a 500 "Internal Server Error" whose details appear only in development. |
| SegmentRoutes.CreateSegmentStoresCount | server/src/routes/segments.ts:70-106 | A successful create appends exactly one segment with the trimmed name, the caller as creator and the posted rules, whose stored count is the size of its audience. |
| SegmentRoutes.ListSegments | server/src/routes/segments.ts:41-63 | The listing fails exactly when the skip is negative and reports the collection's size. The page holds `PageSize` segments, newest first: row `k` is the `(skip + k)`-th most recently created segment. |
| SegmentRoutes.CreateSegmentFailures | server/src/routes/segments.ts:81-99 | Failed validation or a missing user rejects the create without a write. A segment with no rules is stored with the body's `customerCount`, or 0, and then answered with a server error. |
| SegmentRoutes.PreviewCountsAccepted | server/src/routes/segments.ts:109-117 | The preview succeeds exactly for a non-empty rule list and then counts exactly the customers the rules accept. |
| SegmentRoutes.UpdateSegmentOnlyTarget | server/src/routes/segments.ts:160-199 | An update changes only the segment with that id, keeps its creator unless the body names one, stores the new rules with a recomputed count, and answers only a segment that passes the schema. An invalid body or an unknown id (404) writes nothing. |
| SegmentRoutes.UpdateValidatesOnSave | server/src/routes/segments.ts:176-192 | A rule the route's validators let through but the schema refuses (such as `contains`) is written by the update and then refused with a 400 "Validation Error" by the final save, which leaves the write in place. |
| SegmentRoutes.GetSegment | server/src/routes/segments.ts:202-212 | Reading a segment succeeds exactly when a segment has that id and returns it; otherwise the answer is 404. |
| SegmentRoutes.DeleteSegmentRemovesOnlyTarget | server/src/routes/segments.ts:215-225 | A delete removes exactly the segments with that id; an unknown id is a 404 and changes nothing. |
| ListSlice.OrElse | client/src/store/slices/segmentSlice.ts:80 | `message or fallback` skips an absent and an empty message alike, so a rejected request always records a non-empty error. |
| ListSlice.EditsKeepIdsUnique | client/src/store/slices/customerSlice.ts:67-78 | On a list without duplicate ids, the `findIndex` update equals the server's replace-by-id, update and delete keep ids unique, and a pushed create keeps them unique exactly when its id is new. |
| ListSlice.RemoveKeepsUnique | client/src/store/slices/segmentSlice.ts:91-93 | Filtering out an id keeps a list of unique ids unique. |
| SegmentSlice.Reduce | client/src/store/slices/segmentSlice.ts:70-93 | Only the fetch touches the loading flag and error; a failed fetch keeps the list it had and records a non-empty error; a pending fetch clears the error. |
| SegmentSlice.CreateMirrorsServer | client/src/store/slices/segmentSlice.ts:82-84 | Pushing a created segment onto a list holding the collection in creation order gives the collection after the create. |
| SegmentSlice.UpdateMirrorsServer | client/src/store/slices/segmentSlice.ts:85-90 | Applying an updated segment to a list holding the collection in creation order gives the collection after the update, ids still unique. |
| SegmentSlice.DeleteMirrorsServer | client/src/store/slices/segmentSlice.ts:91-93 | Filtering a deleted id out of a list holding the collection in creation order gives the collection after the delete. |
| CustomerSlice.Reduce | client/src/store/slices/customerSlice.ts:55-78 | Only the fetch touches the loading flag and error; a failed fetch keeps the list and records a non-empty error; a pending fetch clears the error. |
| CustomerSlice.CreateMirrorsServer | client/src/store/slices/customerSlice.ts:67-69 | Pushing a created customer onto a list holding the store in creation order gives the store after the create. |
| CustomerSlice.UpdateMirrorsServer | client/src/store/slices/customerSlice.ts:70-75 | Applying an updated customer to a list holding the store in creation order gives the store after the update, ids still unique. |
| CustomerSlice.DeleteMirrorsServer | client/src/store/slices/customerSlice.ts:76-78 | Filtering a deleted id out of a list holding the store in creation order gives the store after the cascade delete. |
| OrderSlice.Reduce | client/src/store/slices/orderSlice.ts:101-185 | Every request sets loading and clears the error when it starts; every failure keeps the list and records a non-empty error; every success ends loading and keeps the error. |
| OrderSlice.FailureNamesTheRequest | client/src/store/slices/orderSlice.ts:111-184 | Without a server message each request's failure is recorded under its own fallback text, and the six texts are pairwise different. |
| OrderSlice.CreateMirrorsServer | client/src/store/slices/orderSlice.ts:133-136 | Pushing a created order onto a list holding the collection in creation order gives the collection after the create. |
| OrderSlice.PatchMirrorsServer | client/src/store/slices/orderSlice.ts:146-152 | Applying a status-patched order to a list holding the collection in creation order gives the collection after the patch, ids still unique. |
| OrderSlice.UpdateMirrorsServer | client/src/store/slices/orderSlice.ts:175-181 | Applying an updated order to a list holding the collection in creation order gives the collection after the update, ids still unique. |
| OrderSlice.DeleteMirrorsServer | client/src/store/slices/orderSlice.ts:162-165 | Filtering a deleted id out of a list holding the collection in creation order gives the collection after the delete. |
| MessageSlice.MarkFirstRead | client/src/store/slices/messageSlice.ts:51-56 | Marking read sets `read` on the first notice with the id only, and changes nothing else. |
| MessageSlice.Reduce | client/src/store/slices/messageSlice.ts:31-56 | A pending fetch sets loading but keeps an earlier error; a failed fetch keeps the notices and records a non-empty error; add, remove and mark-read leave the flags alone. |
| MessageSlice.MarkReadCountsDown | client/src/store/slices/messageSlice.ts:51-56 | Marking read lowers the unread count by one exactly when the first notice with the id was unread, and marking the same id twice is marking it once. |
| CampaignSlice.ReadListAsWritten | client/src/store/slices/campaignSlice.ts:62-67 | The fetched page keeps the campaigns and the requested page and limit, and its total is read from a key the server never sends, so it is 0. |
| CampaignSlice.ReadList | client/src/store/slices/campaignSlice.ts:62-67 | The corrected reading keeps the campaigns, page and limit and takes the total from the server's `pagination.total`. |
| CampaignSlice.ListTotalAlwaysZero | client/src/store/slices/campaignSlice.ts:212-220 | As written, the stored row count after any successful list fetch is 0, while the server reports the size of the collection. |
| CampaignSlice.ListTotalIsCollectionSize | server/src/routes/campaigns.ts:58-66 | Read from `pagination.total`, the stored row count is the number of stored campaigns and the list is the server's page. |
| CampaignSlice.RowStats | client/src/store/slices/campaignSlice.ts:160-166 | Statistics computed from a row list count its rows, and an empty list gives all zeros. |
| CampaignSlice.Resolve | client/src/store/slices/campaignSlice.ts:130-143 | Resolving attached ids gives at most one customer per id, only customers some lookup returned, and nothing when every lookup fails. |
| CampaignSlice.ResolveInOrder | client/src/store/slices/campaignSlice.ts:130-143 | The resolved customers are exactly the lookup answers of the ids whose lookup succeeds, in the order of the ids and with repeats kept: no successful lookup is dropped. |
| CampaignSlice.FetchCustomersRows | client/src/store/slices/campaignSlice.ts:114-173 | Rows the server sent are kept as sent; without them the rows are the attached customers that resolve; the statistics are recomputed from the rows exactly when the server sent none, sent a zero count, or the rows came from the fallback. |
| CampaignSlice.FetchCustomersAgreesWithServer | client/src/store/slices/campaignSlice.ts:114-120 | Given a non-empty answer of the server's campaign customer list, the client shows those rows with statistics equal to the ones it would compute from them itself. |
| CampaignSlice.FallbackFindsNothing | client/src/store/slices/campaignSlice.ts:122-157 | The fallback asks for single customers by id, a route the server does not have, so an empty answer stays empty with the server's statistics or zeros. |
| CampaignSlice.MarkCompleted | client/src/store/slices/campaignSlice.ts:269-275 | A fulfilled send marks the first campaign with the id completed and changes nothing else. |
| CampaignSlice.Reduce | client/src/store/slices/campaignSlice.ts:199-275 | Clearing and every customer fetch that starts or fails reset rows and statistics; a failed list fetch empties the list; only list fetches touch the page state; a rejected send changes nothing. |
| CampaignSlice.CreateMirrorsServer | client/src/store/slices/campaignSlice.ts:227-229 | Pushing a created campaign onto a list holding the collection in creation order gives the collection after the create. |
| CampaignSlice.UpdateMirrorsServer | client/src/store/slices/campaignSlice.ts:231-236 | Applying an updated campaign to a list holding the collection in creation order gives the collection after the update, ids still unique. |
| CampaignSlice.DeleteMirrorsServer | client/src/store/slices/campaignSlice.ts:238-240 | Filtering a deleted id out of a list holding the collection in creation order gives the collection after the delete. |
| CampaignSlice.SendShowsCompletedRegardless | client/src/store/slices/campaignSlice.ts:269-275 | After a send the client shows the campaign completed, although the server records it as failed whenever the delivery draw fails. |
| CampaignSlice.SendFailureIsSilent | client/src/store/slices/campaignSlice.ts:264-275 | A rejected send leaves loading on and records no error, and the list refresh that follows clears the flag without ever showing the failure. |
| SegmentForm.SubmitAlert | client/src/components/SegmentList.tsx:72-90 | The form submits exactly when the trimmed name is not empty, there is at least one rule, and every rule has a non-blank field, an operator and a value; the name is checked first, then the rule count. |
| SegmentForm.AddRule | client/src/components/SegmentList.tsx:131-139 | Adding a rule appends one blank `equals` rule and keeps everything else. |
| SegmentForm.UpdateRule | client/src/components/SegmentList.tsx:141-145 | Updating a rule changes only the named part of the rule at that index. |
| SegmentForm.RemoveRule | client/src/components/SegmentList.tsx:147-150 | Removing a rule drops exactly the rule at that index, and an index past the end changes nothing. |
| SegmentForm.AddedRuleBlocksSubmit | client/src/components/SegmentList.tsx:84-88 | A freshly added rule blocks submission until it is filled in, and removing it again restores the form. |
| SegmentForm.ToBody | client/src/components/SegmentList.tsx:104-109 | The posted body carries one rule per form rule. |
| SegmentForm.SubmittableFormIsAccepted | server/src/routes/segments.ts:73-78 | A form that passes the client's checks, with operators from the menus, passes the server's validators and yields a segment the schema accepts. |
| CampaignForm.OpenEditor | client/src/components/CampaignForm.tsx:99-126 | Opening the form on a stored campaign copies its name, segment, message and status but starts with an empty selection, because it reads a `customerIds` key stored campaigns do not have, and with no description; a new form starts from the initial state. |
| CampaignForm.SelectionEdits | client/src/components/CampaignForm.tsx:237-249 | Adding selects exactly the new customer and removing deselects exactly that one, the form's list follows the selection without duplicates, and removing a customer just added restores the editor. |
| CampaignForm.TemplateNamesBoth | client/src/components/CampaignForm.tsx:193 | The canned message contains the segment's name and the campaign's name and is never blank. |
| CampaignForm.GenerateMessage | client/src/components/CampaignForm.tsx:166-235 | Generation fails, leaving the form as it was, exactly when the name or segment is empty or the segment is not among the form's segments; otherwise only the message changes, to the template. |
| CampaignForm.GeneratedMessageIsUsable | client/src/components/CampaignForm.tsx:212-216 | A generated message names the segment and the campaign and passes both the form's and the server's message check. |
| CampaignForm.FieldErrors | client/src/components/CampaignForm.tsx:259-265 | Each field has an error exactly when it is blank, and an empty selection is reported as needing a customer. |
| CampaignForm.ToBody | client/src/components/CampaignForm.tsx:275-282 | The posted body carries the name, segment and message, while the selection travels under a key the server does not read. |
| CampaignForm.Submit | client/src/components/CampaignForm.tsx:251-288 | Submitting throws exactly when the description is missing; it posts only forms with a selection and a non-blank name, and blocks with at least one error otherwise. |
| CampaignForm.ReopenedCampaignNeedsRework | client/src/components/CampaignForm.tsx:101-121 | A stored campaign reopened for editing cannot be submitted as it is: the missing description makes the handler throw, and even with one typed in the empty selection blocks it. |
| CampaignForm.PostedBodyIsValid | server/src/routes/campaigns.ts:30-38 | A posted body with a segment from the menu and a status from the status menu passes every server validator. |
| CampaignForm.SelectionIsIgnored | client/src/components/CampaignForm.tsx:281 | Two forms differing only in the selection create the same campaign, whose customers are those tagged with the segment. |
| CampaignList.ColoursByStatus | client/src/components/CampaignList.tsx:366-373 | The three stored statuses get three different chip colours, and an unknown status shares the draft colour. |
| CampaignList.ActionsFollowServerGuards | client/src/components/CampaignList.tsx:564-598 | Send and delete are offered exactly when the server allows them; edit is offered only for drafts, although the server also accepts updates to failed campaigns. |
| CampaignList.DialogSubmit | client/src/components/CampaignList.tsx:235-256 | The edit dialog, which no control of the page opens, refuses exactly the segment ids that are not 24 hexadecimal characters, with its notice, and otherwise sends the name, segment, message and status without a customer list. |
| CampaignList.DialogCheckMatchesServer | server/src/routes/campaigns.ts:30-36 | A body that unreachable dialog would send is refused by the server only for a blank name or message, a malformed date or an unknown status, never for the segment id. |
| CampaignList.KnownName | client/src/components/CampaignList.tsx:411-421 | A non-empty cached name wins; otherwise the name is the store segment's with that id, and there is none when no segment has it. |
| CampaignList.SortKey | client/src/components/CampaignList.tsx:394-424 | The sort key is an embedded name when there is one, and otherwise a cached name, a store segment's name, or "Unknown Segment". |
| CampaignList.CellMatchesSortKey | client/src/components/CampaignList.tsx:394-467 | The cell and the sort key show the same name whenever a non-empty one is found; when nothing is found the sort key reads "Unknown Segment" while the cell reads "No Segment" or "Loading segment...". |
| CampaignList.ListedRowShowsSegment | client/src/components/CampaignList.tsx:118-141 | A campaign as the server lists it, whose segment exists with a non-empty name, shows that name from the populated object in the cell and the sort key alike, and requests nothing; when the segment is gone the cell reads "No Segment", the key "Unknown Segment", and nothing is requested. |
| CampaignList.SegmentsToFetch | client/src/components/CampaignList.tsx:110-143 | The ids requested are exactly the object-id-shaped ids of rows without an embedded name that are neither cached nor in the store. |
| CampaignList.ApiPage | client/src/components/CampaignList.tsx:198-203 | The grid's zero-based page becomes an API page of at least 1. |
| CampaignList.GridPageShowsItsRows | client/src/components/CampaignList.tsx:198-203 | Grid page `g` asks the server for the rows starting at `g` times the limit, and the first grid page is API page 1. |
| CustomerForm.EditForm | client/src/components/CustomerList.tsx:65-74 | The dialog filled from a stored customer shows its phone, or `''` when it has none. |
| CustomerForm.NewCustomerBody | client/src/components/CustomerList.tsx:92-96 | A new customer is posted with name, e-mail and phone all present, and the phone is empty exactly when the typed phone is blank. |
| CustomerForm.EditBody | client/src/components/CustomerList.tsx:88-89 | An edit posts the form as typed and never sends a visits value. |
| CustomerForm.EmailNormalForm | client/src/components/CustomerList.tsx:76-79 | An address the dialog accepts has no surrounding whitespace and still matches after lower-casing. |
| CustomerForm.DigitsUntrimmed | client/src/components/CustomerList.tsx:81-84 | A phone the dialog accepts has no surrounding whitespace. |
| CustomerForm.NormalisationKeepsChecks | client/src/components/CustomerList.tsx:92-96 | Normalising a savable form only lower-cases the e-mail, which still matches, and sends the phone as typed. |
| CustomerForm.ServerAcceptsSavedForm | client/src/components/CustomerList.tsx:292 | The server accepts a savable new customer exactly when the trimmed name has two or more characters and the phone is not empty; an empty phone, which the dialog allows, is refused with the phone message. |
| CustomerForm.ServerAcceptsEdit | server/src/routes/customers.ts:136-139 | The server's update validators accept a savable edit exactly when the name is not blank. |
| OrderListView.QuantityInput | client/src/components/OrderList.tsx:342 | A quantity input is never 0: an unparsable or zero entry reads as 1, anything else as its parsed value. |
| OrderListView.PriceInput | client/src/components/OrderList.tsx:358 | A price input reads as its parsed value, or 0 when it does not parse. |
| OrderListView.EditItem | client/src/components/OrderList.tsx:322-364 | On an item the store owns, the in-place assignment throws and the form is unchanged. Otherwise editing one input of item `i` changes only that item, in that part, and the total is the items' total afterwards. |
| OrderListView.AddItem | client/src/components/OrderList.tsx:377-379 | Adding appends one default item, a fresh object the form owns, leaves the other items' ownership alone, and the total is recomputed from the items. |
| OrderListView.RemoveItem | client/src/components/OrderList.tsx:365-374 | With more than one item the remove button drops exactly item `i`, with its ownership flag, and the total is recomputed; with one item nothing changes. |
| OrderListView.AddKeepsTotal | client/src/components/OrderList.tsx:83-86 | An added default item keeps the total and adds one unit. |
| OrderListView.RemoveTakesItsLine | client/src/components/OrderList.tsx:365-374 | A removal lowers the total by that item's line amount and the units by its quantity, and a non-empty item list never becomes empty. |
| OrderListView.PriceEditMovesTotal | client/src/components/OrderList.tsx:355-360 | A price edit of a form-owned item swaps its old line amount for its line amount at the new price; on a store-owned item the total does not move. |
| OrderListView.OpenEdit | client/src/components/OrderList.tsx:119-128 | Opening a listed row fails exactly when its customer is `null`; otherwise the form holds the populated customer id, the row's status, address and items, every item the store's own object, and the items' total. |
| OrderListView.ListedItemsCannotBeEdited | client/src/components/OrderList.tsx:119-128 | No input of any item of an order opened for editing changes the form. |
| OrderListView.AddedItemIsEditable | client/src/components/OrderList.tsx:322-379 | An item added to the dialog takes edits, while the store's items keep refusing them. |
| OrderListView.ColoursByStatus | client/src/components/OrderList.tsx:131-140 | Each of the five order statuses has its own colour, distinct from the colour of a status outside the enum. |
| OrderListView.EditCustomerId | client/src/components/OrderList.tsx:119-122 | The edit dialog gets a customer id exactly when the listed row's customer was populated. |
| OrderListView.EditKeepsCustomer | client/src/components/OrderList.tsx:119-122 | Opening any listed order for editing fills in the order's stored customer id when that customer exists, and fails exactly when no customer has it. |
| OrderListView.Body | client/src/components/OrderList.tsx:95-101 | The posted body carries one item per dialog item. |
| OrderListView.StoredItemsKeepTotal | server/src/routes/orders.ts:71-90 | The server's sanitizers keep every posted quantity and price, so the stored items add up to the dialog's items. |
| OrderListView.ServerStoresShownTotal | client/src/components/OrderList.tsx:83-101 | The total the dialog shows is the total the server stores for the order it creates. |
| OrderForm.InitialForm | client/src/components/OrderForm.tsx:52-58 | The dialog starts with one default item and a total of 0. |
| OrderForm.FormTotalIsItemsTotal | client/src/components/OrderForm.tsx:112-114 | The dialog's total is a number exactly when every quantity and price parsed, and it is then the order total of the items. |
| OrderForm.ChangeItem | client/src/components/OrderForm.tsx:98-110 | Changing an item alters only that item and recomputes the total from the items. |
| OrderForm.RemoveItem | client/src/components/OrderForm.tsx:89-96 | With one item the remove button does nothing; otherwise the item at the index is dropped and the total recomputed. |
| OrderForm.AddItem | client/src/components/OrderForm.tsx:82-87 | Adding appends a default item and leaves the total as it was. |
| OrderForm.TotalStaysInStep | client/src/components/OrderForm.tsx:82-114 | The total stays equal to the items' total through every handler, though adding does not recompute it, and an order never loses its last item. |
| OrderForm.StringAddressRejected | client/src/components/OrderForm.tsx:116-123 | While the address field holds text, as it always does for a new order, none of the validated address parts is posted, so the server refuses the body as a create and as an update, whatever the items. |
| OrderForm.EditedOrderRejected | client/src/components/OrderForm.tsx:61-70 | An edit posts back the listed order, whose customer is the populated document; the validator reads it as text that is no Mongo id, so the server refuses every edit. |
| Dashboard.CountCards | client/src/components/Dashboard.tsx:43-46 | The cards show the three list lengths and, as active, the number of drafts, which is at most the number of campaigns. |
| Dashboard.InsertSorted | client/src/components/Dashboard.tsx:48-54 | Inserting a row into a list sorted by spend, highest first, keeps it sorted. |
| Dashboard.InsertPerm | client/src/components/Dashboard.tsx:48-54 | Inserting a row adds exactly that row: the result is the old rows plus the new one, as a multiset. |
| Dashboard.SortBySpendCorrect | client/src/components/Dashboard.tsx:48-54 | Sorting by spend orders the rows largest first and keeps every row as often as it occurs. |
| Dashboard.TopSpendersCorrect | client/src/components/Dashboard.tsx:48-54 | The chart holds the five biggest spenders (fewer when there are fewer customers), largest first, and nobody left off spent more than anyone on it. |
| Dashboard.StatusSlicesCorrect | client/src/components/Dashboard.tsx:56-62 | Every pie slice is non-empty, a status has a slice exactly when some campaign has it, there are at most three, and they add up to the number of campaigns. |

## Left out

- MongoDB queries run as a plain matcher over the stored documents. Mongoose casting of filter values, `strictQuery`, and CastErrors raised by malformed path ids are not modelled. A malformed id is simply an id that no document has.
- The `contains` rule's `$regex` is a literal, ASCII case-insensitive substring test. Regular-expression metacharacters in rule values are not interpreted.
- `isEmail` is approximated by the e-mail pattern of the create chain (server/src/routes/customers.ts:66). The create chain applies both checks, so there the pattern decides. The update chain (server/src/routes/customers.ts:136) applies `isEmail` alone, and the model checks it with the same pattern. `normalizeEmail` is approximated by trimming and lower-casing.
- `isISO8601` is reduced to a three-way date input: none, well formed or malformed. The date grammar itself is not modelled.
- Money and averages are exact reals. Floating-point rounding is not modelled. The floors of 0.95, 0.7, 0.3, 0.8 and 0.4 of a count are taken exactly.
- `Number`, `parseInt` and `parseFloat` read decimal notation only. `Number` reads exponents, `Infinity` and `0x`, `0o` or `0b` literals as `NaN`, where JavaScript gives a number. `parseFloat` stops before an exponent, so `parseFloat('1e3')` is 1, not 1000. `parseInt` stops after the leading `0` of a `0x` literal, so `parseInt('0x10')` is 0, where JavaScript reads it as hexadecimal 16.
- Pagination.QueryInt: because of the `parseInt` difference above, a hexadecimal query value reads differently. `?page=0x2` is page 2 in the source and page 1, the default, in the model.
- `Math.random`, `Date.now` and `new Date()` are parameters. So is the vendor API, as one reply per message.
- Kafka events, the OpenAI-backed routes (`/segments/convert-rules`, the AI message service) and authentication are left out. They are I/O. The authenticated user is an optional id parameter.
- `Promise.all` and sequential `await`s are modelled as one ordered pass. Concurrent requests and races between them are not modelled.
- The `lastOrderDate` that the segment customer list computes and the customer's stored address are not modelled. Neither decides anything in the core.
- `GET /campaigns/:id`, `GET /orders/customer/:customerId` and `GET /messages` are plain lookups and are not modelled. The lookups they share with the write routes are.
- Object ids are opaque strings. Only the 24-hex-digit shape that `isMongoId` checks is modelled.
- JSX rendering, the delete confirmation dialogs, the list refetches components dispatch after a write, snackbar timing and the chip labels' capitalisation are left out. CampaignList's network requests for segments are modelled only as the choice of ids to request.
- Dispatch.InitialStats: the upfront 95/70/30 counters are modelled only as the value written before the first batch. The first batch always overwrites them.
- CustomerRoutes.UpdateCustomerFacts: only the `name`, `email`, `phone`, `visits` and `totalSpent` keys of the body are modelled. Any other key the body carries, such as an address or a timestamp, is written by the route as well and is not modelled.
- SegmentRules.SizeIsAudienceLength: rule values are compared as given. Mongoose casts a `countDocuments` filter to the schema's types while `aggregate` does not, so a value the cast refuses (`visits greaterThan "abc"`) makes the count a 400 "Invalid ID" while the list may come back empty. The equality holds only for values that need no cast.
- AudienceResolution.PreviewCountIsListLength: rests on SegmentRules.SizeIsAudienceLength and shares its limit. A rule value the schema cast would change or refuse can make the preview count and the list disagree.
- Request bodies are JSON objects whose values have the types the routes expect. A JSON `null` is read as a missing key. A value of the wrong type, such as a number where a string is expected, is not modelled, except for the populated customer an order edit posts back (OrderForm.EditedOrderRejected).
- Strings.ToLower: `toLowerCase()` is modelled on ASCII letters only; other letters keep their case.
- The segment body's `customers` array and the documents' `createdAt` and `updatedAt` timestamps are not modelled. Listing order is creation order instead.
- Pagination.NewestFirst: every collection is assumed to be stored in creation order with distinct `createdAt` values. The order MongoDB gives to equal timestamps is not modelled.
- ErrorHandler.HandleIsFirstMatch: the table of guards follows the middleware's if-chain closely by design. The point of the model is the order of the branches, which ErrorHandler.FirstMatch and the per-branch lemmas state.
- Dashboard.TopSpendersCorrect: a customer without a numeric `totalSpent` is ranked as 0. The `NaN` comparisons JavaScript's sort would make are not modelled, and the sort is modelled as a stable insertion sort.
- OrderForm.FormTotalIsItemsTotal: the conversion of items holding `NaN` into a posted body is not modelled. The server would reject them anyway.
- The client's notices are keyed by their own `id`, not by the server's `_id`; the server's message records are a separate model.
- OrderRoutes.PatchStatusFacts: the answer is the patched order as stored, with a plain `customerId`. The route populates it with the customer's `name` and `email` (server/src/routes/orders.ts:141), which is not modelled.
- OrderRoutes.UpdateOrderResult: the answer is the updated order as stored, with a plain `customerId`. The route populates it (server/src/routes/orders.ts:204), which is not modelled.
- The client slices hold listed campaigns and orders with plain reference ids; the populated objects are dropped when a list is read into a slice. CampaignList.ListedRowShowsSegment and OrderListView.EditKeepsCustomer take the populated rows straight from the server's list.
- Dispatch.Deliver: the answer is the whole campaign after delivery. The route answers a projection of it (`_id`, `name`, `status`, `sentAt`, `stats`) with the fixed text 'Campaign is being sent to customers via the vendor API' (server/src/routes/campaigns.ts:816-828), which is not modelled.
- OrderListView.EditItem: the redux store's state is taken to be deep-frozen, as Redux Toolkit's `createSlice` leaves it by default, so an item object the store owns rejects assignment. The thrown `TypeError` is modelled as the form staying unchanged. What React does with the error is not modelled.
- The compiled server code under `server/dist` and the client's theme and routing files are not part of this model.

## Findings

| source | as written | input that shows it | evidently intended | confidence | as-written member | corrected member |
|---|---|---|---|---|---|---|
| server/src/routes/messages.ts:89-93 | Messages are created with status `PENDING` and updated to `COMPLETED` or `FAILED`, but the message schema (server/src/models/Message.ts:50) accepts only `pending`, `delivered` and `failed`, so every `Message.create` throws | any campaign whose segment has one tagged customer | lower-case labels the schema accepts, so messages are created and the campaign ends completed or failed | high, not executed | Lifecycle.AsWrittenAlwaysFails | Lifecycle.CorrectedSenderOutcome |
| client/src/store/slices/campaignSlice.ts:64 | The list total is read from `response.data.total`, while the server sends it as `pagination.total` (server/src/routes/campaigns.ts:58-66), so the stored total is always 0 | any list answer, for example one with three stored campaigns | the total read from `pagination.total` | high, not executed | CampaignSlice.ListTotalAlwaysZero | CampaignSlice.ListTotalIsCollectionSize |

=== FILE: audience.dfy ===
/** Listing the customers behind a segment or a campaign, with summary
    statistics (server/src/routes/segments.ts `/:id/customers` and
    server/src/routes/campaigns.ts `/:id/customers`). */
module AudienceResolution {
  import opened Wrappers
  import opened Documents
  import opened Seqs
  import opened Collections
  import opened OrderModel
  import opened SegmentModel
  import opened SegmentRules
  import opened CampaignModel

  /** `Segment.findById(id)` */
  function FindSegment(segments: seq<Segment>, id: Id): (r: Option<Segment>)
    ensures r.Some? ==> r.value in segments && r.value.id == id
    ensures r.None? ==> forall i :: 0 <= i < |segments| ==> segments[i].id != id
  {
    FindById(segments, SegmentKey, id)
  }

  /** `Campaign.findById(id)` */
  function FindCampaign(campaigns: seq<Campaign>, id: Id): (r: Option<Campaign>)
    ensures r.Some? ==> r.value in campaigns && r.value.id == id
    ensures r.None? ==> forall i :: 0 <= i < |campaigns| ==> campaigns[i].id != id
  {
    FindById(campaigns, CampaignKey, id)
  }

  /** `c.totalSpent || 0` (and `c.visits || 0`) summed over a list. */
  function SumField(cs: seq<Customer>, f: string): real {
    Sum(cs, (c: Customer) => NumOrZero(Field(c, f)))
  }

  /** `count > 0 ? total / count : 0` */
  function Average(total: real, count: nat): (r: real)
    ensures count > 0 ==> r * (count as real) == total
    ensures count == 0 ==> r == 0.0
  {
    if count > 0 then total / (count as real) else 0.0
  }

  lemma AverageOfNothing(count: nat)
    ensures Average(0.0, count) == 0.0
  {
    if count > 0 {
      assert 0.0 / (count as real) == 0.0;
    }
  }

  // ---------------------------------------------------------------------
  // The segment's customer list.

  datatype SpendStats = SpendStats(totalCustomers: nat, totalSpent: real, averageSpent: real)
  datatype SegmentCustomers = SegmentCustomers(customers: seq<Customer>, statistics: SpendStats)

  /** The segment list's `totalSpent`: a `$sum` over the customer's orders of
      the path `total`, which the order schema does not have. */
  function OrdersTotalField(orders: seq<Order>, cid: Id): real {
    Sum(Filter(orders, (o: Order) => o.customerId == cid), (o: Order) => NumOrZero(OrderField(o, "total")))
  }

  function SegmentRow(orders: seq<Order>, c: Customer): Customer {
    SetField(Project(c, {"name", "email", "phone"}), "totalSpent", Num(OrdersTotalField(orders, c.id)))
  }

  function SegmentCustomerList(segments: seq<Segment>, store: seq<Customer>, orders: seq<Order>, id: Id)
    : (r: Result<SegmentCustomers>)
  {
    var segment := FindSegment(segments, id);
    if segment.None? then Err(HttpError(404, "Segment not found"))
    else
      var matched :- Audience(store, segment.value.rules, segment.value.ruleOperator);
      var rows := Map(matched, c => SegmentRow(orders, c));
      var total := SumField(rows, "totalSpent");
      Ok(SegmentCustomers(rows, SpendStats(|rows|, total, Average(total, |rows|))))
  }

  lemma {:induction false} OrdersTotalFieldIsZero(orders: seq<Order>, cid: Id)
    ensures OrdersTotalField(orders, cid) == 0.0
  {
    var os := Filter(orders, (o: Order) => o.customerId == cid);
    SumCongruent(os, (o: Order) => NumOrZero(OrderField(o, "total")), (o: Order) => 0.0);
    SumZero(os);
  }

  /** What a segment-list row keeps of its customer. */
  lemma SegmentRowFacts(orders: seq<Order>, c: Customer)
    ensures SegmentRow(orders, c).id == c.id
    ensures Field(SegmentRow(orders, c), "name") == Field(c, "name")
    ensures Field(SegmentRow(orders, c), "email") == Field(c, "email")
    ensures Field(SegmentRow(orders, c), "visits") == Absent
    ensures Field(SegmentRow(orders, c), "totalSpent") == Num(0.0)
  {
    OrdersTotalFieldIsZero(orders, c.id);
  }

  lemma SegmentRowsSpendNothing(matched: seq<Customer>, orders: seq<Order>)
    ensures SumField(Map(matched, c => SegmentRow(orders, c)), "totalSpent") == 0.0
  {
    forall i | 0 <= i < |matched|
      ensures ((c: Customer) => 0.0)(matched[i]) == ((c: Customer) => NumOrZero(Field(c, "totalSpent")))(SegmentRow(orders, matched[i]))
    {
      SegmentRowFacts(orders, matched[i]);
    }
    SumMap(matched, c => SegmentRow(orders, c), (c: Customer) => NumOrZero(Field(c, "totalSpent")), (c: Customer) => 0.0);
    SumZero(matched);
  }

  /** The segment list fails with 404 for an unknown segment and with a
      server error for a segment without rules. */
  lemma SegmentCustomerListErrors(segments: seq<Segment>, store: seq<Customer>, orders: seq<Order>, id: Id)
    ensures FindSegment(segments, id).None? ==>
      SegmentCustomerList(segments, store, orders, id) == Err(HttpError(404, "Segment not found"))
    ensures FindSegment(segments, id).Some? ==>
      (SegmentCustomerList(segments, store, orders, id).Err? <==> FindSegment(segments, id).value.rules == [])
    ensures FindSegment(segments, id).Some? && FindSegment(segments, id).value.rules == [] ==>
      SegmentCustomerList(segments, store, orders, id).error.status == 500
  {
  }

  /** Otherwise it has one row per audience member, in store order, keeping
      name and email (not visits) besides the computed `totalSpent` — which
      always comes out 0, as the path it sums does not exist on orders; so
      the statistics report the audience size and zero spend. */
  lemma SegmentCustomerListRows(segments: seq<Segment>, store: seq<Customer>, orders: seq<Order>, id: Id, s: Segment)
    requires FindSegment(segments, id) == Some(s) && s.rules != []
    ensures SegmentCustomerList(segments, store, orders, id).Ok?
    ensures var r := SegmentCustomerList(segments, store, orders, id).value;
      && r.statistics == SpendStats(|r.customers|, 0.0, 0.0)
      && Ids(r.customers) == Ids(Filter(store, c => SegmentAccepts(s.rules, s.ruleOperator, c)))
      && (forall i :: 0 <= i < |r.customers| ==>
            Field(r.customers[i], "visits") == Absent && Field(r.customers[i], "totalSpent") == Num(0.0))
  {
    AudienceCorrect(store, s.rules, s.ruleOperator);
    var matched := Audience(store, s.rules, s.ruleOperator).value;
    var rows := Map(matched, c => SegmentRow(orders, c));
    assert SegmentCustomerList(segments, store, orders, id)
      == Ok(SegmentCustomers(rows, SpendStats(|rows|, SumField(rows, "totalSpent"), Average(SumField(rows, "totalSpent"), |rows|))));
    SegmentRowsSpendNothing(matched, orders);
    AverageOfNothing(|rows|);
    assert matched == Filter(store, c => SegmentAccepts(s.rules, s.ruleOperator, c));
    SegmentRowsKeepIds(matched, orders);
  }

  lemma SegmentRowsKeepIds(matched: seq<Customer>, orders: seq<Order>)
    ensures Ids(Map(matched, c => SegmentRow(orders, c))) == Ids(matched)
    ensures var rows := Map(matched, c => SegmentRow(orders, c));
      forall i :: 0 <= i < |rows| ==> Field(rows[i], "visits") == Absent && Field(rows[i], "totalSpent") == Num(0.0)
  {
    var rows := Map(matched, c => SegmentRow(orders, c));
    forall i | 0 <= i < |matched|
      ensures rows[i].id == matched[i].id && Field(rows[i], "visits") == Absent && Field(rows[i], "totalSpent") == Num(0.0)
    {
      SegmentRowFacts(orders, matched[i]);
    }
  }

  /** The preview count, the stored `customerCount` and the length of the
      segment list agree whenever the list can be produced. */
  lemma PreviewCountIsListLength(segments: seq<Segment>, store: seq<Customer>, orders: seq<Order>, id: Id)
    requires SegmentCustomerList(segments, store, orders, id).Ok?
    ensures var s := FindSegment(segments, id).value;
      SegmentSize(store, s.rules, s.ruleOperator) == Ok(|SegmentCustomerList(segments, store, orders, id).value.customers|)
  {
    var s := FindSegment(segments, id).value;
    SizeIsAudienceLength(store, s.rules, s.ruleOperator);
  }

  // ---------------------------------------------------------------------
  // The campaign's customer list.

  /** `averageVisits` is absent from the snapshot statistics; in the live
      ones it is `$avg`, which is null when no visit count is numeric. */
  datatype AudienceStats = AudienceStats(
    totalCustomers: nat,
    totalVisits: real,
    totalSpent: real,
    averageVisits: Option<real>,
    averageSpent: real)

  datatype CampaignCustomers = CampaignCustomers(customers: seq<Customer>, statistics: AudienceStats)

  /** Populating an array of references: the referenced customers in the
      order of the ids, with ids that resolve to nothing dropped. */
  function Populate(ids: seq<Id>, store: seq<Customer>): (r: seq<Customer>)
    ensures |r| <= |ids|
    ensures forall i :: 0 <= i < |r| ==> r[i] in store && r[i].id in ids
    ensures forall i :: 0 <= i < |ids| && FindCustomer(store, ids[i]).Some? ==> FindCustomer(store, ids[i]).value in r
  {
    if ids == [] then []
    else
      var head := FindCustomer(store, ids[0]);
      (if head.Some? then [head.value] else []) + Populate(ids[1..], store)
  }

  /** Whether an id refers to a stored customer. */
  predicate Resolves(store: seq<Customer>, id: Id) {
    FindCustomer(store, id).Some?
  }

  /** The populated list is exactly one stored customer per resolvable id,
      in the order of the ids: its ids are the resolvable ids (duplicates
      kept), and each entry is the customer its id finds. */
  lemma {:induction false} PopulateResolvesInOrder(ids: seq<Id>, store: seq<Customer>)
    ensures Ids(Populate(ids, store)) == Filter(ids, id => Resolves(store, id))
    ensures forall k :: 0 <= k < |Populate(ids, store)| ==>
      FindCustomer(store, Populate(ids, store)[k].id) == Some(Populate(ids, store)[k])
  {
    if ids != [] {
      PopulateResolvesInOrder(ids[1..], store);
      var head := FindCustomer(store, ids[0]);
      var first: seq<Customer> := if head.Some? then [head.value] else [];
      var rest := Populate(ids[1..], store);
      assert Populate(ids, store) == first + rest;
      assert Ids(first + rest) == Ids(first) + Ids(rest);
      assert Ids(first) == if Resolves(store, ids[0]) then [ids[0]] else [];
    }
  }

  /** The statistics of a stored audience, computed in the handler. */
  function SnapshotStats(cs: seq<Customer>): (st: AudienceStats) {
    var spent := SumField(cs, "totalSpent");
    AudienceStats(|cs|, SumField(cs, "visits"), spent, None, Average(spent, |cs|))
  }

  /** The live lookup's `totalSpent`: the customer's delivered spend. */
  function Annotate(orders: seq<Order>, c: Customer): Customer {
    SetField(c, "totalSpent", Num(DeliveredSpend(orders, c.id)))
  }

  const LiveFields: set<string> := {"name", "email", "visits", "totalSpent"}

  function LiveRow(orders: seq<Order>, c: Customer): Customer {
    Project(Annotate(orders, c), LiveFields)
  }

  /** The `$group` stage over the annotated audience, or the zero default
      when nothing matched. */
  function GroupStats(annotated: seq<Customer>): AudienceStats {
    if annotated == [] then AudienceStats(0, 0.0, 0.0, Some(0.0), 0.0)
    else
      var visits := SumField(annotated, "visits");
      var numericVisits := Count(annotated, (c: Customer) => Field(c, "visits").Num?);
      var spent := SumField(annotated, "totalSpent");
      AudienceStats(|annotated|, visits, spent,
        if numericVisits == 0 then None else Some(visits / (numericVisits as real)),
        spent / (|annotated| as real))
  }

  predicate IsFinal(c: Campaign) {
    c.status == Completed || c.status == Failed
  }

  function CampaignCustomerList(campaigns: seq<Campaign>, segments: seq<Segment>, store: seq<Customer>,
                                orders: seq<Order>, id: Id): (r: Result<CampaignCustomers>)
  {
    var campaign := FindCampaign(campaigns, id);
    if campaign.None? then Err(HttpError(404, "Campaign not found"))
    else
      var attached := Populate(campaign.value.customers, store);
      if IsFinal(campaign.value) && |attached| > 0 then
        Ok(CampaignCustomers(attached, SnapshotStats(attached)))
      else
        var segment := FindSegment(segments, campaign.value.segmentId);
        if segment.None? then Err(HttpError(400, "No segment associated with this campaign"))
        else
          var matched :- Audience(store, segment.value.rules, segment.value.ruleOperator);
          var annotated := Map(matched, c => Annotate(orders, c));
          Ok(CampaignCustomers(Map(matched, c => LiveRow(orders, c)), GroupStats(annotated)))
  }

  /** A completed or failed campaign whose stored customers still resolve is
      answered from that snapshot alone: the segment and order collections
      play no part. */
  lemma SnapshotIgnoresSegmentAndOrders(campaigns: seq<Campaign>, segments1: seq<Segment>, segments2: seq<Segment>,
                                        store: seq<Customer>, orders1: seq<Order>, orders2: seq<Order>, id: Id)
    requires FindCampaign(campaigns, id).Some?
    requires IsFinal(FindCampaign(campaigns, id).value)
    requires |Populate(FindCampaign(campaigns, id).value.customers, store)| > 0
    ensures CampaignCustomerList(campaigns, segments1, store, orders1, id) == CampaignCustomerList(campaigns, segments2, store, orders2, id)
    ensures CampaignCustomerList(campaigns, segments1, store, orders1, id).Ok?
  {
  }

  /** A draft campaign is always resolved through its segment, whatever
      customers are stored on it; without a segment that is a 400. */
  lemma DraftUsesSegment(campaigns: seq<Campaign>, segments: seq<Segment>, store: seq<Customer>, orders: seq<Order>, id: Id)
    requires FindCampaign(campaigns, id).Some? && FindCampaign(campaigns, id).value.status == Draft
    ensures FindSegment(segments, FindCampaign(campaigns, id).value.segmentId).None? ==>
      CampaignCustomerList(campaigns, segments, store, orders, id) == Err(HttpError(400, "No segment associated with this campaign"))
    ensures FindSegment(segments, FindCampaign(campaigns, id).value.segmentId).Some? ==>
      var s := FindSegment(segments, FindCampaign(campaigns, id).value.segmentId).value;
      CampaignCustomerList(campaigns, segments, store, orders, id).Ok? <==> s.rules != []
  {
    var s := FindSegment(segments, FindCampaign(campaigns, id).value.segmentId);
    if s.Some? {
      AudienceCorrect(store, s.value.rules, s.value.ruleOperator);
    }
  }

  /** What a live row keeps of its customer. */
  lemma LiveRowFacts(orders: seq<Order>, c: Customer)
    ensures LiveRow(orders, c).id == c.id
    ensures forall f :: f in LiveFields && f != "totalSpent" ==> Field(LiveRow(orders, c), f) == Field(c, f)
    ensures Field(LiveRow(orders, c), "totalSpent") == Num(DeliveredSpend(orders, c.id))
    ensures forall g :: g !in LiveFields ==> Field(LiveRow(orders, c), g) == Absent
  {
  }

  /** In the live answer the rows are the segment's audience in store order,
      each showing only name, email, visits and its delivered spend. */
  lemma LiveRowsAreAudience(campaigns: seq<Campaign>, segments: seq<Segment>, store: seq<Customer>,
                            orders: seq<Order>, id: Id)
    requires FindCampaign(campaigns, id).Some?
    requires !IsFinal(FindCampaign(campaigns, id).value)
    requires CampaignCustomerList(campaigns, segments, store, orders, id).Ok?
    ensures var s := FindSegment(segments, FindCampaign(campaigns, id).value.segmentId).value;
      var rows := CampaignCustomerList(campaigns, segments, store, orders, id).value.customers;
      var members := Filter(store, c => SegmentAccepts(s.rules, s.ruleOperator, c));
      && |rows| == |members|
      && forall i :: 0 <= i < |rows| ==>
           && rows[i].id == members[i].id
           && Field(rows[i], "name") == Field(members[i], "name")
           && Field(rows[i], "visits") == Field(members[i], "visits")
           && Field(rows[i], "totalSpent") == Num(DeliveredSpend(orders, rows[i].id))
           && (forall g :: g !in LiveFields ==> Field(rows[i], g) == Absent)
  {
    var s := FindSegment(segments, FindCampaign(campaigns, id).value.segmentId).value;
    AudienceCorrect(store, s.rules, s.ruleOperator);
    var matched := Audience(store, s.rules, s.ruleOperator).value;
    var rows := CampaignCustomerList(campaigns, segments, store, orders, id).value.customers;
    assert rows == Map(matched, c => LiveRow(orders, c));
    forall i | 0 <= i < |rows|
      ensures rows[i].id == matched[i].id
      ensures Field(rows[i], "name") == Field(matched[i], "name")
      ensures Field(rows[i], "visits") == Field(matched[i], "visits")
      ensures Field(rows[i], "totalSpent") == Num(DeliveredSpend(orders, rows[i].id))
      ensures forall g :: g !in LiveFields ==> Field(rows[i], g) == Absent
    {
      LiveRowFacts(orders, matched[i]);
    }
  }

  /** Both answers report statistics consistent with the rows they return:
      the count is the number of rows, and the spend total and average are
      those of the rows' `totalSpent`. */
  lemma StatisticsAgreeWithRows(campaigns: seq<Campaign>, segments: seq<Segment>, store: seq<Customer>,
                                orders: seq<Order>, id: Id)
    requires CampaignCustomerList(campaigns, segments, store, orders, id).Ok?
    ensures var r := CampaignCustomerList(campaigns, segments, store, orders, id).value;
      && r.statistics.totalCustomers == |r.customers|
      && r.statistics.totalSpent == SumField(r.customers, "totalSpent")
      && r.statistics.totalVisits == SumField(r.customers, "visits")
      && r.statistics.averageSpent == Average(r.statistics.totalSpent, |r.customers|)
  {
    var campaign := FindCampaign(campaigns, id).value;
    var attached := Populate(campaign.customers, store);
    if !(IsFinal(campaign) && |attached| > 0) {
      var s := FindSegment(segments, campaign.segmentId).value;
      var matched := Audience(store, s.rules, s.ruleOperator).value;
      var annotated := Map(matched, c => Annotate(orders, c));
      var rows := Map(matched, c => LiveRow(orders, c));
      if matched != [] {
        RowsKeepField(matched, orders, "totalSpent");
        RowsKeepField(matched, orders, "visits");
      }
    }
  }

  /** Projecting the annotated documents keeps the summed fields, so the
      sums over the rows and over the annotated documents coincide. */
  lemma RowsKeepField(matched: seq<Customer>, orders: seq<Order>, f: string)
    requires f in LiveFields
    ensures SumField(Map(matched, c => LiveRow(orders, c)), f) == SumField(Map(matched, c => Annotate(orders, c)), f)
  {
    var read := (c: Customer) => NumOrZero(Field(c, f));
    var h := (x: Customer) => NumOrZero(Field(Annotate(orders, x), f));
    forall i | 0 <= i < |matched| ensures h(matched[i]) == read(LiveRow(orders, matched[i])) {
      LiveRowFacts(orders, matched[i]);
    }
    SumMap(matched, c => LiveRow(orders, c), read, h);
    SumMap(matched, c => Annotate(orders, c), read, h);
  }
}

=== FILE: campaign_form.dfy ===
/** The campaign editor of client/src/components/CampaignForm.tsx: the
    customer selection, the canned "AI" message, the checks run before
    submitting, and the body the form posts. */
module CampaignForm {
  import opened Wrappers
  import opened Strings
  import opened Validators
  import opened Seqs
  import opened Documents
  import opened SegmentModel
  import opened CampaignModel
  import opened AudienceResolution
  import Lifecycle

  /** The form's fields. `description` is `None` when the form was filled
      from a stored campaign: the campaign schema has no description, so the
      record the form receives has none either. */
  datatype FormState = FormState(
    name: string,
    description: Option<string>,
    segmentId: string,
    status: string,
    message: string,
    customers: seq<string>)

  const InitialForm := FormState("", Some(""), "", "draft", "", [])

  /** The form together with the component's separate `selectedCustomers`. */
  datatype Editor = Editor(form: FormState, selected: seq<string>)

  predicate NoDuplicates(xs: seq<string>) {
    forall i, j :: 0 <= i < j < |xs| ==> xs[i] != xs[j]
  }

  /** What the two add/remove handlers keep: the form's list is the
      selection, and no customer is selected twice. */
  predicate Consistent(e: Editor) {
    e.form.customers == e.selected && NoDuplicates(e.selected)
  }

  // ---------------------------------------------------------------------
  // Opening the form.

  /** The effect run when the dialog opens. For a stored campaign it reads
      `customerIds`, a key the server's campaign documents do not have (they
      hold `customers`), so the selection always starts empty. */
  function OpenEditor(editing: Option<Campaign>): (e: Editor)
    ensures Consistent(e) && e.selected == []
    ensures editing.None? ==> e.form == InitialForm
    ensures editing.Some? ==>
      && e.form.name == editing.value.name
      && e.form.segmentId == editing.value.segmentId
      && e.form.message == editing.value.message
      && e.form.status == StatusName(editing.value.status)
      && e.form.description.None?
  {
    match editing
    case None => Editor(InitialForm, [])
    case Some(c) => Editor(FormState(c.name, None, c.segmentId, StatusName(c.status), c.message, []), [])
  }

  // ---------------------------------------------------------------------
  // Customer selection.

  /** `handleAddCustomer`: appends an id not yet selected. */
  function AddCustomer(e: Editor, id: string): Editor {
    if id in e.selected then e
    else
      var selected := e.selected + [id];
      Editor(e.form.(customers := selected), selected)
  }

  /** `handleRemoveCustomer`: filters the id out of the selection. */
  function RemoveCustomer(e: Editor, id: string): Editor {
    var selected := Filter(e.selected, (x: string) => x != id);
    Editor(e.form.(customers := selected), selected)
  }

  lemma {:induction false} FilterKeepsDistinct(xs: seq<string>, p: string -> bool)
    requires NoDuplicates(xs)
    ensures NoDuplicates(Filter(xs, p))
  {
    if xs != [] {
      var tail := xs[1..];
      assert NoDuplicates(tail) by {
        forall i, j | 0 <= i < j < |tail| ensures tail[i] != tail[j] {
          assert tail[i] == xs[i + 1] && tail[j] == xs[j + 1];
        }
      }
      FilterKeepsDistinct(tail, p);
      var rest := Filter(tail, p);
      if p(xs[0]) {
        var r := [xs[0]] + rest;
        assert Filter(xs, p) == r;
        forall j | 0 < j < |r| ensures r[0] != r[j] {
          assert r[j] in tail;
          var k :| 0 <= k < |tail| && tail[k] == r[j];
          assert xs[k + 1] == r[j];
        }
      } else {
        assert Filter(xs, p) == rest;
      }
    }
  }

  /** Adding selects the customer and removing deselects it, nothing else
      changes in the selection, the form's list follows the selection, and
      removing a customer just added gives back the editor as it was. */
  lemma SelectionEdits(e: Editor, id: string)
    requires Consistent(e)
    ensures Consistent(AddCustomer(e, id)) && Consistent(RemoveCustomer(e, id))
    ensures forall x :: x in AddCustomer(e, id).selected <==> x in e.selected || x == id
    ensures forall x :: x in RemoveCustomer(e, id).selected <==> x in e.selected && x != id
    ensures AddCustomer(e, id).form.(customers := e.form.customers) == e.form
    ensures RemoveCustomer(e, id).form.(customers := e.form.customers) == e.form
    ensures id !in e.selected ==> RemoveCustomer(AddCustomer(e, id), id) == e
  {
    var p := (x: string) => x != id;
    FilterKeepsDistinct(e.selected, p);
    var a := AddCustomer(e, id);
    if id !in e.selected {
      assert NoDuplicates(a.selected) by {
        forall i, j | 0 <= i < j < |a.selected| ensures a.selected[i] != a.selected[j] {
          if j == |e.selected| {
            assert a.selected[i] == e.selected[i];
          }
        }
      }
      FilterAppend(e.selected, [id], p);
      FilterAll(e.selected, p);
      assert Filter([id], p) == [];
      assert a.selected == e.selected + [id];
    }
  }

  // ---------------------------------------------------------------------
  // The canned message.

  datatype Severity = SuccessSeverity | ErrorSeverity

  datatype Snackbar = Snackbar(message: string, severity: Severity)

  const GateMessage := "Campaign name and segment are required for AI generation"
  const SegmentMissing := "Selected segment not found"
  const Generated := "AI-generated message created successfully!"

  /** The message the form writes in place of calling the AI service. */
  function Template(segmentName: string, campaignName: string): string {
    "Dear valued " + segmentName + " customer! Discover the amazing benefits of our "
      + campaignName + " - click now to learn more and take advantage of this limited-time offer."
  }

  /** The template names the segment and the campaign and is never blank. */
  lemma TemplateNamesBoth(segmentName: string, campaignName: string)
    ensures Contains(Template(segmentName, campaignName), segmentName)
    ensures Contains(Template(segmentName, campaignName), campaignName)
    ensures Trim(Template(segmentName, campaignName)) != ""
  {
    var t := Template(segmentName, campaignName);
    var head := "Dear valued ";
    var middle := " customer! Discover the amazing benefits of our ";
    assert t == head + segmentName + middle + campaignName + " - click now to learn more and take advantage of this limited-time offer.";
    assert OccursAt(segmentName, t, |head|) by {
      assert t[|head|..|head| + |segmentName|] == segmentName;
    }
    var at := |head| + |segmentName| + |middle|;
    assert OccursAt(campaignName, t, at) by {
      assert t[at..at + |campaignName|] == campaignName;
    }
    assert t[0] == 'D';
    NonSpaceNotBlank(t, 0);
  }

  /** `handleGenerateAIMessage`: the raw (untrimmed) name and the segment
      must be set, the segment must be among the form's segments, and then
      the message field receives the template. */
  function GenerateMessage(f: FormState, segments: seq<Segment>): (r: (FormState, Snackbar))
    ensures r.1.severity == ErrorSeverity <==> f.name == "" || f.segmentId == "" || FindSegment(segments, f.segmentId).None?
    ensures r.1.severity == ErrorSeverity ==> r.0 == f
    ensures r.1.severity == SuccessSeverity ==> r.0 == f.(message := Template(FindSegment(segments, f.segmentId).value.name, f.name))
  {
    if f.name == "" || f.segmentId == "" then (f, Snackbar(GateMessage, ErrorSeverity))
    else
      match FindSegment(segments, f.segmentId)
      case None => (f, Snackbar(SegmentMissing, ErrorSeverity))
      case Some(s) => (f.(message := Template(s.name, f.name)), Snackbar(Generated, SuccessSeverity))
  }

  /** A generated message names the chosen segment and the campaign and
      satisfies both the form's and the server's message check. */
  lemma GeneratedMessageIsUsable(f: FormState, segments: seq<Segment>)
    requires GenerateMessage(f, segments).1.severity == SuccessSeverity
    ensures var g := GenerateMessage(f, segments).0;
      && Contains(g.message, FindSegment(segments, f.segmentId).value.name)
      && Contains(g.message, f.name)
      && Trim(g.message) != "" && NotBlank(Some(g.message))
      && g.(message := f.message) == f
  {
    TemplateNamesBoth(FindSegment(segments, f.segmentId).value.name, f.name);
  }

  // ---------------------------------------------------------------------
  // Submitting.

  datatype Field = NameField | DescriptionField | SegmentField | MessageField | CustomersField

  const AllFields: set<Field> := {NameField, DescriptionField, SegmentField, MessageField, CustomersField}

  /** The check `handleSubmit` makes of one field. */
  predicate FieldMissing(f: FormState, description: string, k: Field) {
    match k
    case NameField => Trim(f.name) == ""
    case DescriptionField => Trim(description) == ""
    case SegmentField => f.segmentId == ""
    case MessageField => Trim(f.message) == ""
    case CustomersField => f.customers == []
  }

  function ErrorText(k: Field): string {
    match k
    case NameField => "Campaign name is required"
    case DescriptionField => "Description is required"
    case SegmentField => "Segment is required"
    case MessageField => "Campaign message is required"
    case CustomersField => "At least one customer is required"
  }

  /** The per-field errors of `handleSubmit`; an empty map lets the form post. */
  function FieldErrors(f: FormState, description: string): (r: map<Field, string>)
    ensures NameField in r <==> Trim(f.name) == ""
    ensures DescriptionField in r <==> Trim(description) == ""
    ensures SegmentField in r <==> f.segmentId == ""
    ensures MessageField in r <==> Trim(f.message) == ""
    ensures CustomersField in r <==> f.customers == []
    ensures CustomersField in r ==> r[CustomersField] == "At least one customer is required"
  {
    map k | k in AllFields && FieldMissing(f, description, k) :: ErrorText(k)
  }

  /** The body posted to the server. The selection travels as
      `customerIds`, a key the server does not read, and the description
      is not part of the campaign schema; neither reaches the server's
      body. */
  function ToBody(f: FormState): (b: Lifecycle.CampaignBody)
    ensures b.customers.None? && b.scheduledFor.NoDate?
    ensures b.name == Some(f.name) && b.segmentId == Some(f.segmentId) && b.message == Some(f.message)
  {
    Lifecycle.CampaignBody(Some(f.name), Some(f.segmentId), Some(f.message), Lifecycle.NoDate, Some(f.status), None)
  }

  /** Submitting: `description.trim()` throws on a missing description
      before any check runs; errors block; otherwise the body is posted. */
  datatype SubmitOutcome = Crashed | Blocked(errors: map<Field, string>) | Posted(body: Lifecycle.CampaignBody)

  function Submit(f: FormState): (r: SubmitOutcome)
    ensures r.Crashed? <==> f.description.None?
    ensures r.Posted? ==> r.body == ToBody(f) && f.customers != [] && Trim(f.name) != ""
    ensures r.Blocked? ==> r.errors != map[]
  {
    if f.description.None? then Crashed
    else
      var errors := FieldErrors(f, f.description.value);
      if errors != map[] then Blocked(errors) else Posted(ToBody(f))
  }

  /** A stored campaign reopened for editing cannot be submitted as it is:
      the missing description makes the submit handler throw, and even with
      a description typed in, the empty selection blocks it. */
  lemma ReopenedCampaignNeedsRework(c: Campaign, description: string)
    ensures Submit(OpenEditor(Some(c)).form).Crashed?
    ensures var f := OpenEditor(Some(c)).form.(description := Some(description));
      Submit(f).Blocked? && CustomersField in Submit(f).errors
  {
  }

  /** What the form posts passes the server's validators when the segment
      comes from the form's menu (a real object id) and the status from its
      status menu: the form's checks cover every server check but the id's
      shape. */
  lemma PostedBodyIsValid(f: FormState)
    requires Submit(f).Posted?
    requires IsMongoId(f.segmentId) && f.status in {"draft", "completed", "failed"}
    ensures Lifecycle.ValidationMessages(Submit(f).body) == []
  {
    assert f.description.Some? && FieldErrors(f, f.description.value) == map[];
    assert MessageField !in FieldErrors(f, f.description.value);
  }

  /** The selection has no effect on what the server stores: two forms that
      differ only in their selected customers create the same campaign, whose
      audience is the customers tagged with the segment. */
  lemma SelectionIsIgnored(campaigns: seq<Campaign>, segments: seq<Segment>, store: seq<Customer>,
                           user: Option<Id>, f: FormState, other: seq<string>, newId: Id)
    ensures Lifecycle.CreateCampaign(campaigns, segments, store, user, ToBody(f), newId)
      == Lifecycle.CreateCampaign(campaigns, segments, store, user, ToBody(f.(customers := other)), newId)
    ensures var o := Lifecycle.CreateCampaign(campaigns, segments, store, user, ToBody(f), newId);
      o.response.Ok? ==> o.response.value.customers == Lifecycle.CustomersTaggedWith(store, f.segmentId)
  {
    var o := Lifecycle.CreateCampaign(campaigns, segments, store, user, ToBody(f), newId);
    if o.response.Ok? {
      Lifecycle.CreateCampaignResult(campaigns, segments, store, user, ToBody(f), newId);
    }
  }
}

=== FILE: campaign_list.dfy ===
/** The campaign table of client/src/components/CampaignList.tsx: the status
    chip's colour, which row actions a status allows, the segment column's
    name lookup, the dialog's segment-id check and the grid's paging. */
module CampaignList {
  import opened Wrappers
  import opened Validators
  import opened Documents
  import opened SegmentModel
  import opened CampaignModel
  import opened AudienceResolution
  import opened Pagination
  import Lifecycle

  // ---------------------------------------------------------------------
  // Status chip and row actions.

  /** `getStatusColor`: unknown statuses fall back to the draft colour. */
  function StatusColor(status: string): string {
    match status
    case "draft" => "default"
    case "completed" => "success"
    case "failed" => "error"
    case _ => "default"
  }

  /** The edit button is enabled, and the send button shown, only for
      drafts; the delete button is hidden only for completed campaigns. */
  predicate EditEnabled(status: string) { status == "draft" }
  predicate SendShown(status: string) { status == "draft" }
  predicate DeleteShown(status: string) { status != "completed" }

  /** The colours tell the three stored statuses apart except draft from an
      unknown status. */
  lemma ColoursByStatus(other: string)
    requires other !in {"draft", "completed", "failed"}
    ensures StatusColor(StatusName(Draft)) == "default"
    ensures StatusColor(StatusName(Completed)) == "success"
    ensures StatusColor(StatusName(Status.Failed)) == "error"
    ensures StatusColor(other) == StatusColor(StatusName(Draft))
    ensures forall a: Status, b: Status :: StatusColor(StatusName(a)) == StatusColor(StatusName(b)) ==> a == b
  {
  }

  /** The row actions against the server's guards: send and delete are
      offered exactly when the server allows them, while edit is offered
      for drafts only although the server also accepts updates to failed
      campaigns. */
  lemma ActionsFollowServerGuards()
    ensures forall st: Status :: SendShown(StatusName(st)) <==> Lifecycle.MaySend(st)
    ensures forall st: Status :: DeleteShown(StatusName(st)) <==> Lifecycle.MayDelete(st)
    ensures forall st: Status :: EditEnabled(StatusName(st)) ==> Lifecycle.MayUpdate(st)
    ensures Lifecycle.MayUpdate(Status.Failed) && !EditEnabled(StatusName(Status.Failed))
  {
    forall st: Status ensures SendShown(StatusName(st)) <==> Lifecycle.MaySend(st) {
      match st
      case Draft =>
      case Completed =>
      case Failed =>
    }
  }

  // ---------------------------------------------------------------------
  // The edit dialog.

  datatype DialogForm = DialogForm(
    name: string,
    description: string,
    segmentId: string,
    status: string,
    message: string,
    scheduledFor: Lifecycle.DateInput)

  const BadSegmentId := "Please enter a valid Segment ID"

  /** The edit dialog's `handleSubmit`: a segment id that is not 24
      hexadecimal characters is refused with a notice; otherwise the body is
      sent without a customer list. Nothing in the page opens this dialog:
      only the two `handleEdit` functions set its mode, and no control calls
      either (the edit button opens CampaignForm instead), so this is the
      behaviour of dead code. */
  function DialogSubmit(f: DialogForm): (r: Result<Lifecycle.CampaignBody>)
    ensures r.Err? <==> !IsMongoId(f.segmentId)
    ensures r.Err? ==> r.error.message == BadSegmentId
    ensures r.Ok? ==> r.value.segmentId == Some(f.segmentId) && r.value.customers.None?
    ensures r.Ok? ==> r.value.name == Some(f.name) && r.value.message == Some(f.message) && r.value.status == Some(f.status)
  {
    if !IsMongoId(f.segmentId) then Err(HttpError(400, BadSegmentId))
    else Ok(Lifecycle.CampaignBody(Some(f.name), Some(f.segmentId), Some(f.message), f.scheduledFor, Some(f.status), None))
  }

  /** The dialog's check is the server's segment-id check: a body it sends
      is refused by the server's validators only for a blank name or
      message, a malformed date or an unknown status, never for the id. */
  lemma DialogCheckMatchesServer(f: DialogForm)
    requires DialogSubmit(f).Ok?
    ensures var b := DialogSubmit(f).value;
      Lifecycle.ValidationMessages(b) == [] <==>
        NotBlank(Some(f.name)) && NotBlank(Some(f.message)) && f.scheduledFor != Lifecycle.BadDate
        && f.status in Lifecycle.RequestStatuses
    ensures "Invalid segment ID" !in Lifecycle.ValidationMessages(DialogSubmit(f).value)
  {
  }

  // ---------------------------------------------------------------------
  // The segment column.

  /** A row's `segmentId`: absent, a plain id, or a populated segment
      object with its `_id` and `name` (empty when it has none). */
  datatype SegmentRef = Unset | ById(id: string) | Embedded(objectId: Option<string>, name: string)

  const UnknownSegment := "Unknown Segment"
  const NoSegment := "No Segment"
  const LoadingSegment := "Loading segment..."

  /** The id looked up for a row: an object without `_id` stringifies to
      `[object Object]`. */
  function LookupId(ref: SegmentRef): string {
    match ref
    case Unset => ""
    case ById(id) => id
    case Embedded(oid, _) => if oid.Some? && oid.value != "" then oid.value else "[object Object]"
  }

  /** The name the cache (only when non-empty) or else the store gives for
      an id. */
  function KnownName(id: string, cache: map<string, string>, store: seq<Segment>): (r: Option<string>)
    ensures id in cache && cache[id] != "" ==> r == Some(cache[id])
    ensures !(id in cache && cache[id] != "") ==>
      (r.Some? <==> FindSegment(store, id).Some?) && (r.Some? ==> r.value == FindSegment(store, id).value.name)
  {
    if id in cache && cache[id] != "" then Some(cache[id])
    else
      match FindSegment(store, id)
      case None => None
      case Some(s) => Some(s.name)
  }

  /** The column's `valueGetter`, used for sorting and filtering. */
  function SortKey(ref: SegmentRef, cache: map<string, string>, store: seq<Segment>): (r: string)
    ensures ref.Embedded? && ref.name != "" ==> r == ref.name
    ensures r == UnknownSegment
      || (ref.Embedded? && r == ref.name)
      || (exists id :: id in cache && r == cache[id])
      || (exists s :: s in store && r == s.name)
  {
    if ref.Embedded? && ref.name != "" then ref.name
    else
      var id := LookupId(ref);
      if id == "" then UnknownSegment
      else
        var known := KnownName(id, cache, store);
        if known.Some? then known.value else UnknownSegment
  }

  /** The column's `renderCell`: the same lookup, with its own texts for a
      missing id and an unresolved or empty name. */
  function CellText(ref: SegmentRef, cache: map<string, string>, store: seq<Segment>): string {
    if ref.Embedded? && ref.name != "" then ref.name
    else
      var id := LookupId(ref);
      if id == "" then NoSegment
      else
        var known := KnownName(id, cache, store);
        if known.Some? && known.value != "" then known.value else LoadingSegment
  }

  /** The two renderings of the column agree whenever a non-empty name is
      found, in the order embedded object, cache, store; when nothing is
      found the sort key is "Unknown Segment" while the cell reads "No
      Segment" or "Loading segment...". */
  lemma CellMatchesSortKey(ref: SegmentRef, cache: map<string, string>, store: seq<Segment>)
    ensures var id := LookupId(ref);
      !(ref.Embedded? && ref.name != "") && id != "" && KnownName(id, cache, store).Some?
      && KnownName(id, cache, store).value != ""
      ==> CellText(ref, cache, store) == SortKey(ref, cache, store) == KnownName(id, cache, store).value
    ensures var id := LookupId(ref);
      !(ref.Embedded? && ref.name != "") && (id == "" || KnownName(id, cache, store).None?)
      ==> SortKey(ref, cache, store) == UnknownSegment && CellText(ref, cache, store) in {NoSegment, LoadingSegment}
    ensures ref.ById? && ref.id != "" && ref.id in cache && cache[ref.id] != "" ==> SortKey(ref, cache, store) == cache[ref.id]
    ensures ref.ById? && ref.id != "" && ref.id !in cache && FindSegment(store, ref.id).Some?
      ==> SortKey(ref, cache, store) == FindSegment(store, ref.id).value.name
  {
  }

  /** The `segmentId` of a row as the server lists it: the populated
      segment, or `null`, which the column reads as no id at all. */
  function ListedRef(row: Lifecycle.ListedCampaign): SegmentRef {
    match row.segment
    case None => Unset
    case Some(s) => Embedded(Some(s.id), s.name)
  }

  /** A row the server listed names its segment straight from the populated
      object, with no lookup and no fetch, whenever the segment has a name;
      a row whose segment was deleted shows "No Segment", sorts as "Unknown
      Segment", and fetches nothing either. */
  lemma ListedRowShowsSegment(segments: seq<Segment>, c: Campaign, cache: map<string, string>, store: seq<Segment>)
    ensures var ref := ListedRef(Lifecycle.ListRow(segments, c));
      && (FindSegment(segments, c.segmentId).Some? && FindSegment(segments, c.segmentId).value.name != "" ==>
            && SortKey(ref, cache, store) == FindSegment(segments, c.segmentId).value.name
            && CellText(ref, cache, store) == FindSegment(segments, c.segmentId).value.name
            && SegmentsToFetch([ref], cache, store) == [])
      && (FindSegment(segments, c.segmentId).None? ==>
            && SortKey(ref, cache, store) == UnknownSegment
            && CellText(ref, cache, store) == NoSegment
            && SegmentsToFetch([ref], cache, store) == [])
  {
  }

  /** The ids the prefetch effect requests from the server: rows without an
      embedded name whose id is neither cached nor in the store and has the
      object-id shape. */
  function SegmentsToFetch(refs: seq<SegmentRef>, cache: map<string, string>, store: seq<Segment>): (r: seq<string>)
    ensures forall x :: x in r ==> IsMongoId(x) && x !in cache && FindSegment(store, x).None?
    ensures forall i :: (0 <= i < |refs| && !(refs[i].Embedded? && refs[i].name != "")
      && IsMongoId(LookupId(refs[i])) && LookupId(refs[i]) !in cache && FindSegment(store, LookupId(refs[i])).None?
      ==> LookupId(refs[i]) in r)
  {
    if refs == [] then []
    else
      var ref := refs[0];
      var id := LookupId(ref);
      var rest := SegmentsToFetch(refs[1..], cache, store);
      if !(ref.Embedded? && ref.name != "") && id != "" && id !in cache
         && FindSegment(store, id).None? && IsMongoId(id)
      then [id] + rest
      else rest
  }

  // ---------------------------------------------------------------------
  // Paging.

  /** `handlePageChange`: the grid counts pages from 0, the API from 1. */
  function ApiPage(gridPage: nat): (p: int)
    ensures p >= 1
  {
    gridPage + 1
  }

  /** Grid page `g` shows the rows starting at `g * limit`; the first grid
      page is the first API page. */
  lemma GridPageShowsItsRows<T>(xs: seq<T>, gridPage: nat, limit: int)
    requires limit > 0
    ensures Skip(ApiPage(gridPage), limit) == gridPage * limit
    ensures Window(xs, ApiPage(gridPage), limit).Ok?
    ensures gridPage * limit < |xs| ==> Window(xs, ApiPage(gridPage), limit).value[0] == xs[gridPage * limit]
    ensures ApiPage(0) == 1
  {
    assert Skip(gridPage + 1, limit) == gridPage * limit;
    assert gridPage * limit >= 0;
  }
}

=== FILE: campaign_model.dfy ===
/** Campaigns (server/src/models/Campaign.ts): status draft, completed or
    failed (default draft), the attached customer ids, and six delivery
    counters that all default to 0. */
module CampaignModel {
  import opened Wrappers
  import opened Documents
  import opened Strings

  datatype Status = Draft | Completed | Failed

  function StatusName(st: Status): string {
    match st
    case Draft => "draft"
    case Completed => "completed"
    case Failed => "failed"
  }

  /** The schema's status enum: anything else, `scheduled` and `running`
      included, fails validation on save. */
  function ParseStatus(s: string): (r: Option<Status>)
    ensures r.Some? <==> s in {"draft", "completed", "failed"}
    ensures r.Some? ==> StatusName(r.value) == s
  {
    if s == "draft" then Some(Draft)
    else if s == "completed" then Some(Completed)
    else if s == "failed" then Some(Failed)
    else None
  }

  /** The delivery counters; `opens` and `clicks` are the source's `opened` and
      `clicked` (`opened` is a reserved word here). */
  datatype Stats = Stats(totalAudience: nat, sent: nat, delivered: nat, failed: nat, opens: nat, clicks: nat)

  const ZeroStats := Stats(0, 0, 0, 0, 0, 0)

  datatype Campaign = Campaign(
    id: Id,
    name: string,
    segmentId: Id,
    message: string,
    customers: seq<Id>,
    status: Status,
    stats: Stats,
    sentAt: Option<int>)

  /** The primary key `_id`. */
  function CampaignKey(c: Campaign): string { c.id }

  /** A new campaign document: the name is trimmed by the schema, the status
      defaults to draft, and every counter starts at 0. */
  function NewCampaign(id: Id, name: string, segmentId: Id, message: string,
                       customers: seq<Id>, status: Option<Status>): (c: Campaign)
    ensures c.status == (if status.Some? then status.value else Draft)
    ensures c.stats == Stats(0, 0, 0, 0, 0, 0)
    ensures c.name == Trim(name) && c.customers == customers && c.sentAt.None?
  {
    Campaign(id, Trim(name), segmentId, message, customers, status.GetOr(Draft), ZeroStats, None)
  }

  /** Required name (after trimming), segment and message. */
  predicate SchemaValid(c: Campaign) {
    c.name != "" && c.segmentId != "" && c.message != ""
  }
}

=== FILE: campaign_slice.dfy ===
/** The client's campaign state (client/src/store/slices/campaignSlice.ts):
    the campaign list with its pagination, and the customer list and
    statistics of the campaign being looked at, with the two thunks whose
    logic decides what the reducer stores. */
module CampaignSlice {
  import opened Wrappers
  import opened Documents
  import opened Seqs
  import opened Collections
  import opened ListSlice
  import opened SegmentModel
  import opened CampaignModel
  import opened OrderModel
  import opened AudienceResolution
  import Pagination
  import Lifecycle
  import Dispatch

  /** The four statistics fields the client keeps. */
  datatype ClientStats = ClientStats(totalCustomers: nat, totalVisits: real, totalSpent: real, averageSpent: real)

  const ZeroStats := ClientStats(0, 0.0, 0.0, 0.0)

  datatype PageState = PageState(page: int, limit: int, total: int)

  datatype CampaignState = CampaignState(
    campaigns: seq<Campaign>,
    customers: seq<Customer>,
    statistics: ClientStats,
    loading: bool,
    error: Option<string>,
    pagination: PageState)

  const InitialState := CampaignState([], [], ZeroStats, false, None, PageState(1, 10, 0))

  // ---------------------------------------------------------------------
  // The fetchCampaigns thunk.

  datatype FetchedPage = FetchedPage(campaigns: seq<Campaign>, page: int, limit: int, total: int)

  /** As written: `total` is read from the top level of the body, where the
      server does not put it, so `response.data.total || 0` is always 0. */
  function ReadListAsWritten(b: Lifecycle.CampaignListBody, page: int, limit: int): (r: FetchedPage)
    ensures r.campaigns == Lifecycle.ListedCampaigns(b.campaigns) && r.page == page && r.limit == limit
  {
    FetchedPage(Lifecycle.ListedCampaigns(b.campaigns), page, limit, 0)
  }

  /** The reading the page state needs: the total from `pagination.total`. */
  function ReadList(b: Lifecycle.CampaignListBody, page: int, limit: int): (r: FetchedPage)
    ensures r.campaigns == Lifecycle.ListedCampaigns(b.campaigns) && r.page == page && r.limit == limit
  {
    FetchedPage(Lifecycle.ListedCampaigns(b.campaigns), page, limit, b.pagination.total)
  }

  // ---------------------------------------------------------------------
  // The fetchCampaignCustomers thunk.

  /** The statistics the thunk computes itself from a customer list. */
  function RowStats(cs: seq<Customer>): (st: ClientStats)
    ensures st.totalCustomers == |cs|
    ensures cs == [] ==> st == ZeroStats
  {
    var spent := SumField(cs, "totalSpent");
    AverageOfNothing(0);
    ClientStats(|cs|, SumField(cs, "visits"), spent, Average(spent, |cs|))
  }

  /** The four fields of the server's statistics object the client uses. */
  function ClientView(st: AudienceStats): ClientStats {
    ClientStats(st.totalCustomers, st.totalVisits, st.totalSpent, st.averageSpent)
  }

  /** `GET /customers/:id` for each stored id, a failed request giving null,
      then the nulls filtered out. */
  function Resolve(ids: seq<Id>, lookup: Id -> Option<Customer>): (r: seq<Customer>)
    ensures |r| <= |ids|
    ensures forall c :: c in r ==> exists j :: 0 <= j < |ids| && lookup(ids[j]) == Some(c)
    ensures (forall j :: 0 <= j < |ids| ==> lookup(ids[j]).None?) ==> r == []
  {
    if ids == [] then []
    else
      var head := lookup(ids[0]);
      var rest := Resolve(ids[1..], lookup);
      assert forall c :: c in rest ==> exists j :: 0 <= j < |ids| && lookup(ids[j]) == Some(c) by {
        forall c | c in rest ensures exists j :: 0 <= j < |ids| && lookup(ids[j]) == Some(c) {
          var j :| 0 <= j < |ids[1..]| && lookup(ids[1..][j]) == Some(c);
          assert lookup(ids[j + 1]) == Some(c);
        }
      }
      (if head.Some? then [head.value] else []) + rest
  }

  /** Whether `GET /customers/:id` answers for an id. */
  function Answered(lookup: Id -> Option<Customer>): Id -> bool {
    id => lookup(id).Some?
  }

  /** The customer an answered id gives. */
  function Answer(lookup: Id -> Option<Customer>): Id -> Customer {
    id => lookup(id).GetOr(Customer("", map[]))
  }

  /** The resolved list is exactly the answers for the answered ids, in the
      order of the ids. */
  lemma {:induction false} ResolveInOrder(ids: seq<Id>, lookup: Id -> Option<Customer>)
    ensures Resolve(ids, lookup) == Map(Filter(ids, Answered(lookup)), Answer(lookup))
  {
    if ids != [] {
      var tail := ids[1..];
      ResolveInOrder(tail, lookup);
      var first := if lookup(ids[0]).Some? then [ids[0]] else [];
      assert Filter(ids, Answered(lookup)) == first + Filter(tail, Answered(lookup));
      MapAppend(first, Filter(tail, Answered(lookup)), Answer(lookup));
    }
  }

  datatype CustomersPayload = CustomersPayload(customers: seq<Customer>, statistics: ClientStats)

  /** The thunk. `apiCustomers` and `apiStats` are the answer of
      `GET /campaigns/:id/customers` (after `|| []`; `None` for a missing
      statistics object); `attached` are the ids of `GET /campaigns/:id`,
      consulted only when the first answer has no rows; `lookup` answers
      `GET /customers/:id`. */
  function FetchCustomers(apiCustomers: seq<Customer>, apiStats: Option<ClientStats>, attached: seq<Id>,
                          lookup: Id -> Option<Customer>): (r: CustomersPayload)
  {
    var stats := if apiStats.Some? then apiStats.value else ZeroStats;
    var valid := if apiCustomers == [] then Resolve(attached, lookup) else [];
    if valid != [] then CustomersPayload(valid, RowStats(valid))
    else if stats.totalCustomers == 0 && apiCustomers != [] then CustomersPayload(apiCustomers, RowStats(apiCustomers))
    else CustomersPayload(apiCustomers, stats)
  }

  /** Rows from the first answer are kept as they are; without them the rows
      are the attached customers that resolve. The statistics describe the
      rows whenever the thunk had to compute them: when the server sent none,
      when it sent a zero count, or when the rows came from the fallback. */
  lemma FetchCustomersRows(apiCustomers: seq<Customer>, apiStats: Option<ClientStats>, attached: seq<Id>,
                           lookup: Id -> Option<Customer>)
    ensures var r := FetchCustomers(apiCustomers, apiStats, attached, lookup);
      && (apiCustomers != [] ==> r.customers == apiCustomers)
      && (apiCustomers == [] ==> r.customers == Resolve(attached, lookup))
      && ((r.customers != [] && (apiCustomers == [] || apiStats.None? || apiStats.value.totalCustomers == 0))
            ==> r.statistics == RowStats(r.customers))
      && (apiCustomers != [] && apiStats.Some? && apiStats.value.totalCustomers != 0 ==> r.statistics == apiStats.value)
  {
  }

  /** Against the server's campaign customer list the client shows what the
      server sent, and those statistics are the ones it would have computed
      from the rows itself. */
  lemma FetchCustomersAgreesWithServer(campaigns: seq<Campaign>, segments: seq<Segment>, store: seq<Customer>,
                                       orders: seq<Order>, id: Id, attached: seq<Id>, lookup: Id -> Option<Customer>)
    requires CampaignCustomerList(campaigns, segments, store, orders, id).Ok?
    requires CampaignCustomerList(campaigns, segments, store, orders, id).value.customers != []
    ensures var cc := CampaignCustomerList(campaigns, segments, store, orders, id).value;
      FetchCustomers(cc.customers, Some(ClientView(cc.statistics)), attached, lookup)
        == CustomersPayload(cc.customers, RowStats(cc.customers))
  {
    StatisticsAgreeWithRows(campaigns, segments, store, orders, id);
  }

  /** The server has no `GET /customers/:id` route, so every lookup of the
      fallback fails and an empty first answer stays empty, with the
      server's statistics (or zeros) kept. */
  lemma FallbackFindsNothing(apiStats: Option<ClientStats>, attached: seq<Id>)
    ensures FetchCustomers([], apiStats, attached, (i: Id) => None)
      == CustomersPayload([], if apiStats.Some? then apiStats.value else ZeroStats)
  {
  }

  // ---------------------------------------------------------------------
  // The reducer.

  datatype Action =
    | ClearCustomers
    | FetchPending
    | FetchFulfilled(fetched: FetchedPage)
    | FetchRejected(payload: Option<string>)
    | CreateFulfilled(campaign: Campaign)
    | UpdateFulfilled(campaign: Campaign)
    | DeleteFulfilled(id: Id)
    | CustomersPending
    | CustomersFulfilled(loaded: CustomersPayload)
    | CustomersRejected(message: Option<string>)
    | SendPending
    | SendFulfilled(id: Id)
    | SendRejected(payload: Option<string>)

  const FetchFailed := "Failed to fetch campaigns"
  const CustomersFailed := "Failed to fetch campaign customers"

  /** `campaign.status = 'completed'` on the first campaign with the id. */
  function MarkCompleted(cs: seq<Campaign>, id: Id): (r: seq<Campaign>)
    ensures |r| == |cs|
    ensures forall i :: 0 <= i < |cs| ==>
      r[i] == (if FirstIndex(cs, CampaignKey, id) == Some(i) then cs[i].(status := Completed) else cs[i])
  {
    var k := FirstIndex(cs, CampaignKey, id);
    if k.None? then cs else cs[k.value := cs[k.value].(status := Completed)]
  }

  function EditCampaigns(cs: seq<Campaign>, e: Edit<Campaign>): seq<Campaign> {
    ApplyEdit(cs, CampaignKey, e)
  }

  /** A rejected send is not handled: it changes nothing. */
  function Reduce(st: CampaignState, a: Action): (r: CampaignState)
    ensures a.ClearCustomers? ==> r == st.(customers := [], statistics := ZeroStats)
    ensures a.FetchRejected? ==> r.campaigns == [] && !r.loading && r.error == Some(OrElse(a.payload, FetchFailed))
    ensures a.CustomersPending? || a.CustomersRejected? ==> r.customers == [] && r.statistics == ZeroStats
    ensures a.CustomersFulfilled? ==> r.customers == a.loaded.customers && r.statistics == a.loaded.statistics
    ensures !a.FetchFulfilled? && !a.FetchRejected? ==> r.pagination == st.pagination
    ensures a.SendRejected? ==> r == st
  {
    match a
    case ClearCustomers => st.(customers := [], statistics := ZeroStats)
    case FetchPending => st.(loading := true, error := None)
    case FetchFulfilled(p) =>
      st.(loading := false, campaigns := EditCampaigns(st.campaigns, Fetched(p.campaigns)),
          pagination := PageState(p.page, p.limit, p.total))
    case FetchRejected(m) => st.(loading := false, error := Some(OrElse(m, FetchFailed)), campaigns := [])
    case CreateFulfilled(c) => st.(campaigns := EditCampaigns(st.campaigns, Created(c)))
    case UpdateFulfilled(c) => st.(campaigns := EditCampaigns(st.campaigns, Updated(c)))
    case DeleteFulfilled(id) => st.(campaigns := EditCampaigns(st.campaigns, Deleted(id)))
    case CustomersPending => st.(loading := true, error := None, customers := [], statistics := ZeroStats)
    case CustomersFulfilled(p) => st.(loading := false, customers := p.customers, statistics := p.statistics)
    case CustomersRejected(m) =>
      st.(loading := false, error := Some(OrElse(m, CustomersFailed)), customers := [], statistics := ZeroStats)
    case SendPending => st.(loading := true, error := None)
    case SendFulfilled(id) => st.(loading := false, campaigns := MarkCompleted(st.campaigns, id))
    case SendRejected(_) => st
  }

  /** The campaign list's row count after a fetch. As written it is 0 for
      every answer of the server, however many campaigns are stored. */
  lemma ListTotalAlwaysZero(st: CampaignState, campaigns: seq<Campaign>, segments: seq<Segment>, user: Option<Id>,
                            page: Option<string>, limit: Option<string>, p: int, l: int)
    requires Lifecycle.ListCampaigns(campaigns, segments, user, page, limit).Ok?
    ensures var b := Lifecycle.ListCampaigns(campaigns, segments, user, page, limit).value;
      Reduce(st, FetchFulfilled(ReadListAsWritten(b, p, l))).pagination.total == 0
      && b.pagination.total == |campaigns|
  {
  }

  /** Read from `pagination.total`, the row count is the size of the
      collection. */
  lemma ListTotalIsCollectionSize(st: CampaignState, campaigns: seq<Campaign>, segments: seq<Segment>, user: Option<Id>,
                                  page: Option<string>, limit: Option<string>, p: int, l: int)
    requires Lifecycle.ListCampaigns(campaigns, segments, user, page, limit).Ok?
    ensures var b := Lifecycle.ListCampaigns(campaigns, segments, user, page, limit).value;
      var r := Reduce(st, FetchFulfilled(ReadList(b, p, l)));
      r.pagination.total == |campaigns| && r.campaigns == Lifecycle.ListedCampaigns(b.campaigns)
  {
  }

  /** A client list that holds the campaign collection in creation order
      still holds it after a successful create, update or delete is reflected
      in it. A client that began with an empty collection and has only
      reflected writes holds such a list; a fetched page is newest first
      and does not. */
  lemma CreateMirrorsServer(st: CampaignState, campaigns: seq<Campaign>, segments: seq<Segment>, store: seq<Customer>,
                            user: Option<Id>, b: Lifecycle.CampaignBody, newId: Id)
    requires st.campaigns == campaigns
    requires Lifecycle.CreateCampaign(campaigns, segments, store, user, b, newId).response.Ok?
    ensures var o := Lifecycle.CreateCampaign(campaigns, segments, store, user, b, newId);
      Reduce(st, CreateFulfilled(o.response.value)).campaigns == o.campaigns
  {
  }

  lemma UpdateMirrorsServer(st: CampaignState, campaigns: seq<Campaign>, segments: seq<Segment>, store: seq<Customer>,
                            user: Option<Id>, id: Id, b: Lifecycle.CampaignBody)
    requires st.campaigns == campaigns && UniqueKeys(campaigns, CampaignKey)
    requires Lifecycle.UpdateCampaign(campaigns, segments, store, user, id, b).response.Ok?
    ensures var o := Lifecycle.UpdateCampaign(campaigns, segments, store, user, id, b);
      Reduce(st, UpdateFulfilled(o.response.value)).campaigns == o.campaigns
      && UniqueKeys(o.campaigns, CampaignKey)
  {
    var o := Lifecycle.UpdateCampaign(campaigns, segments, store, user, id, b);
    Lifecycle.UpdateCampaignWrites(campaigns, segments, store, user, id, b);
    UpdateReplaces(st, o.response.value);
  }

  /** An update reflected in a list without duplicate ids replaces the
      campaign with that id and keeps the ids unique. */
  lemma UpdateReplaces(st: CampaignState, x: Campaign)
    requires UniqueKeys(st.campaigns, CampaignKey)
    ensures Reduce(st, UpdateFulfilled(x)).campaigns == ReplaceById(st.campaigns, CampaignKey, x.id, x)
    ensures UniqueKeys(Reduce(st, UpdateFulfilled(x)).campaigns, CampaignKey)
  {
    EditsKeepIdsUnique(st.campaigns, CampaignKey, Updated(x));
  }

  lemma DeleteMirrorsServer(st: CampaignState, campaigns: seq<Campaign>, user: Option<Id>, id: Id)
    requires st.campaigns == campaigns
    requires Lifecycle.DeleteCampaign(campaigns, user, id).response.Ok?
    ensures Reduce(st, DeleteFulfilled(id)).campaigns == Lifecycle.DeleteCampaign(campaigns, user, id).campaigns
  {
  }

  /** After a send goes through, the client marks the campaign completed
      without reading the answer, while the server records `failed` when
      the send's draw fails: the two disagree until the next fetch. */
  lemma SendShowsCompletedRegardless(st: CampaignState, o: Dispatch.SendOutcome, targets: seq<Customer>,
                                     id: Id, draw: real, now: int)
    requires Dispatch.SentToTargets(o, targets, id, draw, now)
    requires UniqueKeys(st.campaigns, CampaignKey)
    requires exists i :: 0 <= i < |st.campaigns| && st.campaigns[i].id == id
    ensures var r := Reduce(st, SendFulfilled(id));
      forall i :: 0 <= i < |r.campaigns| && r.campaigns[i].id == id ==> r.campaigns[i].status == Completed
    ensures !Dispatch.Succeeds(draw) ==> o.response.value.status == Status.Failed
  {
    var k := FirstIndex(st.campaigns, CampaignKey, id);
    forall i | 0 <= i < |st.campaigns| && st.campaigns[i].id == id
      ensures k == Some(i)
    {
      if k.value < i {
        assert false;
      }
    }
  }

  /** A failed send leaves the loading flag on and records no error; only
      the list refresh the component dispatches next turns it off, and that
      refresh clears the error again, so the send's failure message never
      reaches the state. */
  lemma SendFailureIsSilent(st: CampaignState, m: Option<string>, p: FetchedPage)
    ensures var sent := Reduce(Reduce(st, SendPending), SendRejected(m));
      sent.loading && sent.error.None?
    ensures var refreshed := Reduce(Reduce(Reduce(Reduce(st, SendPending), SendRejected(m)), FetchPending), FetchFulfilled(p));
      !refreshed.loading && refreshed.error.None?
  {
  }
}

=== FILE: collections.dfy ===
/** The whole-collection edits the handlers and the client reducers share:
    replacing every element with a given id (`items.map(x => x._id === id ?
    updated : x)`), replacing only the first (`findIndex` then assign),
    and dropping all of them (`items.filter(x => x._id !== id)`). */
module Collections {
  import opened Wrappers
  import opened Seqs

  function ReplaceById<T>(xs: seq<T>, key: T -> string, id: string, updated: T): (r: seq<T>)
    ensures |r| == |xs|
    ensures forall i :: 0 <= i < |xs| ==> r[i] == (if key(xs[i]) == id then updated else xs[i])
  {
    Map(xs, x => if key(x) == id then updated else x)
  }

  function RemoveById<T(==)>(xs: seq<T>, key: T -> string, id: string): (r: seq<T>)
    ensures forall i :: 0 <= i < |r| ==> key(r[i]) != id
  {
    Filter(xs, x => key(x) != id)
  }

  /** Replacing touches only the elements with that id: every other element
      keeps its place, and with no such element nothing changes. */
  lemma ReplaceOnlyTarget<T>(xs: seq<T>, key: T -> string, id: string, updated: T)
    ensures forall i :: 0 <= i < |xs| && key(xs[i]) != id ==> ReplaceById(xs, key, id, updated)[i] == xs[i]
    ensures (forall i :: 0 <= i < |xs| ==> key(xs[i]) != id) ==> ReplaceById(xs, key, id, updated) == xs
  {
  }

  /** Removing keeps every element with another id, in order, and nothing
      else; removing an id that is not there changes nothing. */
  lemma {:induction false} RemoveKeepsOthers<T>(xs: seq<T>, key: T -> string, id: string)
    ensures forall x :: x in RemoveById(xs, key, id) <==> x in xs && key(x) != id
    ensures |RemoveById(xs, key, id)| == |xs| - Count(xs, x => key(x) == id)
    ensures (forall i :: 0 <= i < |xs| ==> key(xs[i]) != id) ==> RemoveById(xs, key, id) == xs
  {
    if xs != [] {
      RemoveKeepsOthers(xs[1..], key, id);
      assert xs == [xs[0]] + xs[1..];
    }
  }

  /** `findIndex(x => key(x) === id)`, with -1 as `None`. */
  function FirstIndex<T>(xs: seq<T>, key: T -> string, id: string): (r: Option<nat>)
    ensures r.Some? ==> r.value < |xs| && key(xs[r.value]) == id
    ensures r.Some? ==> forall i :: 0 <= i < r.value ==> key(xs[i]) != id
    ensures r.None? ==> forall i :: 0 <= i < |xs| ==> key(xs[i]) != id
  {
    if xs == [] then None
    else if key(xs[0]) == id then Some(0)
    else
      var rest := FirstIndex(xs[1..], key, id);
      if rest.None? then None else Some(rest.value + 1)
  }

  /** `findOne({ _id: id })` on a collection: the first element with that
      id, if any. */
  function FindById<T>(xs: seq<T>, key: T -> string, id: string): (r: Option<T>)
    ensures r.Some? ==> r.value in xs && key(r.value) == id
    ensures r.None? ==> forall i :: 0 <= i < |xs| ==> key(xs[i]) != id
  {
    var k := FirstIndex(xs, key, id);
    if k.None? then None else Some(xs[k.value])
  }

  /** `const i = xs.findIndex(...); if (i !== -1) xs[i] = updated` */
  function ReplaceFirst<T>(xs: seq<T>, key: T -> string, id: string, updated: T): seq<T> {
    var k := FirstIndex(xs, key, id);
    if k.None? then xs else xs[k.value := updated]
  }

  predicate UniqueKeys<T>(xs: seq<T>, key: T -> string) {
    forall i, j :: 0 <= i < j < |xs| ==> key(xs[i]) != key(xs[j])
  }

  /** Replacing the first match changes only that position, is a no-op when
      nothing matches, and agrees with replacing every match when the keys
      are unique. */
  lemma ReplaceFirstSpec<T>(xs: seq<T>, key: T -> string, id: string, updated: T)
    ensures |ReplaceFirst(xs, key, id, updated)| == |xs|
    ensures var k := FirstIndex(xs, key, id);
      forall i :: 0 <= i < |xs| ==>
        ReplaceFirst(xs, key, id, updated)[i] == (if k == Some(i) then updated else xs[i])
    ensures (forall i :: 0 <= i < |xs| ==> key(xs[i]) != id) ==> ReplaceFirst(xs, key, id, updated) == xs
    ensures UniqueKeys(xs, key) ==> ReplaceFirst(xs, key, id, updated) == ReplaceById(xs, key, id, updated)
  {
    var k := FirstIndex(xs, key, id);
    if k.Some? && UniqueKeys(xs, key) {
      var a := ReplaceFirst(xs, key, id, updated);
      var b := ReplaceById(xs, key, id, updated);
      forall i | 0 <= i < |xs| ensures a[i] == b[i] {
        if i > k.value && key(xs[i]) == id {
          assert false;
        }
      }
    }
  }

  /** The first match depends on the keys alone. */
  lemma {:induction false} FirstIndexByKeys<T>(xs: seq<T>, ys: seq<T>, key: T -> string, id: string)
    requires |xs| == |ys| && forall i :: 0 <= i < |xs| ==> key(xs[i]) == key(ys[i])
    ensures FirstIndex(xs, key, id) == FirstIndex(ys, key, id)
  {
    if xs != [] {
      FirstIndexByKeys(xs[1..], ys[1..], key, id);
    }
  }
}

=== FILE: customer_form.dfy ===
/** The customer dialog of client/src/components/CustomerList.tsx: its two
    field checks, the Save button they control, and the body a new customer
    is posted with, set against the server's validators for POST and PUT
    /customers. */
module CustomerForm {
  import opened Wrappers
  import opened Strings
  import opened Validators
  import opened Documents
  import opened CustomerRoutes

  datatype FormData = FormData(name: string, email: string, phone: string)

  const EmptyForm := FormData("", "", "")

  /** `validatePhone`: an empty phone is allowed, otherwise ten or more
      digits. */
  predicate PhoneAccepted(phone: string) {
    phone == "" || PhoneMatches(phone)
  }

  /** The Save button is enabled when both field checks pass; the name is
      not checked. */
  predicate SaveEnabled(f: FormData) {
    EmailMatches(f.email) && PhoneAccepted(f.phone)
  }

  /** `handleEdit`: the dialog filled from a stored customer, a missing phone
      read as `''`. */
  function EditForm(c: Customer): (f: FormData)
    ensures Field(c, "phone").Str? ==> f.phone == Field(c, "phone").s
    ensures !Field(c, "phone").Str? ==> f.phone == ""
  {
    FormData(TextOf(Field(c, "name")), TextOf(Field(c, "email")), TextOf(Field(c, "phone")))
  }

  /** A stored string field as the form shows it, `''` for anything else. */
  function TextOf(v: Value): string {
    if v.Str? then v.s else ""
  }

  /** The create branch of `handleSubmit`: name and phone trimmed, the
      e-mail trimmed and lower-cased. */
  function NewCustomerBody(f: FormData): (b: CustomerBody)
    ensures b.name.Some? && b.email.Some? && b.phone.Some?
    ensures b.phone.value == "" <==> Trim(f.phone) == ""
  {
    CustomerBody(Some(Trim(f.name)), Some(ToLower(Trim(f.email))), Some(Trim(f.phone)))
  }

  /** The update branch posts the form as it is. */
  function EditBody(f: FormData): (u: CustomerUpdate)
    ensures u.visits.None? && u.totalSpent.None?
  {
    CustomerUpdate(Some(f.name), Some(f.email), Some(f.phone), None, None)
  }

  /** A matching address has no surrounding whitespace, and lower-casing
      keeps it matching at the same split points. */
  lemma EmailNormalForm(e: string)
    requires EmailMatches(e)
    ensures Trim(e) == e
    ensures EmailMatches(ToLower(e))
  {
    EmailTrimmed(e);
    EmailLowered(e);
  }

  lemma EmailTrimmed(e: string)
    requires EmailMatches(e)
    ensures Trim(e) == e
  {
    var a, k :| 0 <= a < |e| && 0 <= k < |e| && EmailSplit(e, a, k);
    assert !IsSpace(e[0]) && !IsSpace(e[|e| - 1]);
    Untrimmed(e);
  }

  lemma EmailLowered(e: string)
    requires EmailMatches(e)
    ensures EmailMatches(ToLower(e))
  {
    var a, k :| 0 <= a < |e| && 0 <= k < |e| && EmailSplit(e, a, k);
    var l := ToLower(e);
    forall i | 0 <= i < |e|
      ensures (IsLetter(e[i]) ==> IsLetter(l[i])) && (!IsLetter(e[i]) ==> l[i] == e[i])
    {
    }
    assert EmailSplit(l, a, k);
  }

  /** A string of digits has no surrounding whitespace. */
  lemma DigitsUntrimmed(p: string)
    requires PhoneMatches(p)
    ensures Trim(p) == p
  {
    assert !IsSpace(p[0]) && !IsSpace(p[|p| - 1]);
    Untrimmed(p);
  }

  /** Normalising a form the Save button accepts changes only the case of the
      e-mail and the whitespace around the name: the posted e-mail still
      matches the pattern and the phone is sent as typed. */
  lemma NormalisationKeepsChecks(f: FormData)
    requires SaveEnabled(f)
    ensures NewCustomerBody(f).email == Some(ToLower(f.email)) && EmailMatches(ToLower(f.email))
    ensures NewCustomerBody(f).phone == Some(f.phone)
  {
    EmailNormalForm(f.email);
    if f.phone != "" {
      DigitsUntrimmed(f.phone);
    }
  }

  /** The server accepts a new customer the Save button lets through exactly
      when the trimmed name has two or more characters and the phone is not
      empty: the dialog checks neither the name nor that an empty phone,
      which it allows, is refused by the server. */
  lemma ServerAcceptsSavedForm(f: FormData)
    requires SaveEnabled(f)
    ensures CreateMessages(NewCustomerBody(f)) == [] <==> |Trim(f.name)| >= 2 && f.phone != ""
    ensures f.phone == "" ==> BadPhone in CreateMessages(NewCustomerBody(f))
  {
    NormalisationKeepsChecks(f);
    TrimIdempotent(f.name);
    var b := NewCustomerBody(f);
    if f.phone != "" {
      DigitsUntrimmed(f.phone);
    } else {
      assert PhoneMessages(b.phone) == [BadPhone] by {
        assert Trim("") == "";
      }
    }
  }

  /** Editing: the server's update validators accept what the dialog posts
      exactly when the name is not blank, since the e-mail passed the
      dialog's own check and the phone is not checked on update. */
  lemma ServerAcceptsEdit(f: FormData)
    requires SaveEnabled(f)
    ensures UpdateValid(EditBody(f)) <==> Trim(f.name) != ""
  {
  }
}

=== FILE: customer_model.dfy ===
/** Customers (server/src/models/Customer.ts): required name and unique
    email, a required non-negative visit count defaulting to 0, and a cached
    `totalSpent` defaulting to 0. */
module CustomerModel {
  import opened Documents

  predicate NonEmptyString(v: Value) {
    v.Str? && v.s != ""
  }

  /** The schema defaults, applied when a document is created. */
  function WithDefaults(c: Customer): (r: Customer)
    ensures r.id == c.id
    ensures Field(r, "visits") == (if Field(c, "visits") == Absent then Num(0.0) else Field(c, "visits"))
    ensures Field(r, "totalSpent") == (if Field(c, "totalSpent") == Absent then Num(0.0) else Field(c, "totalSpent"))
    ensures forall g :: g != "visits" && g != "totalSpent" ==> Field(r, g) == Field(c, g)
  {
    var c1 := if Field(c, "visits") == Absent then SetField(c, "visits", Num(0.0)) else c;
    if Field(c1, "totalSpent") == Absent then SetField(c1, "totalSpent", Num(0.0)) else c1
  }

  /** One stored customer within the schema. */
  predicate SchemaValid(c: Customer) {
    && NonEmptyString(Field(c, "name"))
    && NonEmptyString(Field(c, "email"))
    && Field(c, "visits").Num? && Field(c, "visits").n >= 0.0
    && Field(c, "totalSpent").Num?
  }

  /** The unique index on `email` (and on the id). */
  predicate StoreValid(store: seq<Customer>) {
    && (forall i :: 0 <= i < |store| ==> SchemaValid(store[i]))
    && (forall i, j :: 0 <= i < j < |store| ==> Field(store[i], "email") != Field(store[j], "email"))
    && (forall i, j :: 0 <= i < j < |store| ==> store[i].id != store[j].id)
  }

  /** With the defaults applied, a document with a name and an email passes
      the schema exactly when any visit count it brought is a non-negative
      number and any `totalSpent` it brought is a number. */
  lemma DefaultsSatisfySchema(c: Customer)
    requires NonEmptyString(Field(c, "name")) && NonEmptyString(Field(c, "email"))
    ensures SchemaValid(WithDefaults(c)) <==>
      (Field(c, "visits") == Absent || (Field(c, "visits").Num? && Field(c, "visits").n >= 0.0))
      && (Field(c, "totalSpent") == Absent || Field(c, "totalSpent").Num?)
  {
  }
}

=== FILE: customer_slice.dfy ===
/** The client's customer list (client/src/store/slices/customerSlice.ts). */
module CustomerSlice {
  import opened Wrappers
  import opened Documents
  import opened Collections
  import opened ListSlice
  import opened OrderModel
  import opened CustomerRoutes

  datatype Action =
    | FetchPending
    | FetchFulfilled(customers: seq<Customer>)
    | FetchRejected(message: Option<string>)
    | CreateFulfilled(customer: Customer)
    | UpdateFulfilled(customer: Customer)
    | DeleteFulfilled(id: Id)

  const FetchFailed := "Failed to fetch customers"

  function Reduce(st: ListState<Customer>, a: Action): (r: ListState<Customer>)
    ensures a.FetchRejected? ==> r.items == st.items && !r.loading && r.error.Some? && r.error.value != ""
    ensures a.FetchPending? ==> r.items == st.items && r.loading && r.error.None?
    ensures a.CreateFulfilled? || a.UpdateFulfilled? || a.DeleteFulfilled? ==>
      r.loading == st.loading && r.error == st.error
  {
    match a
    case FetchPending => Begin(st)
    case FetchFulfilled(all) => st.(loading := false, items := ApplyEdit(st.items, CustomerKey, Fetched(all)))
    case FetchRejected(m) => Fail(st, m, FetchFailed)
    case CreateFulfilled(c) => st.(items := ApplyEdit(st.items, CustomerKey, Created(c)))
    case UpdateFulfilled(c) => st.(items := ApplyEdit(st.items, CustomerKey, Updated(c)))
    case DeleteFulfilled(id) => st.(items := ApplyEdit(st.items, CustomerKey, Deleted(id)))
  }

  /** A client list that holds the customer collection in creation order
      still holds it after a successful create, update or delete is reflected
      in it. A client that began with an empty collection and has only
      reflected writes holds such a list; a fetched page is newest first
      and does not. */
  lemma CreateMirrorsServer(st: ListState<Customer>, store: seq<Customer>, b: CustomerBody, newId: Id, roll: nat)
    requires roll < 50
    requires st.items == store
    requires CreateCustomer(store, b, newId, roll).response.Ok?
    ensures var o := CreateCustomer(store, b, newId, roll);
      Reduce(st, CreateFulfilled(o.response.value)).items == o.store
  {
  }

  lemma UpdateMirrorsServer(st: ListState<Customer>, store: seq<Customer>, id: Id, u: CustomerUpdate)
    requires st.items == store && UniqueKeys(store, CustomerKey)
    requires UpdateCustomer(store, id, u).response.Ok?
    ensures var o := UpdateCustomer(store, id, u);
      Reduce(st, UpdateFulfilled(o.response.value)).items == o.store
      && UniqueKeys(o.store, CustomerKey)
  {
    var o := UpdateCustomer(store, id, u);
    UpdateReplaces(st, o.response.value);
  }

  /** An update reflected in a list without duplicate ids replaces the
      record with that id and keeps the ids unique. */
  lemma UpdateReplaces(st: ListState<Customer>, x: Customer)
    requires UniqueKeys(st.items, CustomerKey)
    ensures Reduce(st, UpdateFulfilled(x)).items == ReplaceById(st.items, CustomerKey, x.id, x)
    ensures UniqueKeys(Reduce(st, UpdateFulfilled(x)).items, CustomerKey)
  {
    EditsKeepIdsUnique(st.items, CustomerKey, Updated(x));
  }

  lemma DeleteMirrorsServer(st: ListState<Customer>, store: seq<Customer>, orders: seq<Order>, id: Id)
    requires st.items == store
    requires DeleteCustomer(store, orders, id).2.Ok?
    ensures Reduce(st, DeleteFulfilled(id)).items == DeleteCustomer(store, orders, id).0
  {
  }
}

=== FILE: customers.dfy ===
/** The customer endpoints of server/src/routes/customers.ts: the list
    recomputes and saves each listed customer's delivered spend, create
    validates and normalises, update checks visits, and delete removes the
    customer's orders before it looks the customer up. */
module CustomerRoutes {
  import opened Wrappers
  import opened Strings
  import opened JsNumber
  import opened Documents
  import opened Seqs
  import opened Collections
  import opened Validators
  import opened OrderModel
  import opened CustomerModel
  import opened Pagination

  datatype CustomerBody = CustomerBody(name: Option<string>, email: Option<string>, phone: Option<string>)

  const BadEmail := "Please provide a valid email address"
  const BadEmailExample := "Please provide a valid email address (e.g., user@example.com)"
  const NameRequired := "Name is required"
  const NameTooShort := "Name must be at least 2 characters long"
  const BadPhone := "Phone number must be at least 10 digits and contain only numbers"

  /** The create validators in declaration order. The `trim()` sanitizer
      reads a missing name as `''`; `optional()` skips only a missing phone,
      so an empty phone is checked and fails. */
  function CreateMessages(b: CustomerBody): (msgs: seq<string>)
    ensures msgs == [] <==>
      && b.email.Some? && EmailMatches(b.email.value)
      && b.name.Some? && |Trim(b.name.value)| >= 2
      && (b.phone.None? || PhoneMatches(Trim(b.phone.value)))
  {
    var n := if b.name.Some? then Trim(b.name.value) else "";
    (if b.email.Some? && EmailMatches(b.email.value) then [] else [BadEmail, BadEmailExample])
    + (if n == "" then [NameRequired] else [])
    + (if |n| < 2 then [NameTooShort] else [])
    + PhoneMessages(b.phone)
  }

  /** The phone check alone: `optional()` skips only a missing phone. */
  function PhoneMessages(phone: Option<string>): (msgs: seq<string>)
    ensures msgs == [] || msgs == [BadPhone]
  {
    if phone.None? || PhoneMatches(Trim(phone.value)) then [] else [BadPhone]
  }

  /** A unique-index violation is a driver error, answered with a 500. */
  const DuplicateKey := HttpError(500, "Internal Server Error")
  const CustomerNotFound := HttpError(404, "Customer not found")

  predicate EmailTaken(store: seq<Customer>, email: string) {
    exists i :: 0 <= i < |store| && Field(store[i], "email") == Str(email)
  }

  /** The document a create stores, from the sanitised name, e-mail and
      phone. `roll` is `Math.floor(Math.random() * 50)`. */
  function NewCustomer(id: Id, name: string, email: string, phone: string, roll: nat): Customer {
    Customer(id, map[
      "name" := Str(name),
      "email" := Str(email),
      "phone" := Str(phone),
      "visits" := Num((roll + 1) as real),
      "totalSpent" := Num(0.0)])
  }

  /** The sanitisers of the create route: name and phone trimmed (an empty
      phone stays empty), the e-mail trimmed and lower-cased. */
  function CreatedFrom(id: Id, b: CustomerBody, roll: nat): Customer
    requires b.name.Some? && b.email.Some?
  {
    NewCustomer(id, Trim(b.name.value), ToLower(Trim(b.email.value)),
      if b.phone.Some? && b.phone.value != "" then Trim(b.phone.value) else "", roll)
  }

  datatype CustomerOutcome = CustomerOutcome(store: seq<Customer>, response: Result<Customer>)

  /** POST /customers */
  function CreateCustomer(store: seq<Customer>, b: CustomerBody, newId: Id, roll: nat): CustomerOutcome
    requires roll < 50
  {
    var msgs := CreateMessages(b);
    if msgs != [] then CustomerOutcome(store, Err(HttpError(400, Join(msgs, ", "))))
    else
      var c := CreatedFrom(newId, b, roll);
      if EmailTaken(store, ToLower(Trim(b.email.value))) then CustomerOutcome(store, Err(DuplicateKey))
      else CustomerOutcome(store + [c], Ok(c))
  }

  /** A created customer has the trimmed name (at least two characters), the
      trimmed lower-cased e-mail, a trimmed or empty phone, between 1 and 50
      visits and no spend; it is appended and nothing else is written. */
  lemma CreateCustomerFacts(store: seq<Customer>, b: CustomerBody, newId: Id, roll: nat)
    requires roll < 50
    ensures var out := CreateCustomer(store, b, newId, roll);
      && (out.response.Err? ==> out.store == store)
      && (out.response.Ok? ==>
            var c := out.response.value;
            && out.store == store + [c]
            && Field(c, "name") == Str(Trim(b.name.value)) && |Trim(b.name.value)| >= 2
            && Field(c, "email") == Str(ToLower(Trim(b.email.value)))
            && Field(c, "phone") == Str(if b.phone.Some? then Trim(b.phone.value) else "")
            && Field(c, "visits").Num? && 1.0 <= Field(c, "visits").n <= 50.0
            && Field(c, "totalSpent") == Num(0.0))
  {
    var out := CreateCustomer(store, b, newId, roll);
    if out.response.Ok? {
      assert CreateMessages(b) == [];
      var phone := if b.phone.Some? && b.phone.value != "" then Trim(b.phone.value) else "";
      NewCustomerFields(newId, Trim(b.name.value), ToLower(Trim(b.email.value)), phone, roll);
      assert b.phone.Some? ==> b.phone.value != "" by {
        assert Trim("") == "";
      }
    }
  }

  lemma NewCustomerFields(id: Id, name: string, email: string, phone: string, roll: nat)
    ensures var c := NewCustomer(id, name, email, phone, roll);
      && c.id == id
      && Field(c, "name") == Str(name) && Field(c, "email") == Str(email) && Field(c, "phone") == Str(phone)
      && Field(c, "visits") == Num((roll + 1) as real) && Field(c, "totalSpent") == Num(0.0)
  {
  }

  /** A create keeps the store within the schema and its e-mails and ids
      unique, given a fresh id. */
  lemma CreateKeepsStoreValid(store: seq<Customer>, b: CustomerBody, newId: Id, roll: nat)
    requires roll < 50 && StoreValid(store)
    requires forall i :: 0 <= i < |store| ==> store[i].id != newId
    ensures StoreValid(CreateCustomer(store, b, newId, roll).store)
  {
    var out := CreateCustomer(store, b, newId, roll);
    if out.response.Ok? {
      var c := CreatedFrom(newId, b, roll);
      assert CreateMessages(b) == [] && !EmailTaken(store, ToLower(Trim(b.email.value)));
      assert out.store == store + [c];
      NewCustomerValid(newId, b, roll);
      AppendKeepsValid(store, c);
    }
  }

  lemma NewCustomerValid(id: Id, b: CustomerBody, roll: nat)
    requires CreateMessages(b) == []
    ensures CustomerModel.SchemaValid(CreatedFrom(id, b, roll))
    ensures Field(CreatedFrom(id, b, roll), "email") == Str(ToLower(Trim(b.email.value)))
  {
    EmailNonEmpty(b.email.value);
    var phone := if b.phone.Some? && b.phone.value != "" then Trim(b.phone.value) else "";
    NewCustomerFields(id, Trim(b.name.value), ToLower(Trim(b.email.value)), phone, roll);
  }

  /** Appending a valid customer with a new e-mail and a new id keeps the
      store valid. */
  lemma AppendKeepsValid(store: seq<Customer>, c: Customer)
    requires StoreValid(store) && CustomerModel.SchemaValid(c)
    requires !EmailTaken(store, Field(c, "email").s)
    requires forall i :: 0 <= i < |store| ==> store[i].id != c.id
    ensures StoreValid(store + [c])
  {
    var all := store + [c];
    forall i, j | 0 <= i < j < |all|
      ensures Field(all[i], "email") != Field(all[j], "email") && all[i].id != all[j].id
    {
      assert all[i] == store[i];
      if j < |store| {
        assert all[j] == store[j];
      }
    }
  }

  /** A matching address is not blank, so neither is its normalised form. */
  lemma EmailNonEmpty(e: string)
    requires EmailMatches(e)
    ensures ToLower(Trim(e)) != ""
  {
    var a, k :| 0 <= a < |e| && 0 <= k < |e| && EmailSplit(e, a, k);
    assert !IsSpace(e[0]);
    var i := TrimIsMiddle(e);
  }

  /** An empty phone is checked and rejected with the phone message, even
      though the phone is optional. */
  lemma EmptyPhoneRejected(store: seq<Customer>, b: CustomerBody, newId: Id, roll: nat)
    requires roll < 50 && b.phone == Some("")
    ensures CreateCustomer(store, b, newId, roll).response.Err?
    ensures BadPhone in CreateMessages(b)
  {
    assert PhoneMessages(b.phone) == [BadPhone] by {
      assert Trim("") == "";
    }
    assert BadPhone in CreateMessages(b);
  }

  // ---------------------------------------------------------------------
  // Update.

  /** The body of PUT /customers/:id. The whole body is written, so besides
      the four validated keys a `totalSpent` in it is stored as well, unchecked. */
  datatype CustomerUpdate = CustomerUpdate(
    name: Option<string>,
    email: Option<string>,
    phone: Option<string>,
    visits: Option<Value>,
    totalSpent: Option<real>)

  /** A string with its one leading sign, if any, removed. */
  function Unsigned(s: string): (r: string)
    ensures |r| <= |s|
  {
    if |s| > 0 && (s[0] == '+' || s[0] == '-') then s[1..] else s
  }

  /** `isInt({ min: 0 })` on a string: an optional sign and at least one
      digit, leading zeros allowed, whose value is not below 0, so "-0"
      passes and "-1" does not. */
  predicate IntTextValid(s: string) {
    && |s| > 0 && Unsigned(s) != "" && AllDigits(Unsigned(s))
    && (s[0] == '-' ==> DigitsValue(Unsigned(s)) == 0)
  }

  /** `isInt({ min: 0 })` on a value: a number is checked in its decimal
      form, so it must be a non-negative whole number. */
  predicate VisitsValid(v: Value) {
    (v.Num? && v.n == v.n.Floor as real && v.n >= 0.0) || (v.Str? && IntTextValid(v.s))
  }

  /** The number a valid visits value is stored as. */
  function VisitsNumber(v: Value): (n: real)
    requires VisitsValid(v)
    ensures n >= 0.0 && n == n.Floor as real
  {
    if v.Num? then v.n else DigitsValue(Unsigned(v.s)) as real
  }

  /** Signed digit strings are accepted when their value is not negative,
      and stored as that value. */
  lemma SignedVisits()
    ensures VisitsValid(Str("+12")) && VisitsNumber(Str("+12")) == 12.0
    ensures VisitsValid(Str("-0")) && VisitsNumber(Str("-0")) == 0.0
    ensures !VisitsValid(Str("-1")) && !VisitsValid(Str("+")) && !VisitsValid(Str(""))
  {
    assert Unsigned("+12") == "12";
    assert DigitsValue("12") == 12 by {
      assert "12"[..1] == "1";
      assert "1"[..0] == "";
    }
    assert Unsigned("-0") == "0";
    assert DigitsValue("0") == 0 by { assert "0"[..0] == ""; }
    assert Unsigned("-1") == "1";
    assert DigitsValue("1") == 1 by { assert "1"[..0] == ""; }
  }

  predicate UpdateValid(u: CustomerUpdate) {
    && (u.email.None? || EmailMatches(u.email.value))
    && (u.name.None? || Trim(u.name.value) != "")
    && (u.visits.None? || VisitsValid(u.visits.value))
  }

  /** The sanitised body written over the stored document, the unchecked
      `totalSpent` included. */
  function ApplyUpdate(c: Customer, u: CustomerUpdate): Customer
    requires UpdateValid(u)
  {
    var name := if u.name.Some? then Some(Str(Trim(u.name.value))) else None;
    var email := if u.email.Some? then Some(Str(ToLower(Trim(u.email.value)))) else None;
    var phone := if u.phone.Some? then Some(Str(Trim(u.phone.value))) else None;
    var visits := if u.visits.Some? then Some(Num(VisitsNumber(u.visits.value))) else None;
    var spent := if u.totalSpent.Some? then Some(Num(u.totalSpent.value)) else None;
    Put(Put(Put(Put(Put(c, "name", name), "email", email), "phone", phone), "visits", visits), "totalSpent", spent)
  }

  /** Writes `v` into field `f` when there is one. */
  function Put(c: Customer, f: string, v: Option<Value>): (r: Customer)
    ensures r.id == c.id
    ensures Field(r, f) == (if v.Some? then v.value else Field(c, f))
    ensures forall g :: g != f ==> Field(r, g) == Field(c, g)
  {
    if v.Some? then SetField(c, f, v.value) else c
  }

  predicate EmailTakenByOther(store: seq<Customer>, id: Id, email: string) {
    exists i :: 0 <= i < |store| && store[i].id != id && Field(store[i], "email") == Str(email)
  }

  /** PUT /customers/:id */
  function UpdateCustomer(store: seq<Customer>, id: Id, u: CustomerUpdate): (o: CustomerOutcome)
    ensures o.response.Err? ==> o.store == store
    ensures o.response.Ok? ==> o.response.value.id == id && o.store == ReplaceById(store, CustomerKey, id, o.response.value)
  {
    if !UpdateValid(u) then CustomerOutcome(store, Err(HttpError(400, "Validation failed")))
    else
      var found := FindCustomer(store, id);
      if found.None? then CustomerOutcome(store, Err(CustomerNotFound))
      else
        var updated := ApplyUpdate(found.value, u);
        if u.email.Some? && EmailTakenByOther(store, id, ToLower(Trim(u.email.value)))
        then CustomerOutcome(store, Err(DuplicateKey))
        else CustomerOutcome(ReplaceById(store, CustomerKey, id, updated), Ok(updated))
  }

  /** Visits can only be set to a non-negative whole number; `totalSpent` is
      written as given; fields the body does not name keep their values;
      other customers are untouched. */
  lemma UpdateCustomerFacts(store: seq<Customer>, id: Id, u: CustomerUpdate)
    ensures var out := UpdateCustomer(store, id, u);
      && (out.response.Err? ==> out.store == store)
      && (u.visits.Some? && !VisitsValid(u.visits.value) ==> out.response == Err(HttpError(400, "Validation failed")))
      && (out.response.Ok? ==>
            var before := FindCustomer(store, id).value;
            var c := out.response.value;
            && c.id == id
            && (u.visits.Some? ==> Field(c, "visits").Num? && Field(c, "visits").n >= 0.0
                                    && Field(c, "visits").n == Field(c, "visits").n.Floor as real)
            && (u.totalSpent.None? ==> Field(c, "totalSpent") == Field(before, "totalSpent"))
            && (u.totalSpent.Some? ==> Field(c, "totalSpent") == Num(u.totalSpent.value))
            && (u.visits.None? ==> Field(c, "visits") == Field(before, "visits"))
            && (u.name.None? ==> Field(c, "name") == Field(before, "name"))
            && (forall i :: 0 <= i < |store| && store[i].id != id ==> out.store[i] == store[i]))
  {
    var out := UpdateCustomer(store, id, u);
    if out.response.Ok? {
      var before := FindCustomer(store, id).value;
      assert out.response.value == ApplyUpdate(before, u);
      ApplyUpdateFields(before, u);
      ReplaceOnlyTarget(store, CustomerKey, id, out.response.value);
    }
  }

  /** The sanitised write keeps the id, writes a given `totalSpent` as it
      is, leaves unnamed fields alone, and stores visits as a non-negative
      whole number. */
  lemma ApplyUpdateFields(c: Customer, u: CustomerUpdate)
    requires UpdateValid(u)
    ensures var r := ApplyUpdate(c, u);
      && r.id == c.id
      && (u.visits.Some? ==> Field(r, "visits").Num? && Field(r, "visits").n >= 0.0
                              && Field(r, "visits").n == Field(r, "visits").n.Floor as real)
      && (u.totalSpent.None? ==> Field(r, "totalSpent") == Field(c, "totalSpent"))
      && (u.totalSpent.Some? ==> Field(r, "totalSpent") == Num(u.totalSpent.value))
      && (u.visits.None? ==> Field(r, "visits") == Field(c, "visits"))
      && (u.name.None? ==> Field(r, "name") == Field(c, "name"))
  {
  }

  // ---------------------------------------------------------------------
  // Delete.

  predicate OtherCustomer(id: Id, o: Order) { o.customerId != id }

  /** DELETE /customers/:id: the orders go first, then the lookup. */
  function DeleteCustomer(store: seq<Customer>, orders: seq<Order>, id: Id): (r: (seq<Customer>, seq<Order>, Result<Customer>)) {
    var kept := Filter(orders, o => OtherCustomer(id, o));
    var found := FindCustomer(store, id);
    if found.None? then (store, kept, Err(CustomerNotFound))
    else (RemoveById(store, CustomerKey, id), kept, Ok(found.value))
  }

  /** Every order of that customer is removed, and only those, even when the
      customer does not exist and the answer is a 404. */
  lemma DeleteCascades(store: seq<Customer>, orders: seq<Order>, id: Id)
    ensures var r := DeleteCustomer(store, orders, id);
      && (forall o :: o in r.1 <==> o in orders && o.customerId != id)
      && (r.2.Err? <==> forall i :: 0 <= i < |store| ==> store[i].id != id)
      && (r.2.Err? ==> r.2.error == CustomerNotFound && r.0 == store)
      && (forall c :: c in r.0 <==> c in store && (r.2.Err? || c.id != id))
  {
    FilterSpec(orders, id);
    RemoveKeepsOthers(store, CustomerKey, id);
  }

  lemma FilterSpec(orders: seq<Order>, id: Id)
    ensures forall o :: o in Filter(orders, o => OtherCustomer(id, o)) <==> o in orders && o.customerId != id
  {
    forall o ensures o in Filter(orders, o => OtherCustomer(id, o)) <==> o in orders && o.customerId != id {
      FilterMembers(orders, (x: Order) => OtherCustomer(id, x), o);
    }
  }

  lemma {:induction false} FilterMembers(xs: seq<Order>, p: Order -> bool, o: Order)
    ensures o in Filter(xs, p) <==> o in xs && p(o)
  {
    if xs != [] {
      FilterMembers(xs[1..], p, o);
      assert xs == [xs[0]] + xs[1..];
    }
  }

  // ---------------------------------------------------------------------
  // Listing.

  const ListFields: set<string> := {"name", "email", "phone", "totalSpent", "visits", "createdAt", "updatedAt"}

  /** A listed customer: the selected fields, with `totalSpent` replaced by
      the delivered spend. */
  function WithSpend(c: Customer, orders: seq<Order>): Customer {
    SetField(Project(c, ListFields), "totalSpent", Num(DeliveredSpend(orders, c.id)))
  }

  /** The listed copies of a page's rows. */
  function WithSpends(rows: seq<Customer>, orders: seq<Order>): (r: seq<Customer>)
    ensures |r| == |rows|
  {
    Map(rows, (c: Customer) => WithSpend(c, orders))
  }

  /** Rows read from the newest-first store are listed as the selected
      fields of those stored customers, each with its delivered spend. */
  lemma ListedRows(store: seq<Customer>, orders: seq<Order>, rows: seq<Customer>, skip: int)
    requires forall k :: 0 <= k < |rows| ==> 0 <= skip + k < |store| && rows[k] == store[|store| - 1 - (skip + k)]
    ensures forall k :: 0 <= k < |rows| ==>
      && WithSpends(rows, orders)[k] == WithSpend(rows[k], orders)
      && WithSpends(rows, orders)[k] == WithSpend(store[|store| - 1 - (skip + k)], orders)
      && WithSpends(rows, orders)[k].id == store[|store| - 1 - (skip + k)].id
      && Field(WithSpends(rows, orders)[k], "totalSpent") == Num(DeliveredSpend(orders, WithSpends(rows, orders)[k].id))
  {
    forall k | 0 <= k < |rows|
      ensures WithSpends(rows, orders)[k] == WithSpend(rows[k], orders)
      ensures WithSpends(rows, orders)[k] == WithSpend(store[|store| - 1 - (skip + k)], orders)
      ensures WithSpends(rows, orders)[k].id == store[|store| - 1 - (skip + k)].id
      ensures Field(WithSpends(rows, orders)[k], "totalSpent") == Num(DeliveredSpend(orders, WithSpends(rows, orders)[k].id))
    {
      WithSpendFacts(rows[k], orders);
    }
  }

  datatype CustomerPage = CustomerPage(store: seq<Customer>, customers: seq<Customer>, info: PageInfo)

  /** Whether position `i` of a store of `n` customers in creation order falls
      on the page of `m` rows read newest first after `skip` rows. */
  predicate OnPage(n: nat, skip: int, m: nat, i: int) {
    skip <= n - 1 - i < skip + m
  }

  /** `saved` is `store` with exactly the customers on the page of `m` rows
      after `skip` given their delivered spend: no other field of theirs
      changes, and customers off the page are not written. */
  ghost predicate SavesOnlyPage(store: seq<Customer>, saved: seq<Customer>, orders: seq<Order>, skip: int, m: nat) {
    && |saved| == |store|
    && forall i :: 0 <= i < |store| ==>
         && saved[i].id == store[i].id
         && (OnPage(|store|, skip, m, i) ==>
               Field(saved[i], "totalSpent") == Num(DeliveredSpend(orders, store[i].id))
               && (forall f :: f != "totalSpent" ==> Field(saved[i], f) == Field(store[i], f)))
         && (!OnPage(|store|, skip, m, i) ==> saved[i] == store[i])
  }

  /** The store after the page's `customer.save()` calls. */
  function SaveSpends(store: seq<Customer>, orders: seq<Order>, skip: int, m: nat): (saved: seq<Customer>)
    ensures SavesOnlyPage(store, saved, orders, skip, m)
  {
    seq(|store|, i requires 0 <= i < |store| =>
      if OnPage(|store|, skip, m, i) then SetField(store[i], "totalSpent", Num(DeliveredSpend(orders, store[i].id))) else store[i])
  }

  /** GET /customers over the store in creation order: the page is read
      newest first (Mongoose sorts before it skips), the page's customers get
      their delivered spend, and exactly they are saved back with it, no
      other field of theirs changing. */
  function ListCustomers(store: seq<Customer>, orders: seq<Order>, page: Option<string>, limit: Option<string>)
    : (r: Result<CustomerPage>)
    ensures r.Err? <==> Skip(Info(|store|, page, limit).page, Info(|store|, page, limit).limit) < 0
    ensures r.Ok? ==> r.value.info.total == |store|
    ensures r.Ok? ==> SavesOnlyPage(store, r.value.store, orders, Skip(r.value.info.page, r.value.info.limit), |r.value.customers|)
  {
    var info := Info(|store|, page, limit);
    var rows :- Window(NewestFirst(store), info.page, info.limit);
    Ok(CustomerPage(SaveSpends(store, orders, Skip(info.page, info.limit), |rows|), WithSpends(rows, orders), info))
  }

  /** The page lists the right customers, newest first, each showing the sum
      of the totals of its delivered orders and the selected fields of its
      stored document. */
  lemma ListedSpendIsDelivered(store: seq<Customer>, orders: seq<Order>, page: Option<string>, limit: Option<string>)
    ensures var r := ListCustomers(store, orders, page, limit);
      r.Ok? ==>
        var n := |store|;
        var skip := Skip(r.value.info.page, r.value.info.limit);
        && |r.value.customers| == PageSize(n, skip, r.value.info.limit)
        && (forall k :: 0 <= k < |r.value.customers| ==>
              && 0 <= skip + k < n
              && r.value.customers[k] == WithSpend(store[n - 1 - (skip + k)], orders)
              && r.value.customers[k].id == store[n - 1 - (skip + k)].id
              && Field(r.value.customers[k], "totalSpent") == Num(DeliveredSpend(orders, r.value.customers[k].id)))
  {
    var r := ListCustomers(store, orders, page, limit);
    if r.Ok? {
      var n := |store|;
      var info := Info(n, page, limit);
      var skip := Skip(info.page, info.limit);
      var rows := Window(NewestFirst(store), info.page, info.limit).value;
      NewestPage(store, info.page, info.limit);
      assert r.value.customers == WithSpends(rows, orders);
      ListedRows(store, orders, rows, skip);
    }
  }

  /** A listed customer keeps its id and shows its delivered spend. */
  lemma WithSpendFacts(c: Customer, orders: seq<Order>)
    ensures WithSpend(c, orders).id == c.id
    ensures Field(WithSpend(c, orders), "totalSpent") == Num(DeliveredSpend(orders, c.id))
  {
    assert Project(c, ListFields).id == c.id;
  }

}

=== FILE: dashboard.dfy ===
/** The figures of client/src/components/Dashboard.tsx: the three list
    counts, the number of draft ("active") campaigns, the five biggest
    spenders and the campaign-status pie without its empty slices. */
module Dashboard {
  import opened Seqs
  import opened Documents
  import opened CampaignModel

  datatype Counts = Counts(customers: nat, segments: nat, campaigns: nat, active: nat)

  /** The counter cards: list lengths, and the drafts as "active". */
  function CountCards<S, C>(customers: seq<C>, segments: seq<S>, campaigns: seq<Campaign>): (r: Counts)
    ensures r.customers == |customers| && r.segments == |segments| && r.campaigns == |campaigns|
    ensures r.active <= r.campaigns
    ensures r.active == |Filter(campaigns, (c: Campaign) => c.status == Draft)|
  {
    FilterCount(campaigns, (c: Campaign) => c.status == Draft);
    Counts(|customers|, |segments|, |campaigns|, Count(campaigns, (c: Campaign) => c.status == Draft))
  }

  // ---------------------------------------------------------------------
  // Top spenders.

  datatype SpendRow = SpendRow(name: string, spent: real)

  predicate SortedBySpend(rows: seq<SpendRow>) {
    forall i, j :: 0 <= i < j < |rows| ==> rows[i].spent >= rows[j].spent
  }

  /** Places `x` before the first row that spent no more than it. */
  function Insert(x: SpendRow, rows: seq<SpendRow>): (r: seq<SpendRow>)
    ensures |r| == |rows| + 1
  {
    if rows == [] || rows[0].spent <= x.spent then [x] + rows
    else [rows[0]] + Insert(x, rows[1..])
  }

  /** `sort((a, b) => b.spent - a.spent)`, as a stable insertion sort. */
  function SortBySpend(rows: seq<SpendRow>): (r: seq<SpendRow>)
    ensures |r| == |rows|
  {
    if rows == [] then [] else Insert(rows[0], SortBySpend(rows[1..]))
  }

  lemma {:induction false} InsertPerm(x: SpendRow, rows: seq<SpendRow>)
    ensures multiset(Insert(x, rows)) == multiset(rows) + multiset{x}
  {
    if !(rows == [] || rows[0].spent <= x.spent) {
      InsertPerm(x, rows[1..]);
      assert rows == [rows[0]] + rows[1..];
    }
  }

  /** A bound on every row and on `x` bounds every row after the insertion. */
  lemma {:induction false} InsertBounded(x: SpendRow, rows: seq<SpendRow>, m: real)
    requires x.spent <= m && forall k :: 0 <= k < |rows| ==> rows[k].spent <= m
    ensures forall k :: 0 <= k < |Insert(x, rows)| ==> Insert(x, rows)[k].spent <= m
  {
    if !(rows == [] || rows[0].spent <= x.spent) {
      var tail := rows[1..];
      assert forall k :: 0 <= k < |tail| ==> tail[k] == rows[k + 1];
      InsertBounded(x, tail, m);
    }
  }

  lemma TailSorted(rows: seq<SpendRow>)
    requires SortedBySpend(rows) && rows != []
    ensures SortedBySpend(rows[1..])
    ensures forall k :: 0 <= k < |rows[1..]| ==> rows[1..][k].spent <= rows[0].spent
  {
    var tail := rows[1..];
    forall i, j | 0 <= i < j < |tail| ensures tail[i].spent >= tail[j].spent {
      assert tail[i] == rows[i + 1] && tail[j] == rows[j + 1];
    }
    forall k | 0 <= k < |tail| ensures tail[k].spent <= rows[0].spent {
      assert tail[k] == rows[k + 1];
    }
  }

  lemma ConsSorted(h: SpendRow, rows: seq<SpendRow>)
    requires SortedBySpend(rows) && forall k :: 0 <= k < |rows| ==> rows[k].spent <= h.spent
    ensures SortedBySpend([h] + rows)
  {
    var r := [h] + rows;
    forall i, j | 0 <= i < j < |r| ensures r[i].spent >= r[j].spent {
      assert r[j] == rows[j - 1];
      if i > 0 {
        assert r[i] == rows[i - 1];
      }
    }
  }

  lemma {:induction false} InsertSorted(x: SpendRow, rows: seq<SpendRow>)
    requires SortedBySpend(rows)
    ensures SortedBySpend(Insert(x, rows))
  {
    if rows == [] || rows[0].spent <= x.spent {
      if rows != [] {
        TailSorted(rows);
      }
      ConsSorted(x, rows);
    } else {
      var tail := rows[1..];
      TailSorted(rows);
      InsertSorted(x, tail);
      InsertBounded(x, tail, rows[0].spent);
      ConsSorted(rows[0], Insert(x, tail));
    }
  }

  /** The sort orders the rows by spend, largest first, and keeps every row
      exactly as often as it occurs. */
  lemma {:induction false} SortBySpendCorrect(rows: seq<SpendRow>)
    ensures SortedBySpend(SortBySpend(rows))
    ensures multiset(SortBySpend(rows)) == multiset(rows)
  {
    if rows != [] {
      var rest := SortBySpend(rows[1..]);
      SortBySpendCorrect(rows[1..]);
      InsertSorted(rows[0], rest);
      InsertPerm(rows[0], rest);
      assert multiset(rows) == multiset(rows[1..]) + multiset{rows[0]} by {
        assert rows == [rows[0]] + rows[1..];
      }
    }
  }

  function Row(c: Customer): SpendRow {
    SpendRow(NameOf(c), SpentOf(c))
  }

  function NameOf(c: Customer): string {
    if Field(c, "name").Str? then Field(c, "name").s else ""
  }

  function SpentOf(c: Customer): real {
    if Field(c, "totalSpent").Num? then Field(c, "totalSpent").n else 0.0
  }

  /** The spending chart: the rows sorted by spend, first five kept. */
  function TopSpenders(customers: seq<Customer>): seq<SpendRow> {
    var sorted := SortBySpend(Map(customers, Row));
    if |sorted| <= 5 then sorted else sorted[..5]
  }

  /** The chart holds at most five rows, all customers' rows, largest spend
      first, and nobody left off the chart spent more than anyone on it. */
  lemma TopSpendersCorrect(customers: seq<Customer>)
    ensures var top := TopSpenders(customers);
      && |top| == (if |customers| <= 5 then |customers| else 5)
      && SortedBySpend(top)
      && multiset(top) <= multiset(Map(customers, Row))
      && (forall c :: c in customers ==> Row(c) in top || forall k :: 0 <= k < |top| ==> top[k].spent >= Row(c).spent)
  {
    var rows := Map(customers, Row);
    var sorted := SortBySpend(rows);
    SortBySpendCorrect(rows);
    var top := TopSpenders(customers);
    assert top == sorted[..|top|];
    PrefixOfSorted(sorted, |top|);
    forall c | c in customers && Row(c) !in top
      ensures forall k :: 0 <= k < |top| ==> top[k].spent >= Row(c).spent
    {
      MapContains(customers, Row, c);
      assert Row(c) in multiset(rows);
      assert Row(c) in sorted;
      LeftOffSpendsLess(sorted, |top|, Row(c));
    }
  }

  /** A prefix of a sorted list is sorted and part of it. */
  lemma PrefixOfSorted(sorted: seq<SpendRow>, n: nat)
    requires SortedBySpend(sorted) && n <= |sorted|
    ensures SortedBySpend(sorted[..n])
    ensures multiset(sorted[..n]) <= multiset(sorted)
  {
    assert sorted == sorted[..n] + sorted[n..];
  }

  /** A row of a sorted list that is not in its first `n` rows spent no more
      than any of them. */
  lemma LeftOffSpendsLess(sorted: seq<SpendRow>, n: nat, y: SpendRow)
    requires SortedBySpend(sorted) && n <= |sorted| && y in sorted && y !in sorted[..n]
    ensures forall k :: 0 <= k < n ==> sorted[..n][k].spent >= y.spent
  {
    var m :| 0 <= m < |sorted| && sorted[m] == y;
    assert m >= n by {
      assert forall k :: 0 <= k < n ==> sorted[..n][k] == sorted[k];
    }
  }

  lemma MapContains<T, U>(xs: seq<T>, g: T -> U, x: T)
    requires x in xs
    ensures g(x) in Map(xs, g)
  {
    var i :| 0 <= i < |xs| && xs[i] == x;
    assert Map(xs, g)[i] == g(x);
  }

  // ---------------------------------------------------------------------
  // Status pie.

  datatype Slice = Slice(name: string, value: nat)

  function CountOf(campaigns: seq<Campaign>, st: Status): nat {
    Count(campaigns, (c: Campaign) => c.status == st)
  }

  predicate NonEmpty(s: Slice) { s.value > 0 }

  /** The pie's slices: Draft, Completed, Failed in that order, with the
      empty ones dropped. */
  function StatusSlices(campaigns: seq<Campaign>): seq<Slice> {
    var all := [Slice("Draft", CountOf(campaigns, Draft)),
                Slice("Completed", CountOf(campaigns, Completed)),
                Slice("Failed", CountOf(campaigns, Status.Failed))];
    Filter(all, NonEmpty)
  }

  function SliceTotal(slices: seq<Slice>): nat {
    if slices == [] then 0 else slices[0].value + SliceTotal(slices[1..])
  }

  lemma {:induction false} SliceTotalAppend(xs: seq<Slice>, ys: seq<Slice>)
    ensures SliceTotal(xs + ys) == SliceTotal(xs) + SliceTotal(ys)
  {
    if xs == [] {
      assert xs + ys == ys;
    } else {
      assert (xs + ys)[1..] == xs[1..] + ys;
      SliceTotalAppend(xs[1..], ys);
    }
  }

  lemma {:induction false} StatusesPartition(campaigns: seq<Campaign>)
    ensures CountOf(campaigns, Draft) + CountOf(campaigns, Completed) + CountOf(campaigns, Status.Failed) == |campaigns|
  {
    if campaigns != [] {
      StatusesPartition(campaigns[1..]);
    }
  }

  function Present(name: string, n: nat): seq<Slice> {
    if n > 0 then [Slice(name, n)] else []
  }

  lemma DropEmpty(d: nat, c: nat, f: nat)
    ensures Filter([Slice("Draft", d), Slice("Completed", c), Slice("Failed", f)], NonEmpty)
      == Present("Draft", d) + Present("Completed", c) + Present("Failed", f)
  {
    FilterThree(Slice("Draft", d), Slice("Completed", c), Slice("Failed", f), NonEmpty);
  }

  lemma SlicesShape(campaigns: seq<Campaign>)
    ensures StatusSlices(campaigns)
      == Present("Draft", CountOf(campaigns, Draft)) + Present("Completed", CountOf(campaigns, Completed))
         + Present("Failed", CountOf(campaigns, Status.Failed))
  {
    DropEmpty(CountOf(campaigns, Draft), CountOf(campaigns, Completed), CountOf(campaigns, Status.Failed));
  }

  /** Every slice is non-empty, a status has a slice exactly when some
      campaign has it, and the slices add up to the number of campaigns. */
  lemma StatusSlicesCorrect(campaigns: seq<Campaign>)
    ensures forall s :: s in StatusSlices(campaigns) ==> s.value > 0
    ensures (Slice("Draft", CountOf(campaigns, Draft)) in StatusSlices(campaigns)) <==> CountOf(campaigns, Draft) > 0
    ensures (Slice("Completed", CountOf(campaigns, Completed)) in StatusSlices(campaigns)) <==> CountOf(campaigns, Completed) > 0
    ensures (Slice("Failed", CountOf(campaigns, Status.Failed)) in StatusSlices(campaigns)) <==> CountOf(campaigns, Status.Failed) > 0
    ensures |StatusSlices(campaigns)| <= 3
    ensures SliceTotal(StatusSlices(campaigns)) == |campaigns|
  {
    var d, c, f := CountOf(campaigns, Draft), CountOf(campaigns, Completed), CountOf(campaigns, Status.Failed);
    var da, cb, fe := Present("Draft", d), Present("Completed", c), Present("Failed", f);
    SlicesShape(campaigns);
    StatusesPartition(campaigns);
    SliceTotalAppend(da + cb, fe);
    SliceTotalAppend(da, cb);
    PresentFacts("Draft", d);
    PresentFacts("Completed", c);
    PresentFacts("Failed", f);
  }

  lemma PresentFacts(name: string, n: nat)
    ensures SliceTotal(Present(name, n)) == n
    ensures |Present(name, n)| <= 1
    ensures forall s :: s in Present(name, n) ==> s.value > 0 && s.name == name
    ensures Slice(name, n) in Present(name, n) <==> n > 0
  {
    if n > 0 {
      assert Present(name, n)[1..] == [];
    }
  }
}

=== FILE: dispatch.dfy ===
/** Sending a campaign (server/src/routes/campaigns.ts `/:id/send`): pick the
    audience, decide once whether the whole campaign succeeds, then contact
    the vendor in batches of ten, recording one message per customer and
    rewriting the campaign's counters after every batch; a minute later a
    completed campaign gets its open and click counts.

    Randomness and the vendor are parameters: `draw` is the campaign's
    `Math.random()` and `vendor(j)` what the vendor did for the j-th
    customer of the audience. */
module Dispatch {
  import opened Wrappers
  import opened Documents
  import opened Seqs
  import opened Collections
  import opened SegmentModel
  import opened CampaignModel
  import opened MessageModel
  import opened AudienceResolution
  import opened SendQuery

  const BatchSize: nat := 10

  /** What one vendor call produced: a reply (`{ success, messageId?,
      error? }`), or an exception, carrying its message when it was an
      `Error`. */
  datatype VendorReply =
    | Replied(success: bool, messageId: Option<string>, error: Option<string>)
    | Threw(message: Option<string>)

  /** `x || null` on an optional string: the empty string is falsy. */
  function OrNull(x: Option<string>): (r: Option<string>)
    ensures r.Some? <==> x.Some? && x.value != ""
    ensures r.Some? ==> r == x
  {
    if x.Some? && x.value != "" then x else None
  }

  const CampaignFailedToSend := "Campaign failed to send"
  const UnknownError := "Unknown error"

  /** The message recorded for one customer. A campaign that did not succeed
      never calls the vendor. */
  function MessageFor(user: Id, c: Campaign, customer: Customer, successful: bool, reply: VendorReply): Message {
    var base := NewMessage(user, customer.id, c.id, c.name, c.message, MessageStatus.Failed);
    if !successful then base.(error := Some(CampaignFailedToSend))
    else match reply
      case Replied(ok, mid, err) =>
        base.(status := if ok then Delivered else MessageStatus.Failed, vendorMessageId := OrNull(mid), error := OrNull(err))
      case Threw(m) => base.(error := Some(m.GetOr(UnknownError)))
  }

  /** A recorded message is delivered exactly when the campaign succeeded
      and the vendor reported success. A campaign that did not succeed
      records "Campaign failed to send"; a vendor reply is copied with its
      empty id or error read as null; a thrown call records the exception's
      message, or "Unknown error". */
  lemma MessageForStatus(user: Id, c: Campaign, customer: Customer, successful: bool, reply: VendorReply)
    ensures var m := MessageFor(user, c, customer, successful, reply);
      && (m.status == Delivered <==> successful && reply.Replied? && reply.success)
      && m.status != Pending
      && m.userId == user && m.customerId == customer.id && m.campaignId == c.id && !m.read
      && m.campaignName == c.name && m.message == c.message
      && (!successful ==> m.error == Some(CampaignFailedToSend) && m.vendorMessageId.None?)
      && (successful && reply.Replied? ==>
            m.vendorMessageId == OrNull(reply.messageId) && m.error == OrNull(reply.error))
      && (successful && reply.Threw? ==>
            m.error == Some(reply.message.GetOr(UnknownError)) && m.vendorMessageId.None?)
  {
  }

  predicate IsDelivered(m: Message) { m.status == Delivered }

  function CountDelivered(ms: seq<Message>): (n: nat)
    ensures n <= |ms|
  {
    Count(ms, IsDelivered)
  }

  /** The counters written after a batch, given everything sent so far. */
  function BatchStats(total: nat, sent: seq<Message>): (st: Stats) {
    Stats(total, |sent|, CountDelivered(sent), |sent| - CountDelivered(sent), 0, 0)
  }

  /** How many messages have gone out after batch `k` (0-based). */
  function SentAfter(k: nat, n: nat): nat {
    Min(BatchSize * (k + 1), n)
  }

  lemma CountDeliveredStep(ms: seq<Message>, m: Message)
    ensures CountDelivered(ms + [m]) == CountDelivered(ms) + (if IsDelivered(m) then 1 else 0)
  {
    CountAppend(ms, [m], IsDelivered);
    assert [m][1..] == [];
  }

  /** The batch loop. One message per customer, in audience order; after
      batch `k` the stored counters describe exactly the first
      `SentAfter(k, n)` messages; one counter update per batch. */
  method DispatchBatches(user: Id, c: Campaign, audience: seq<Customer>, successful: bool, vendor: nat -> VendorReply)
    returns (messages: seq<Message>, history: seq<Stats>)
    ensures |messages| == |audience|
    ensures forall j :: 0 <= j < |audience| ==> messages[j] == MessageFor(user, c, audience[j], successful, vendor(j))
    ensures |history| == (|audience| + BatchSize - 1) / BatchSize
    ensures forall k :: 0 <= k < |history| ==> history[k] == BatchStats(|audience|, messages[..SentAfter(k, |audience|)])
  {
    var n := |audience|;
    messages := [];
    history := [];
    var delivered := 0;
    var failed := 0;
    var i := 0;
    ghost var plan := Planned(user, c, audience, successful, vendor);
    while i < n
      invariant Progress(plan, i, messages, history, delivered, failed)
    {
      messages, history, delivered, failed := NextBatch(user, c, audience, successful, vendor, i, messages, history, delivered, failed);
      i := i + BatchSize;
    }
    BatchCount(|history|, n);
  }

  /** The state of the batch loop before the batch starting at customer `i`:
      one batch per ten customers so far, the last one not empty, one
      message per customer contacted, the running counters, and the
      counter history. */
  predicate Progress(plan: seq<Message>, i: nat, messages: seq<Message>, history: seq<Stats>, delivered: nat, failed: nat) {
    && i == BatchSize * |history|
    && (|history| == 0 || BatchSize * (|history| - 1) < |plan|)
    && |messages| == Min(i, |plan|)
    && messages == plan[..|messages|]
    && delivered == CountDelivered(messages) && delivered + failed == |messages|
    && HistoryOf(|plan|, messages, history)
  }

  /** One turn of the batch loop: the batch is sent, the counters are
      advanced and written. */
  method NextBatch(user: Id, c: Campaign, audience: seq<Customer>, successful: bool, vendor: nat -> VendorReply,
                   i: nat, messages: seq<Message>, history: seq<Stats>, delivered: nat, failed: nat)
    returns (messages': seq<Message>, history': seq<Stats>, delivered': nat, failed': nat)
    requires i < |audience|
    requires Progress(Planned(user, c, audience, successful, vendor), i, messages, history, delivered, failed)
    ensures Progress(Planned(user, c, audience, successful, vendor), i + BatchSize, messages', history', delivered', failed')
  {
    var n := |audience|;
    var end := Min(i + BatchSize, n);
    var results, d := SendBatch(user, c, audience, i, end, successful, vendor);
    delivered' := delivered + d;
    failed' := failed + (|results| - d);
    messages' := messages + results;
    history' := history + [Stats(n, |messages'|, delivered', failed', 0, 0)];
    ProgressStep(Planned(user, c, audience, successful, vendor), i, messages, history, delivered, failed, results, d);
  }

  /** The loop's state survives one batch: the plan's next stretch sent,
      its delivered count added, the counters written. */
  lemma ProgressStep(plan: seq<Message>, i: nat, messages: seq<Message>, history: seq<Stats>, delivered: nat, failed: nat,
                     results: seq<Message>, d: nat)
    requires i < |plan| && Progress(plan, i, messages, history, delivered, failed)
    requires results == plan[i..Min(i + BatchSize, |plan|)] && d == CountDelivered(results)
    ensures var all := messages + results;
      Progress(plan, i + BatchSize, all, history + [Stats(|plan|, |all|, delivered + d, failed + (|results| - d), 0, 0)],
               delivered + d, failed + (|results| - d))
  {
    var end := Min(i + BatchSize, |plan|);
    assert messages + results == plan[..end] by {
      PrefixJoin(plan, i, end);
    }
    CountAppend(messages, results, IsDelivered);
    HistoryStep(|plan|, messages, results, history);
  }

  /** The message every customer of the audience gets, in audience order. */
  function Planned(user: Id, c: Campaign, audience: seq<Customer>, successful: bool, vendor: nat -> VendorReply): (ms: seq<Message>)
    ensures |ms| == |audience|
  {
    seq(|audience|, j requires 0 <= j < |audience| => MessageFor(user, c, audience[j], successful, vendor(j)))
  }

  /** Entry `k` of the counter history describes the first `SentAfter(k, n)`
      messages. */
  predicate HistoryOf(n: nat, messages: seq<Message>, history: seq<Stats>) {
    forall k :: 0 <= k < |history| ==>
      SentAfter(k, n) <= |messages| && history[k] == BatchStats(n, messages[..SentAfter(k, n)])
  }

  lemma HistoryStep(n: nat, before: seq<Message>, results: seq<Message>, history: seq<Stats>)
    requires HistoryOf(n, before, history)
    requires |before| == BatchSize * |history| < n
    requires |before| + |results| == SentAfter(|history|, n)
    ensures HistoryOf(n, before + results, history + [BatchStats(n, before + results)])
  {
    var all := before + results;
    var h := history + [BatchStats(n, all)];
    forall k | 0 <= k < |h|
      ensures SentAfter(k, n) <= |all| && h[k] == BatchStats(n, all[..SentAfter(k, n)])
    {
      if k < |history| {
        PrefixOfAppend(before, results, SentAfter(k, n));
      } else {
        assert all[..SentAfter(k, n)] == all;
      }
    }
  }

  /** `h` batches of ten cover `n` customers, the last one non-empty,
      exactly when `h` is `n / 10` rounded up. */
  lemma BatchCount(h: nat, n: nat)
    requires BatchSize * h >= n && (h == 0 || BatchSize * (h - 1) < n)
    ensures h == (n + BatchSize - 1) / BatchSize
  {
  }

  /** One batch, the customers `lo` to `hi` of the audience: the vendor is
      called for each of them in turn, and each gets the message its
      reply makes. */
  method SendBatch(user: Id, c: Campaign, audience: seq<Customer>, lo: nat, hi: nat, successful: bool, vendor: nat -> VendorReply)
    returns (results: seq<Message>, delivered: nat)
    requires lo <= hi <= |audience|
    ensures results == Planned(user, c, audience, successful, vendor)[lo..hi]
    ensures delivered == CountDelivered(results)
  {
    ghost var plan := Planned(user, c, audience, successful, vendor);
    results := [];
    delivered := 0;
    var j := lo;
    while j < hi
      invariant lo <= j <= hi
      invariant results == plan[lo..j]
      invariant delivered == CountDelivered(results)
    {
      var m := MessageFor(user, c, audience[j], successful, vendor(j));
      CountDeliveredStep(results, m);
      if m.status == Delivered {
        delivered := delivered + 1;
      }
      assert plan[lo..j + 1] == plan[lo..j] + [m];
      results := results + [m];
      j := j + 1;
    }
  }

  /** The send handler's audience: the stored customer ids when there are
      any (resolved against the store, in store order), otherwise the
      segment through the send-time query; `None` when that segment is
      missing. */
  function SendTargets(c: Campaign, segments: seq<Segment>, store: seq<Customer>): Option<seq<Customer>> {
    if |c.customers| > 0 then Some(Filter(store, (x: Customer) => x.id in c.customers))
    else
      var segment := FindSegment(segments, c.segmentId);
      if segment.None? then None else Some(SendAudience(store, segment.value.rules))
  }

  /** `Math.random() <= 0.9` */
  predicate Succeeds(draw: real) { draw <= 0.9 }

  /** The counters written before the first batch (95% delivered, 70% and
      30% of those opened and clicked for a successful campaign; all failed
      otherwise). */
  function InitialStats(total: nat, successful: bool): (st: Stats)
    ensures st.totalAudience == total && st.sent == total && st.delivered + st.failed == total
    ensures st.clicks <= st.opens <= st.delivered
    ensures !successful ==> st.delivered == 0 && st.opens == 0 && st.clicks == 0
  {
    var delivered := if successful then total * 95 / 100 else 0;
    Stats(total, total, delivered, total - delivered,
      if successful then delivered * 7 / 10 else 0,
      if successful then delivered * 3 / 10 else 0)
  }

  datatype SendOutcome = SendOutcome(
    campaigns: seq<Campaign>,
    messages: seq<Message>,
    history: seq<Stats>,
    response: Result<Campaign>)

  predicate AlreadySent(c: Campaign) { c.status == Completed || c.status == Status.Failed }

  /** The collection's primary key. */
  predicate UniqueIds(campaigns: seq<Campaign>) {
    forall i, j :: 0 <= i < j < |campaigns| ==> campaigns[i].id != campaigns[j].id
  }

  /** POST /campaigns/:id/send */
  method SendCampaign(campaigns: seq<Campaign>, segments: seq<Segment>, store: seq<Customer>,
                      user: Option<Id>, id: Id, draw: real, now: int, vendor: nat -> VendorReply)
    returns (o: SendOutcome)
    requires UniqueIds(campaigns)
    ensures user.None? ==> o == SendOutcome(campaigns, [], [], Err(HttpError(401, "User not authenticated")))
    ensures user.Some? && FindCampaign(campaigns, id).None? ==> o == SendOutcome(campaigns, [], [], Err(HttpError(404, "Campaign not found")))
    ensures user.Some? && FindCampaign(campaigns, id).Some? && AlreadySent(FindCampaign(campaigns, id).value) ==>
      o == SendOutcome(campaigns, [], [], Err(HttpError(400, "Campaign has already been sent")))
    ensures o.response.Err? ==>
      && o.messages == [] && |o.campaigns| == |campaigns|
      && (forall i :: 0 <= i < |campaigns| && campaigns[i].id != id ==> o.campaigns[i] == campaigns[i])
      && (forall i :: 0 <= i < |campaigns| ==>
            o.campaigns[i].status == campaigns[i].status && o.campaigns[i].stats == campaigns[i].stats)
    ensures o.response.Ok? ==>
      && user.Some? && FindCampaign(campaigns, id).Some?
      && !AlreadySent(FindCampaign(campaigns, id).value)
      && SendTargets(FindCampaign(campaigns, id).value, segments, store).Some?
      && SentToTargets(o, SendTargets(FindCampaign(campaigns, id).value, segments, store).value, id, draw, now)
      && o.response.value.customers ==
           (if |FindCampaign(campaigns, id).value.customers| > 0 then FindCampaign(campaigns, id).value.customers
            else Ids(SendTargets(FindCampaign(campaigns, id).value, segments, store).value))
      && o.response.value.name == FindCampaign(campaigns, id).value.name
      && o.response.value.segmentId == FindCampaign(campaigns, id).value.segmentId
      && o.response.value.message == FindCampaign(campaigns, id).value.message
      && |o.campaigns| == |campaigns|
      && (forall i :: 0 <= i < |campaigns| ==>
            o.campaigns[i] == (if campaigns[i].id == id then o.response.value else campaigns[i]))
  {
    if user.None? {
      return SendOutcome(campaigns, [], [], Err(HttpError(401, "User not authenticated")));
    }
    var found := FindCampaign(campaigns, id);
    if found.None? {
      return SendOutcome(campaigns, [], [], Err(HttpError(404, "Campaign not found")));
    }
    var c := found.value;
    if AlreadySent(c) {
      return SendOutcome(campaigns, [], [], Err(HttpError(400, "Campaign has already been sent")));
    }
    var targets := SendTargets(c, segments, store);
    if targets.None? {
      return SendOutcome(campaigns, [], [], Err(HttpError(404, "Campaign segment not found")));
    }
    var audience := targets.value;
    if |c.customers| == 0 {
      c := c.(customers := Ids(audience));
    }
    if |audience| == 0 {
      ReplaceOnlyTarget(campaigns, CampaignKey, id, c);
      return SendOutcome(ReplaceById(campaigns, CampaignKey, id, c), [], [],
        Err(HttpError(400, "No customers found for this campaign or its segment")));
    }
    o := Deliver(campaigns, c, audience, user.value, id, draw, now, vendor);
  }

  /** The send has gone through to this audience: one message per target in
      order, the status drawn once, and counters that describe exactly the
      recorded messages. */
  predicate SentToTargets(o: SendOutcome, targets: seq<Customer>, id: Id, draw: real, now: int) {
    && o.response.Ok?
    && |targets| > 0
    && |o.messages| == |targets|
    && (forall j :: 0 <= j < |o.messages| ==> o.messages[j].customerId == targets[j].id && o.messages[j].campaignId == id)
    && o.response.value.id == id
    && o.response.value.status == (if Succeeds(draw) then Completed else Status.Failed)
    && o.response.value.sentAt == Some(now)
    && o.response.value.stats == BatchStats(|o.messages|, o.messages)
    && (!Succeeds(draw) ==> o.response.value.stats.delivered == 0)
  }

  /** The part of the send after the audience is known and non-empty. */
  method Deliver(campaigns: seq<Campaign>, c: Campaign, audience: seq<Customer>, user: Id, id: Id,
                 draw: real, now: int, vendor: nat -> VendorReply)
    returns (o: SendOutcome)
    requires c.id == id && |audience| > 0
    ensures SentToTargets(o, audience, id, draw, now)
    ensures |o.campaigns| == |campaigns|
    ensures forall i :: 0 <= i < |campaigns| ==> o.campaigns[i] == (if campaigns[i].id == id then o.response.value else campaigns[i])
    ensures o.response.value.customers == c.customers && o.response.value.name == c.name
    ensures o.response.value.segmentId == c.segmentId && o.response.value.message == c.message
  {
    var successful := Succeeds(draw);
    var sending := c.(status := if successful then Completed else Status.Failed, sentAt := Some(now),
                      stats := InitialStats(|audience|, successful));
    var messages, history := DispatchBatches(user, sending, audience, successful, vendor);
    var done := sending.(stats := history[|history| - 1]);
    assert messages[..SentAfter(|history| - 1, |audience|)] == messages;
    if !successful {
      forall j | 0 <= j < |messages| ensures !IsDelivered(messages[j]) {
        MessageForStatus(user, sending, audience[j], successful, vendor(j));
      }
      NoneDelivered(messages);
    }
    ReplaceOnlyTarget(campaigns, CampaignKey, id, done);
    o := SendOutcome(ReplaceById(campaigns, CampaignKey, id, done), messages, history, Ok(done));
  }

  lemma {:induction false} NoneDelivered(ms: seq<Message>)
    requires forall j :: 0 <= j < |ms| ==> !IsDelivered(ms[j])
    ensures CountDelivered(ms) == 0
  {
    if ms != [] {
      NoneDelivered(ms[1..]);
    }
  }

  /** The minute-later update: only a campaign still marked completed gets
      80% of its delivered messages as opens and 40% as clicks; everything
      else about it stays. */
  function EngagementUpdate(c: Campaign, deliveredMessages: nat): (r: Campaign)
    ensures c.status != Completed ==> r == c
    ensures c.status == Completed ==>
      && r.stats.clicks <= r.stats.opens <= deliveredMessages
      && 10 * r.stats.opens <= 8 * deliveredMessages < 10 * (r.stats.opens + 1)
      && 10 * r.stats.clicks <= 4 * deliveredMessages < 10 * (r.stats.clicks + 1)
      && r.(stats := c.stats) == c
      && r.stats.(opens := c.stats.opens, clicks := c.stats.clicks) == c.stats
  {
    if c.status != Completed then c
    else c.(stats := c.stats.(opens := deliveredMessages * 8 / 10, clicks := deliveredMessages * 4 / 10))
  }

  /** Messages of a campaign the store counts as delivered. */
  function DeliveredMessages(ms: seq<Message>, campaignId: Id): nat {
    Count(ms, (m: Message) => m.campaignId == campaignId && m.status == Delivered)
  }

  /** Right after a send, with no earlier messages for the campaign, the
      store's delivered count is the `delivered` counter, so the engagement
      update grants 80% and 40% of it. */
  lemma {:induction false} EngagementAfterSend(ms: seq<Message>, id: Id)
    requires forall j :: 0 <= j < |ms| ==> ms[j].campaignId == id
    ensures DeliveredMessages(ms, id) == CountDelivered(ms)
  {
    if ms != [] {
      EngagementAfterSend(ms[1..], id);
    }
  }
}

=== FILE: documents.dfy ===
/** Schemaless document values as the rule engine sees them. A customer is an
    id plus a map from field name to value; a field that is missing, `null`
    or `undefined` reads as `Absent`. Numbers are exact (`real`). */
module Documents {
  import opened Wrappers
  import opened Collections
  import JsNumber

  type Id = string

  datatype Value = Str(s: string) | Num(n: real) | Absent

  /** `Number(v)`; `None` is `NaN`. */
  function NumberOf(v: Value): Option<real> {
    match v
    case Num(n) => Some(n)
    case Str(s) => JsNumber.ToNumber(s)
    case Absent => None
  }

  /** `typeof v === 'string' && !isNaN(Number(v))` */
  predicate IsNumericString(v: Value) {
    v.Str? && JsNumber.ToNumber(v.s).Some?
  }

  /** A numeric field read with `x || 0` (or summed by the store, which skips
      non-numbers): its number, or 0 when it is not a number. */
  function NumOrZero(v: Value): real {
    if v.Num? then v.n else 0.0
  }

  datatype Customer = Customer(id: Id, doc: map<string, Value>)

  function Field(c: Customer, f: string): Value {
    if f in c.doc then c.doc[f] else Absent
  }

  /** The value of `f` after `c.f = v`. */
  function SetField(c: Customer, f: string, v: Value): (r: Customer)
    ensures r.id == c.id && Field(r, f) == v
    ensures forall g :: g != f ==> Field(r, g) == Field(c, g)
  {
    Customer(c.id, c.doc[f := v])
  }

  /** A `$project` stage: only the listed fields survive (the id always does). */
  function Project(c: Customer, keep: set<string>): (r: Customer)
    ensures r.id == c.id
    ensures forall g :: Field(r, g) == (if g in keep then Field(c, g) else Absent)
  {
    Customer(c.id, map g | g in c.doc && g in keep :: c.doc[g])
  }

  function Ids(cs: seq<Customer>): (r: seq<Id>)
    ensures |r| == |cs| && forall i :: 0 <= i < |cs| ==> r[i] == cs[i].id
  {
    if cs == [] then [] else [cs[0].id] + Ids(cs[1..])
  }

  /** The primary key `_id`. */
  function CustomerKey(c: Customer): string { c.id }

  /** The store lookup `Customer.findById`: the first customer with that id. */
  function FindCustomer(store: seq<Customer>, id: Id): (r: Option<Customer>)
    ensures r.Some? ==> r.value in store && r.value.id == id
    ensures r.None? ==> forall i :: 0 <= i < |store| ==> store[i].id != id
  {
    FindById(store, CustomerKey, id)
  }
}

=== FILE: error_handler.dfy ===
/** The Express error middleware (server/src/middleware/errorHandler.ts):
    a thrown value is classified by the first matching branch of a fixed
    chain, which picks the HTTP status, the message and the error entries. */
module ErrorHandler {
  import opened Wrappers

  /** The class a thrown object was built from, as the `instanceof` tests
      see it: Mongoose's ValidationError and CastError are also Mongoose
      errors; a driver error (such as a unique-index violation) is not. */
  datatype ErrorClass = MongooseValidation | MongooseCast | MongooseOther | AppErrorClass | PlainError

  predicate IsMongooseError(cls: ErrorClass) {
    cls == MongooseValidation || cls == MongooseCast || cls == MongooseOther
  }

  /** One entry of a response's `errors` list; a property that is
      `undefined` in the source is `None`. */
  datatype Entry = Entry(field: Option<string>, message: Option<string>)

  datatype FieldError = FieldError(path: string, message: string)

  /** An express-validator result item; `None` when the key is absent. */
  datatype ValidatorItem = ValidatorItem(param: Option<string>, msg: Option<string>)

  datatype Thrown =
    | Instance(
        cls: ErrorClass,
        name: string,
        message: string,
        code: Option<int>,
        keyPattern: seq<string>,
        path: string,
        fieldErrors: seq<FieldError>,
        statusCode: int,
        appErrors: Option<seq<Entry>>)
    | ThrownArray(items: seq<ValidatorItem>)

  datatype Response = Response(status: int, message: string, errors: Option<seq<Entry>>)

  const RelogIn := Some([Entry(None, Some("Please log in again"))])

  // The guards of the chain, in order.
  predicate IsValidationError(e: Thrown) { e.Instance? && e.cls == MongooseValidation }
  predicate IsDuplicateKey(e: Thrown) { e.Instance? && IsMongooseError(e.cls) && e.code == Some(11000) }
  predicate IsCastError(e: Thrown) { e.Instance? && e.cls == MongooseCast }
  predicate IsValidatorArray(e: Thrown) {
    e.ThrownArray? && |e.items| > 0 && e.items[0].param.Some? && e.items[0].msg.Some?
  }
  predicate IsAppError(e: Thrown) { e.Instance? && e.cls == AppErrorClass }
  predicate IsBadToken(e: Thrown) { e.Instance? && e.name == "JsonWebTokenError" }
  predicate IsExpiredToken(e: Thrown) { e.Instance? && e.name == "TokenExpiredError" }

  /** `${field} already exists` for the first key of `keyPattern`. */
  function DuplicateEntry(keys: seq<string>): Entry {
    if keys == [] then Entry(None, Some("undefined already exists"))
    else Entry(Some(keys[0]), Some(keys[0] + " already exists"))
  }

  function FieldEntries(fs: seq<FieldError>): (r: seq<Entry>)
    ensures |r| == |fs|
    ensures forall i :: 0 <= i < |fs| ==> r[i] == Entry(Some(fs[i].path), Some(fs[i].message))
  {
    seq(|fs|, i requires 0 <= i < |fs| => Entry(Some(fs[i].path), Some(fs[i].message)))
  }

  function ItemEntries(items: seq<ValidatorItem>): (r: seq<Entry>)
    ensures |r| == |items|
    ensures forall i :: 0 <= i < |items| ==> r[i] == Entry(items[i].param, items[i].msg)
  {
    seq(|items|, i requires 0 <= i < |items| => Entry(items[i].param, items[i].msg))
  }

  /** The details of an unknown error, sent only in development. */
  function Details(e: Thrown, development: bool): Option<seq<Entry>> {
    if !development then None
    else if e.Instance? then Some([Entry(None, Some(e.message))])
    else Some([Entry(None, None)])
  }

  /** The handler as written: an if-chain, first match wins. */
  function Handle(e: Thrown, development: bool): Response {
    if IsValidationError(e) then Response(400, "Validation Error", Some(FieldEntries(e.fieldErrors)))
    else if IsDuplicateKey(e) then Response(400, "Duplicate Error", Some([DuplicateEntry(e.keyPattern)]))
    else if IsCastError(e) then Response(400, "Invalid ID", Some([Entry(Some(e.path), Some("Invalid ID format"))]))
    else if IsValidatorArray(e) then Response(400, "Validation Error", Some(ItemEntries(e.items)))
    else if IsAppError(e) then Response(e.statusCode, e.message, e.appErrors)
    else if IsBadToken(e) then Response(401, "Invalid token", RelogIn)
    else if IsExpiredToken(e) then Response(401, "Token expired", RelogIn)
    else Response(500, "Internal Server Error", Details(e, development))
  }

  // ---------------------------------------------------------------------
  // A reference reading: the branches as a table searched in order.

  const BranchCount := 7

  predicate Guard(k: nat, e: Thrown) {
    match k
    case 0 => IsValidationError(e)
    case 1 => IsDuplicateKey(e)
    case 2 => IsCastError(e)
    case 3 => IsValidatorArray(e)
    case 4 => IsAppError(e)
    case 5 => IsBadToken(e)
    case 6 => IsExpiredToken(e)
    case _ => true
  }

  function Answer(k: nat, e: Thrown, development: bool): Response {
    match k
    case 0 => Response(400, "Validation Error", if e.Instance? then Some(FieldEntries(e.fieldErrors)) else None)
    case 1 => Response(400, "Duplicate Error", if e.Instance? then Some([DuplicateEntry(e.keyPattern)]) else None)
    case 2 => Response(400, "Invalid ID", if e.Instance? then Some([Entry(Some(e.path), Some("Invalid ID format"))]) else None)
    case 3 => Response(400, "Validation Error", if e.ThrownArray? then Some(ItemEntries(e.items)) else None)
    case 4 => if e.Instance? then Response(e.statusCode, e.message, e.appErrors) else Response(500, "", None)
    case 5 => Response(401, "Invalid token", RelogIn)
    case 6 => Response(401, "Token expired", RelogIn)
    case _ => Response(500, "Internal Server Error", Details(e, development))
  }

  /** The index of the first guard from `k` on that holds (the last branch
      always does). */
  function FirstMatch(e: Thrown, k: nat): (r: nat)
    requires k <= BranchCount
    ensures k <= r <= BranchCount && Guard(r, e)
    ensures forall j :: k <= j < r ==> !Guard(j, e)
    decreases BranchCount - k
  {
    if Guard(k, e) then k else FirstMatch(e, k + 1)
  }

  /** The handler answers with the branch of the first guard that holds. */
  lemma HandleIsFirstMatch(e: Thrown, development: bool)
    ensures Handle(e, development) == Answer(FirstMatch(e, 0), e, development)
  {
    var r := FirstMatch(e, 0);
    assert forall j :: 0 <= j < r ==> !Guard(j, e);
    if r > 0 { assert !Guard(0, e); }
    if r > 1 { assert !Guard(1, e); }
    if r > 2 { assert !Guard(2, e); }
    if r > 3 { assert !Guard(3, e); }
    if r > 4 { assert !Guard(4, e); }
    if r > 5 { assert !Guard(5, e); }
    if r > 6 { assert !Guard(6, e); }
  }

  // ---------------------------------------------------------------------
  // What each kind of error gets.

  /** An AppError keeps its own status, message and entries, whatever its
      name; this is how every `HttpError` of the routes reaches the client. */
  lemma AppErrorsPassThrough(status: int, message: string, name: string, entries: Option<seq<Entry>>,
                             code: Option<int>, development: bool)
    ensures var e := Instance(AppErrorClass, name, message, code, [], "", [], status, entries);
      Handle(e, development) == Response(status, message, entries)
  {
  }

  /** A validation error gives one entry per failing path, in order, even
      when it also carries the duplicate-key code. */
  lemma ValidationEntriesPerField(e: Thrown, development: bool)
    requires IsValidationError(e)
    ensures var r := Handle(e, development);
      && r.status == 400 && r.message == "Validation Error"
      && r.errors.Some? && |r.errors.value| == |e.fieldErrors|
      && forall i :: 0 <= i < |e.fieldErrors| ==> r.errors.value[i].field == Some(e.fieldErrors[i].path)
  {
  }

  /** The duplicate-key branch only sees Mongoose errors: a driver error
      with code 11000 falls through to a 500, while the same code on a
      Mongoose error names the first key. */
  lemma DuplicateKeyNeedsMongooseError(name: string, message: string, keys: seq<string>, development: bool)
    requires name != "JsonWebTokenError" && name != "TokenExpiredError"
    ensures Handle(Instance(PlainError, name, message, Some(11000), keys, "", [], 0, None), development).status == 500
    ensures var r := Handle(Instance(MongooseOther, name, message, Some(11000), keys, "", [], 0, None), development);
      r.status == 400 && r.message == "Duplicate Error"
      && (keys != [] ==> r.errors == Some([Entry(Some(keys[0]), Some(keys[0] + " already exists"))]))
  {
  }

  /** A cast error is an invalid id on its path. */
  lemma CastErrorIsInvalidId(e: Thrown, development: bool)
    requires IsCastError(e) && e.code != Some(11000)
    ensures Handle(e, development) == Response(400, "Invalid ID", Some([Entry(Some(e.path), Some("Invalid ID format"))]))
  {
  }

  /** Token errors are recognised by name, and only on errors that no
      earlier branch claims. */
  lemma TokenErrors(cls: ErrorClass, message: string, development: bool)
    requires cls == PlainError || cls == MongooseOther
    ensures Handle(Instance(cls, "JsonWebTokenError", message, None, [], "", [], 0, None), development)
      == Response(401, "Invalid token", RelogIn)
    ensures Handle(Instance(cls, "TokenExpiredError", message, None, [], "", [], 0, None), development)
      == Response(401, "Token expired", RelogIn)
    ensures Handle(Instance(AppErrorClass, "TokenExpiredError", message, None, [], "", [], 403, None), development).status == 403
  {
  }

  /** Anything unrecognised is a 500 whose details appear only in
      development; an empty thrown array is unrecognised. */
  lemma UnknownErrorsHideDetails(e: Thrown)
    requires forall k :: 0 <= k < BranchCount ==> !Guard(k, e)
    ensures Handle(e, false) == Response(500, "Internal Server Error", None)
    ensures Handle(e, true).status == 500 && Handle(e, true).errors.Some?
    ensures Handle(ThrownArray([]), false).status == 500
  {
    assert !Guard(0, e) && !Guard(1, e) && !Guard(2, e) && !Guard(3, e);
    assert !Guard(4, e) && !Guard(5, e) && !Guard(6, e);
  }
}

=== FILE: jsnumber.dfy ===
/** JavaScript's string-to-number conversions, as the handlers and forms use
    them: `Number(s)` (rule values), `parseInt(s)` (query parameters, quantity
    inputs) and `parseFloat(s)` (price inputs). `None` stands for `NaN`.
    Only decimal notation is modelled: an optional sign, digits, an optional
    '.' and fraction digits. */
module JsNumber {
  import opened Wrappers
  import opened Strings

  function DigitValue(c: char): nat
    requires IsDigit(c)
  {
    c as int - '0' as int
  }

  function Pow10(n: nat): (p: nat)
    ensures p >= 1
  {
    if n == 0 then 1 else 10 * Pow10(n - 1)
  }

  /** The decimal value of a run of digits, most significant first. */
  function DigitsValue(ds: string): nat
    requires AllDigits(ds)
  {
    if ds == [] then 0 else 10 * DigitsValue(ds[..|ds| - 1]) + DigitValue(ds[|ds| - 1])
  }

  function DigitChar(d: nat): (c: char)
    requires d < 10
    ensures IsDigit(c) && DigitValue(c) == d
  {
    ('0' as int + d) as char
  }

  /** `String(n)` for a non-negative integer: its decimal digits, without
      leading zeros. */
  function Decimal(n: nat): (s: string)
    ensures s != [] && AllDigits(s)
    ensures n > 0 ==> s[0] != '0'
  {
    if n < 10 then [DigitChar(n)] else Decimal(n / 10) + [DigitChar(n % 10)]
  }

  /** Reading back the decimal spelling of `n` gives `n`; so does `parseInt`. */
  lemma DecimalRoundTrip(n: nat)
    ensures DigitsValue(Decimal(n)) == n
    ensures ParseInt(Decimal(n)) == Some(n)
  {
    DecimalValue(n);
    DigitStringsConvert(Decimal(n));
  }

  lemma {:induction false} DecimalValue(n: nat)
    ensures DigitsValue(Decimal(n)) == n
  {
    var s := Decimal(n);
    if n >= 10 {
      DecimalValue(n / 10);
      assert s[..|s| - 1] == Decimal(n / 10);
    } else {
      assert s[..0] == [];
    }
  }

  /** Different numbers are spelled differently. */
  lemma DecimalInjective(m: nat, n: nat)
    requires Decimal(m) == Decimal(n)
    ensures m == n
  {
    DecimalRoundTrip(m);
    DecimalRoundTrip(n);
  }

  /** The end of the longest run of digits that starts at `i`. */
  function DigitRunEnd(s: string, i: nat): (e: nat)
    requires i <= |s|
    ensures i <= e <= |s|
    ensures forall k :: i <= k < e ==> IsDigit(s[k])
    ensures e == |s| || !IsDigit(s[e])
    decreases |s| - i
  {
    if i < |s| && IsDigit(s[i]) then DigitRunEnd(s, i + 1) else i
  }

  function Signed(negative: bool, x: real): real {
    if negative then -x else x
  }

  /** A decimal literal read from the start of `s`: its value and where it ends. */
  datatype Scan = Scan(value: real, end: nat)

  /** Reads `[+-]? digits* ('.' digits*)?` from the start of `s`, asking for at
      least one digit; `None` when there is none. */
  function ScanDecimal(s: string): (r: Option<Scan>)
    ensures r.Some? ==> 0 < r.value.end <= |s|
  {
    var j := if |s| > 0 && (s[0] == '+' || s[0] == '-') then 1 else 0;
    var negative := j == 1 && s[0] == '-';
    var k := DigitRunEnd(s, j);
    var whole := DigitsValue(s[j..k]) as real;
    if k < |s| && s[k] == '.' then
      var m := DigitRunEnd(s, k + 1);
      if k == j && m == k + 1 then None
      else Some(Scan(Signed(negative, whole + DigitsValue(s[k + 1..m]) as real / Pow10(m - k - 1) as real), m))
    else if k == j then None
    else Some(Scan(Signed(negative, whole), k))
  }

  /** `Number(s)`: the whole trimmed string must be a literal; the empty (or
      all-whitespace) string converts to 0. */
  function ToNumber(s: string): Option<real> {
    var t := Trim(s);
    if t == [] then Some(0.0)
    else match ScanDecimal(t)
      case Some(sc) => if sc.end == |t| then Some(sc.value) else None
      case None => None
  }

  /** `parseFloat(s)`: the longest decimal prefix after leading whitespace. */
  function ParseFloat(s: string): Option<real> {
    match ScanDecimal(TrimStart(s))
    case Some(sc) => Some(sc.value)
    case None => None
  }

  /** `parseInt(s)` in base 10: sign and digits after leading whitespace,
      anything after the digits ignored. */
  function ParseInt(s: string): Option<int> {
    var t := TrimStart(s);
    var j := if |t| > 0 && (t[0] == '+' || t[0] == '-') then 1 else 0;
    var k := DigitRunEnd(t, j);
    if k == j then None
    else if j == 1 && t[0] == '-' then Some(-(DigitsValue(t[j..k]) as int))
    else Some(DigitsValue(t[j..k]))
  }

  lemma DigitRunToEnd(s: string, i: nat)
    requires i <= |s|
    requires forall k :: i <= k < |s| ==> IsDigit(s[k])
    ensures DigitRunEnd(s, i) == |s|
  {
  }

  lemma DigitsAreNotSpace(ds: string)
    requires AllDigits(ds)
    ensures Trim(ds) == ds && TrimStart(ds) == ds
  {
    if ds != [] {
      assert IsDigit(ds[0]) && IsDigit(ds[|ds| - 1]);
    }
    Untrimmed(ds);
  }

  /** A plain run of digits converts, under all three conversions, to the
      number it spells. */
  lemma {:induction false} DigitStringsConvert(ds: string)
    requires ds != [] && AllDigits(ds)
    ensures ToNumber(ds) == Some(DigitsValue(ds) as real)
    ensures ParseFloat(ds) == Some(DigitsValue(ds) as real)
    ensures ParseInt(ds) == Some(DigitsValue(ds) as int)
  {
    DigitsAreNotSpace(ds);
    DigitRunToEnd(ds, 0);
    assert ds[0..|ds|] == ds;
  }

  /** `Number('')` is 0, so the empty string counts as numeric; `parseInt('')`
      and `parseFloat('')` are NaN. */
  lemma EmptyStringConversions()
    ensures ToNumber("") == Some(0.0)
    ensures ParseInt("") == None && ParseFloat("") == None
  {
  }

  /** Text after the literal makes `Number` NaN while `parseFloat` still
      reads the prefix. */
  lemma TrailingTextDiffers()
    ensures ToNumber("12ab") == None
    ensures ParseFloat("12ab") == Some(12.0)
  {
    var s := "12ab";
    Untrimmed(s);
    ScanTwelve();
  }

  lemma ScanTwelve()
    ensures ScanDecimal("12ab") == Some(Scan(12.0, 2))
  {
    var s := "12ab";
    assert DigitRunEnd(s, 0) == 2 by {
      assert DigitRunEnd(s, 2) == 2;
    }
    assert s[0..2] == "12";
    assert DigitsValue("12") == 12 by { assert "12"[..1] == "1"; }
  }
}

=== FILE: lifecycle.dfy ===
/** The campaign lifecycle draft → completed | failed
    (server/src/routes/campaigns.ts create, update and delete, with the
    send guard in module Dispatch), and the second sender and the mark-read
    handler of server/src/routes/messages.ts. */
module Lifecycle {
  import opened Wrappers
  import opened Strings
  import opened Validators
  import opened Documents
  import opened Seqs
  import opened Collections
  import opened SegmentModel
  import opened CampaignModel
  import opened MessageModel
  import opened AudienceResolution
  import opened Pagination
  import Dispatch

  // ---------------------------------------------------------------------
  // Guards.

  /** Update and delete refuse only completed campaigns; send also refuses
      failed ones, so a failed campaign can be edited, reset and sent again. */
  predicate MayUpdate(st: Status) { st != Completed }
  predicate MayDelete(st: Status) { st != Completed }
  predicate MaySend(st: Status) { st == Draft }

  lemma GuardsByStatus()
    ensures MayUpdate(Draft) && MayDelete(Draft) && MaySend(Draft)
    ensures MayUpdate(Status.Failed) && MayDelete(Status.Failed) && !MaySend(Status.Failed)
    ensures !MayUpdate(Completed) && !MayDelete(Completed) && !MaySend(Completed)
    ensures forall c: Campaign :: MaySend(c.status) <==> !Dispatch.AlreadySent(c)
  {
  }

  // ---------------------------------------------------------------------
  // Request validation.

  /** An ISO 8601 date in the body: absent, well formed (as a timestamp) or
      malformed. The date grammar itself is not modelled. */
  datatype DateInput = NoDate | Date(at: int) | BadDate

  datatype CampaignBody = CampaignBody(
    name: Option<string>,
    segmentId: Option<string>,
    message: Option<string>,
    scheduledFor: DateInput,
    status: Option<string>,
    customers: Option<seq<string>>)

  const RequestStatuses: set<string> := {"draft", "scheduled", "running", "completed", "failed"}

  /** The messages of the failing validators, in declaration order. */
  function ValidationMessages(b: CampaignBody): (msgs: seq<string>)
    ensures msgs == [] <==>
      NotBlank(b.name) && b.segmentId.Some? && IsMongoId(b.segmentId.value) && NotBlank(b.message)
      && b.scheduledFor != BadDate && (b.status.None? || b.status.value in RequestStatuses)
  {
    (if NotBlank(b.name) then [] else ["Campaign name is required"])
    + (if b.segmentId.Some? && IsMongoId(b.segmentId.value) then [] else ["Invalid segment ID"])
    + (if NotBlank(b.message) then [] else ["Campaign message is required"])
    + (if b.scheduledFor != BadDate then [] else ["Invalid date format"])
    + (if b.status.None? || b.status.value in RequestStatuses then [] else ["Invalid status value"])
  }

  /** Customer ids from the body, each converted to an object id; a string
      that is not one makes the conversion throw (a server error). */
  function ConvertIds(ids: seq<string>): (r: Result<seq<Id>>)
    ensures r.Ok? <==> forall i :: 0 <= i < |ids| ==> IsMongoId(ids[i])
    ensures r.Ok? ==> r.value == ids
    ensures r.Err? ==> r.error.status == 500
  {
    if forall i :: 0 <= i < |ids| ==> IsMongoId(ids[i]) then Ok(ids)
    else Err(HttpError(500, "Internal Server Error"))
  }

  /** `Customer.find({ segmentId })`: customers whose own document has a
      `segmentId` field holding that id. */
  function CustomersTaggedWith(store: seq<Customer>, segmentId: Id): seq<Id> {
    Ids(Filter(store, (c: Customer) => Field(c, "segmentId") == Str(segmentId)))
  }

  datatype CampaignOutcome = CampaignOutcome(campaigns: seq<Campaign>, response: Result<Campaign>)

  const SchemaRejected := HttpError(400, "Validation Error")

  /** The status a create asks for: the body's, else `scheduled` when a date
      is given, else `draft`. */
  function RequestedStatus(b: CampaignBody): string {
    if b.status.Some? && b.status.value != "" then b.status.value
    else if b.scheduledFor.Date? then "scheduled" else "draft"
  }

  // ---------------------------------------------------------------------
  // Create.

  /** POST /campaigns */
  function CreateCampaign(campaigns: seq<Campaign>, segments: seq<Segment>, store: seq<Customer>,
                          user: Option<Id>, b: CampaignBody, newId: Id): (o: CampaignOutcome)
    ensures o.response.Ok? ==> o.campaigns == campaigns + [o.response.value]
    ensures o.response.Err? ==> o.campaigns == campaigns
  {
    if user.None? then CampaignOutcome(campaigns, Err(HttpError(401, "User not authenticated")))
    else if ValidationMessages(b) != [] then CampaignOutcome(campaigns, Err(HttpError(400, Join(ValidationMessages(b), ", "))))
    else if FindSegment(segments, b.segmentId.value).None? then CampaignOutcome(campaigns, Err(HttpError(404, "Segment not found")))
    else
      var customers :=
        if b.customers.Some? then ConvertIds(b.customers.value)
        else Ok(CustomersTaggedWith(store, b.segmentId.value));
      if customers.Err? then CampaignOutcome(campaigns, Err(customers.error))
      else
        var status := ParseStatus(RequestedStatus(b));
        if status.None? then CampaignOutcome(campaigns, Err(SchemaRejected))
        else
          var c := NewCampaign(newId, Trim(b.name.value), b.segmentId.value, Trim(b.message.value), customers.value, status);
          CampaignOutcome(campaigns + [c], Ok(c))
  }

  /** A successful create appends one campaign with zeroed counters, the
      trimmed name and message, and as audience the ids given in `customers`
      or, without that key, the customers tagged with the segment. */
  lemma CreateCampaignResult(campaigns: seq<Campaign>, segments: seq<Segment>, store: seq<Customer>,
                             user: Option<Id>, b: CampaignBody, newId: Id)
    requires CreateCampaign(campaigns, segments, store, user, b, newId).response.Ok?
    ensures var o := CreateCampaign(campaigns, segments, store, user, b, newId);
      && o.campaigns == campaigns + [o.response.value]
      && user.Some? && ValidationMessages(b) == []
      && FindSegment(segments, b.segmentId.value).Some?
      && o.response.value.stats == Stats(0, 0, 0, 0, 0, 0)
      && o.response.value.name == Trim(b.name.value) && o.response.value.name != ""
      && o.response.value.customers == (if b.customers.Some? then b.customers.value else CustomersTaggedWith(store, b.segmentId.value))
      && CampaignModel.StatusName(o.response.value.status) == RequestedStatus(b)
  {
    var o := CreateCampaign(campaigns, segments, store, user, b, newId);
    assert user.Some? && ValidationMessages(b) == [];
    var customers :=
      if b.customers.Some? then ConvertIds(b.customers.value)
      else Ok(CustomersTaggedWith(store, b.segmentId.value));
    var status := ParseStatus(RequestedStatus(b));
    assert customers.Ok? && status.Some?;
    assert o.response.value == NewCampaign(newId, Trim(b.name.value), b.segmentId.value, Trim(b.message.value), customers.value, status);
    TrimIdempotent(b.name.value);
  }

  /** Asking for a schedule without an explicit status makes the handler
      request `scheduled`, which the schema's status enum does not contain:
      such a create always fails validation and stores nothing. The same
      holds for an explicit `scheduled` or `running`. */
  lemma ScheduledCreateRejected(campaigns: seq<Campaign>, segments: seq<Segment>, store: seq<Customer>,
                                user: Option<Id>, b: CampaignBody, newId: Id)
    requires user.Some? && ValidationMessages(b) == [] && FindSegment(segments, b.segmentId.value).Some?
    requires b.customers.None? || ConvertIds(b.customers.value).Ok?
    requires RequestedStatus(b) in {"scheduled", "running"}
    ensures CreateCampaign(campaigns, segments, store, user, b, newId) == CampaignOutcome(campaigns, Err(SchemaRejected))
  {
  }

  /** A create fails with a 400 naming every failing validator before any
      lookup or write. */
  lemma CreateValidationFirst(campaigns: seq<Campaign>, segments: seq<Segment>, store: seq<Customer>,
                              user: Option<Id>, b: CampaignBody, newId: Id)
    requires user.Some? && ValidationMessages(b) != []
    ensures CreateCampaign(campaigns, segments, store, user, b, newId)
      == CampaignOutcome(campaigns, Err(HttpError(400, Join(ValidationMessages(b), ", "))))
    ensures b.name.None? ==> "Campaign name is required" in ValidationMessages(b)
  {
  }

  // ---------------------------------------------------------------------
  // Update.


  /** The segment part of an update: a different segment id must exist, and
      then replaces the audience with the customers tagged with it. */
  function ApplySegmentChange(c: Campaign, segments: seq<Segment>, store: seq<Customer>, segmentId: Option<string>)
    : (r: Result<Campaign>)
    ensures r.Ok? ==> r.value.(customers := c.customers, segmentId := c.segmentId) == c
    ensures segmentId.None? || segmentId.value == "" || segmentId.value == c.segmentId ==> r == Ok(c)
    ensures segmentId.Some? && segmentId.value != "" && segmentId.value != c.segmentId ==>
      && (r.Err? <==> FindSegment(segments, segmentId.value).None?)
      && (r.Ok? ==> r.value.segmentId == segmentId.value && r.value.customers == CustomersTaggedWith(store, segmentId.value))
  {
    if segmentId.None? || segmentId.value == "" || segmentId.value == c.segmentId then Ok(c)
    else if FindSegment(segments, segmentId.value).None? then Err(HttpError(404, "Segment not found"))
    else Ok(c.(customers := CustomersTaggedWith(store, segmentId.value), segmentId := segmentId.value))
  }

  /** The edits of an update applied to the stored campaign: the id list
      (converted), then a segment move, then name and message, then a
      non-empty status, which the schema's enum must accept. */
  function EditCampaign(before: Campaign, segments: seq<Segment>, store: seq<Customer>, b: CampaignBody)
    : Result<Campaign>
    requires ValidationMessages(b) == []
  {
    var selected :- if b.customers.Some? then ConvertIds(b.customers.value) else Ok(before.customers);
    var moved :- ApplySegmentChange(before.(customers := selected), segments, store, b.segmentId);
    var named := moved.(name := Trim(b.name.value), message := Trim(b.message.value));
    if b.status.Some? && b.status.value != "" then
      var st := ParseStatus(b.status.value);
      if st.None? then Err(SchemaRejected) else Ok(named.(status := st.value))
    else Ok(named)
  }

  /** PUT /campaigns/:id */
  function UpdateCampaign(campaigns: seq<Campaign>, segments: seq<Segment>, store: seq<Customer>,
                          user: Option<Id>, id: Id, b: CampaignBody): CampaignOutcome
  {
    if user.None? then CampaignOutcome(campaigns, Err(HttpError(401, "User not authenticated")))
    else if ValidationMessages(b) != [] then CampaignOutcome(campaigns, Err(HttpError(400, Join(ValidationMessages(b), ", "))))
    else
      var found := FindCampaign(campaigns, id);
      if found.None? then CampaignOutcome(campaigns, Err(HttpError(404, "Campaign not found")))
      else if !MayUpdate(found.value.status) then CampaignOutcome(campaigns, Err(HttpError(400, "Cannot update a completed campaign")))
      else
        var edited := EditCampaign(found.value, segments, store, b);
        if edited.Err? then CampaignOutcome(campaigns, Err(edited.error))
        else CampaignOutcome(ReplaceById(campaigns, CampaignKey, id, edited.value), Ok(edited.value))
  }

  /** An edit keeps the id, counters and send time, trims name and message,
      and moving to another segment replaces the audience with that
      segment's tagged customers, overriding any ids sent in the same
      request. */
  lemma EditCampaignFields(before: Campaign, segments: seq<Segment>, store: seq<Customer>, b: CampaignBody)
    requires ValidationMessages(b) == []
    ensures var e := EditCampaign(before, segments, store, b);
      e.Ok? ==>
        && e.value.id == before.id
        && e.value.stats == before.stats && e.value.sentAt == before.sentAt
        && e.value.name == Trim(b.name.value) && e.value.message == Trim(b.message.value)
        && (b.segmentId.value != before.segmentId ==>
              e.value.segmentId == b.segmentId.value
              && e.value.customers == CustomersTaggedWith(store, b.segmentId.value))
        && (b.segmentId.value == before.segmentId ==>
              e.value.customers == (if b.customers.Some? then b.customers.value else before.customers))
  {
  }

  /** An edit fails exactly for an id list that does not convert, a move to
      an unknown segment, or a status outside the enum. */
  lemma EditCampaignFails(before: Campaign, segments: seq<Segment>, store: seq<Customer>, b: CampaignBody)
    requires ValidationMessages(b) == []
    ensures var e := EditCampaign(before, segments, store, b);
      e.Err? <==>
        || (b.customers.Some? && ConvertIds(b.customers.value).Err?)
        || (b.segmentId.value != before.segmentId && FindSegment(segments, b.segmentId.value).None?)
        || (b.status.Some? && b.status.value != "" && ParseStatus(b.status.value).None?)
  {
  }

  /** An update writes only the campaign with that id, and writes nothing
      when it fails. */
  lemma UpdateCampaignFrame(campaigns: seq<Campaign>, segments: seq<Segment>, store: seq<Customer>,
                            user: Option<Id>, id: Id, b: CampaignBody)
    ensures var o := UpdateCampaign(campaigns, segments, store, user, id, b);
      && |o.campaigns| == |campaigns|
      && (forall i :: 0 <= i < |campaigns| && campaigns[i].id != id ==> o.campaigns[i] == campaigns[i])
      && (o.response.Err? ==> o.campaigns == campaigns)
      && (o.response.Ok? ==>
            && user.Some? && FindCampaign(campaigns, id).Some?
            && MayUpdate(FindCampaign(campaigns, id).value.status)
            && o.response == EditCampaign(FindCampaign(campaigns, id).value, segments, store, b))
  {
    if user.Some? && ValidationMessages(b) == [] {
      var found := FindCampaign(campaigns, id);
      if found.Some? && MayUpdate(found.value.status) {
        var edited := EditCampaign(found.value, segments, store, b);
        if edited.Ok? {
          ReplaceOnlyTarget(campaigns, CampaignKey, id, edited.value);
        }
      }
    }
  }

  /** A successful update writes the campaign it returns, under the same id,
      in place of the stored one. */
  lemma UpdateCampaignWrites(campaigns: seq<Campaign>, segments: seq<Segment>, store: seq<Customer>,
                             user: Option<Id>, id: Id, b: CampaignBody)
    requires UpdateCampaign(campaigns, segments, store, user, id, b).response.Ok?
    ensures var o := UpdateCampaign(campaigns, segments, store, user, id, b);
      o.response.value.id == id && o.campaigns == ReplaceById(campaigns, CampaignKey, id, o.response.value)
  {
    var found := FindCampaign(campaigns, id);
    assert user.Some? && ValidationMessages(b) == [] && found.Some? && MayUpdate(found.value.status);
    var edited := EditCampaign(found.value, segments, store, b);
    assert edited.Ok?;
    EditCampaignFields(found.value, segments, store, b);
  }

  /** A completed campaign is frozen: every update of it is refused and
      nothing is written. */
  lemma CompletedIsFrozen(campaigns: seq<Campaign>, segments: seq<Segment>, store: seq<Customer>,
                          user: Option<Id>, id: Id, b: CampaignBody)
    requires user.Some? && ValidationMessages(b) == []
    requires FindCampaign(campaigns, id).Some? && FindCampaign(campaigns, id).value.status == Completed
    ensures UpdateCampaign(campaigns, segments, store, user, id, b)
      == CampaignOutcome(campaigns, Err(HttpError(400, "Cannot update a completed campaign")))
    ensures DeleteCampaign(campaigns, user, id) == CampaignOutcome(campaigns, Err(HttpError(400, "Cannot delete a completed campaign")))
  {
  }

  /** A failed campaign can be put back to draft by an update, after which
      the send guard lets it through again. */
  lemma FailedCanBeReset(campaigns: seq<Campaign>, segments: seq<Segment>, store: seq<Customer>,
                         user: Option<Id>, id: Id, b: CampaignBody)
    requires user.Some? && ValidationMessages(b) == []
    requires FindCampaign(campaigns, id).Some? && FindCampaign(campaigns, id).value.status == Status.Failed
    requires b.customers.None? && b.segmentId == Some(FindCampaign(campaigns, id).value.segmentId)
    requires b.status == Some("draft")
    ensures UpdateCampaign(campaigns, segments, store, user, id, b).response.Ok?
    ensures MaySend(UpdateCampaign(campaigns, segments, store, user, id, b).response.value.status)
  {
  }

  // ---------------------------------------------------------------------
  // Listing.

  /** A `segmentId` after `populate('segmentId', 'name')`: the segment's
      `_id` and `name`. */
  datatype SegmentSummary = SegmentSummary(id: Id, name: string)

  /** Populating one reference: the segment with that id, or `null` when
      the segment has been deleted. */
  function PopulateSegment(segments: seq<Segment>, id: Id): (r: Option<SegmentSummary>)
    ensures r.None? <==> forall i :: 0 <= i < |segments| ==> segments[i].id != id
    ensures r.Some? ==>
      r.value.id == id && FindSegment(segments, id).Some? && r.value.name == FindSegment(segments, id).value.name
  {
    match FindSegment(segments, id)
    case None => None
    case Some(s) => Some(SegmentSummary(s.id, s.name))
  }

  /** A listed campaign: the stored campaign, answered with the populated
      segment (or `null`) in place of its `segmentId`. */
  datatype ListedCampaign = ListedCampaign(campaign: Campaign, segment: Option<SegmentSummary>)

  function ListRow(segments: seq<Segment>, c: Campaign): ListedCampaign {
    ListedCampaign(c, PopulateSegment(segments, c.segmentId))
  }

  /** The stored campaigns behind listed rows. */
  function ListedCampaigns(rows: seq<ListedCampaign>): (cs: seq<Campaign>)
    ensures |cs| == |rows| && forall k :: 0 <= k < |rows| ==> cs[k] == rows[k].campaign
  {
    Map(rows, (row: ListedCampaign) => row.campaign)
  }

  /** The body of GET /campaigns: the page's campaigns and, nested under
      `pagination`, the page info with the collection's size. */
  datatype CampaignListBody = CampaignListBody(campaigns: seq<ListedCampaign>, pagination: PageInfo)

  /** GET /campaigns over the collection in creation order: the page is
      read newest first, `skip` rows from the most recent campaign, and each
      campaign's segment is populated from the segment collection. */
  function ListCampaigns(campaigns: seq<Campaign>, segments: seq<Segment>, user: Option<Id>,
                         page: Option<string>, limit: Option<string>)
    : (r: Result<CampaignListBody>)
    ensures user.None? ==> r == Err(HttpError(401, "User not authenticated"))
    ensures user.Some? ==> (r.Err? <==> Skip(Info(|campaigns|, page, limit).page, Info(|campaigns|, page, limit).limit) < 0)
    ensures r.Ok? ==> r.value.pagination.total == |campaigns|
    ensures r.Ok? ==> r.value.pagination.page == Info(|campaigns|, page, limit).page
                      && r.value.pagination.limit == Info(|campaigns|, page, limit).limit
    ensures r.Ok? ==> var skip := Skip(r.value.pagination.page, r.value.pagination.limit);
      && |r.value.campaigns| == PageSize(|campaigns|, skip, r.value.pagination.limit)
      && forall k :: 0 <= k < |r.value.campaigns| ==>
           && 0 <= skip + k < |campaigns|
           && r.value.campaigns[k].campaign == campaigns[|campaigns| - 1 - (skip + k)]
           && r.value.campaigns[k].segment == PopulateSegment(segments, campaigns[|campaigns| - 1 - (skip + k)].segmentId)
  {
    if user.None? then Err(HttpError(401, "User not authenticated"))
    else
      var info := Info(|campaigns|, page, limit);
      var rows :- Window(NewestFirst(campaigns), info.page, info.limit);
      Ok(CampaignListBody(Map(rows, (c: Campaign) => ListRow(segments, c)), info))
  }

  // ---------------------------------------------------------------------
  // Delete.

  /** DELETE /campaigns/:id */
  function DeleteCampaign(campaigns: seq<Campaign>, user: Option<Id>, id: Id): CampaignOutcome {
    if user.None? then CampaignOutcome(campaigns, Err(HttpError(401, "User not authenticated")))
    else
      var found := FindCampaign(campaigns, id);
      if found.None? then CampaignOutcome(campaigns, Err(HttpError(404, "Campaign not found")))
      else if !MayDelete(found.value.status) then CampaignOutcome(campaigns, Err(HttpError(400, "Cannot delete a completed campaign")))
      else CampaignOutcome(RemoveById(campaigns, CampaignKey, id), Ok(found.value))
  }

  /** A delete removes exactly the campaigns with that id, and only when it is
      not completed; otherwise nothing changes. */
  lemma DeleteCampaignEffect(campaigns: seq<Campaign>, user: Option<Id>, id: Id)
    ensures var o := DeleteCampaign(campaigns, user, id);
      && (o.response.Ok? <==> user.Some? && FindCampaign(campaigns, id).Some? && MayDelete(FindCampaign(campaigns, id).value.status))
      && (o.response.Err? ==> o.campaigns == campaigns)
      && (o.response.Ok? ==> forall c :: c in o.campaigns <==> c in campaigns && c.id != id)
  {
    RemoveKeepsOthers(campaigns, CampaignKey, id);
  }

  // ---------------------------------------------------------------------
  // The sender in server/src/routes/messages.ts.

  /** The status strings that sender writes: on creation, and after the
      vendor call for success and failure. */
  datatype Labels = Labels(pending: string, success: string, failure: string)

  const AsWritten := Labels("PENDING", "COMPLETED", "FAILED")
  const Corrected := Labels("pending", "delivered", "failed")

  /** One message of this sender, with its status kept as the raw label it
      was given. */
  datatype SentMessage = SentMessage(customerId: Id, campaignId: Id, read: bool, status: string)

  datatype MessagesSendResult = MessagesSendResult(
    campaigns: seq<Campaign>,
    created: seq<SentMessage>,
    errors: seq<Id>,
    response: Result<Status>)

  /** The per-customer loop: `Message.create` validates the status enum, so
      a pending label outside it throws before the vendor is called, and the
      customer goes to `errors`; otherwise the vendor's answer picks the label
      the message is updated with (the update is not validated). */
  function SendLoop(labels: Labels, campaignId: Id, customers: seq<Customer>, offset: nat, vendor: nat -> Dispatch.VendorReply)
    : (r: (seq<SentMessage>, seq<Id>))
    ensures |r.0| + |r.1| == |customers|
    ensures ParseMessageStatus(labels.pending).None? ==> r.0 == [] && r.1 == Ids(customers)
    decreases |customers|
  {
    if customers == [] then ([], [])
    else
      var rest := SendLoop(labels, campaignId, customers[1..], offset + 1, vendor);
      var c := customers[0];
      var reply := vendor(offset);
      if ParseMessageStatus(labels.pending).None? || reply.Threw? then (rest.0, [c.id] + rest.1)
      else
        var tag := if reply.success then labels.success else labels.failure;
        ([SentMessage(c.id, campaignId, true, tag)] + rest.0, rest.1)
  }

  function SetStatus(c: Campaign, st: Status): Campaign { c.(status := st) }

  /** POST /messages/campaign/:campaignId/send with the given labels. There is
      no status guard: any campaign can be sent this way. */
  function SendViaMessages(labels: Labels, campaigns: seq<Campaign>, store: seq<Customer>, user: Option<Id>,
                           id: Id, vendor: nat -> Dispatch.VendorReply): MessagesSendResult
  {
    if user.None? then MessagesSendResult(campaigns, [], [], Err(HttpError(401, "User not authenticated")))
    else
      var found := FindCampaign(campaigns, id);
      if found.None? then MessagesSendResult(campaigns, [], [], Err(HttpError(404, "Campaign not found")))
      else
        var audience := Filter(store, (c: Customer) => Field(c, "segmentId") == Str(found.value.segmentId));
        if audience == [] then
          MessagesSendResult(campaigns, [], [], Err(HttpError(400, "No customers found in segment. No messages created.")))
        else
          var loop := SendLoop(labels, id, audience, 0, vendor);
          if loop.0 == [] then
            MessagesSendResult(campaigns, [], loop.1, Err(HttpError(500, "No messages were created for the campaign.")))
          else
            var st := if exists j :: 0 <= j < |loop.0| && loop.0[j].status == labels.failure then Status.Failed else Completed;
            MessagesSendResult(ReplaceById(campaigns, CampaignKey, id, SetStatus(found.value, st)), loop.0, loop.1, Ok(st))
  }

  /** As written, the pending label is upper case and rejected by the
      message schema, so every customer lands in `errors`, no message is
      created, and a campaign with any tagged customer always gets a 500
      with its status unchanged. */
  lemma AsWrittenAlwaysFails(campaigns: seq<Campaign>, store: seq<Customer>, user: Option<Id>,
                             id: Id, vendor: nat -> Dispatch.VendorReply)
    requires user.Some? && FindCampaign(campaigns, id).Some?
    requires exists i :: 0 <= i < |store| && Field(store[i], "segmentId") == Str(FindCampaign(campaigns, id).value.segmentId)
    ensures var r := SendViaMessages(AsWritten, campaigns, store, user, id, vendor);
      && r.response == Err(HttpError(500, "No messages were created for the campaign."))
      && r.created == [] && r.campaigns == campaigns
  {
    var seg := FindCampaign(campaigns, id).value.segmentId;
    var audience := Filter(store, (c: Customer) => Field(c, "segmentId") == Str(seg));
    var i :| 0 <= i < |store| && Field(store[i], "segmentId") == Str(seg);
    assert store[i] in audience;
    assert ParseMessageStatus("PENDING").None?;
  }

  /** With the schema's own labels, the sender answers with one message per
      tagged customer the vendor answered (a customer whose vendor call
      throws still leaves the pending message created before it), and the campaign ends failed exactly when
      some vendor call reported failure. */
  lemma CorrectedSenderOutcome(campaigns: seq<Campaign>, store: seq<Customer>, user: Option<Id>,
                               id: Id, vendor: nat -> Dispatch.VendorReply)
    requires user.Some? && FindCampaign(campaigns, id).Some?
    ensures var r := SendViaMessages(Corrected, campaigns, store, user, id, vendor);
      var audience := Filter(store, (c: Customer) => Field(c, "segmentId") == Str(FindCampaign(campaigns, id).value.segmentId));
      && |r.created| + |r.errors| == (if audience == [] then 0 else |audience|)
      && WellLabelled(r.created, id)
      && (r.response.Ok? ==>
            (r.response.value == Status.Failed <==> exists j :: 0 <= j < |r.created| && r.created[j].status == "failed"))
  {
    var audience := Filter(store, (c: Customer) => Field(c, "segmentId") == Str(FindCampaign(campaigns, id).value.segmentId));
    CorrectedLabelsParse(id, audience, 0, vendor);
  }

  /** Every message carries a status the message schema accepts and
      belongs to the given campaign. */
  predicate WellLabelled(ms: seq<SentMessage>, campaignId: Id) {
    forall j :: 0 <= j < |ms| ==> ParseMessageStatus(ms[j].status).Some? && ms[j].campaignId == campaignId
  }

  lemma {:induction false} CorrectedLabelsParse(id: Id, customers: seq<Customer>, offset: nat, vendor: nat -> Dispatch.VendorReply)
    ensures WellLabelled(SendLoop(Corrected, id, customers, offset, vendor).0, id)
    decreases |customers|
  {
    if customers != [] {
      CorrectedLabelsParse(id, customers[1..], offset + 1, vendor);
      var rest := SendLoop(Corrected, id, customers[1..], offset + 1, vendor).0;
      var reply := vendor(offset);
      assert ParseMessageStatus(Corrected.pending).Some?;
      if !reply.Threw? {
        var tag := if reply.success then Corrected.success else Corrected.failure;
        assert ParseMessageStatus(tag).Some?;
        assert SendLoop(Corrected, id, customers, offset, vendor).0 == [SentMessage(customers[0].id, id, true, tag)] + rest;
      }
    }
  }

  // ---------------------------------------------------------------------
  // Mark as read.

  datatype StoredMessage = StoredMessage(id: Id, body: Message)

  function FindOwned(ms: seq<StoredMessage>, id: Id, user: Id): (r: Option<nat>)
    ensures r.Some? ==> r.value < |ms| && ms[r.value].id == id && ms[r.value].body.userId == user
    ensures r.Some? ==> forall k :: 0 <= k < r.value ==> !(ms[k].id == id && ms[k].body.userId == user)
    ensures r.None? ==> forall k :: 0 <= k < |ms| ==> !(ms[k].id == id && ms[k].body.userId == user)
  {
    if ms == [] then None
    else if ms[0].id == id && ms[0].body.userId == user then Some(0)
    else
      var rest := FindOwned(ms[1..], id, user);
      if rest.None? then None else Some(rest.value + 1)
  }

  /** PATCH /messages/:id/read: the first message with that id owned by the
      requester is marked read; any other request is a 404. */
  function MarkRead(ms: seq<StoredMessage>, user: Option<Id>, id: Id): (r: (seq<StoredMessage>, Result<StoredMessage>))
  {
    if user.None? then (ms, Err(HttpError(401, "User not authenticated")))
    else
      var k := FindOwned(ms, id, user.value);
      if k.None? then (ms, Err(HttpError(404, "Message not found")))
      else
        var updated := StoredMessage(ms[k.value].id, ms[k.value].body.(read := true));
        (ms[k.value := updated], Ok(updated))
  }

  /** Only the requester's own message changes, and only its `read` flag;
      someone else's message id gives a 404 and changes nothing. */
  lemma MarkReadOwnership(ms: seq<StoredMessage>, user: Id, id: Id)
    ensures var r := MarkRead(ms, Some(user), id);
      && |r.0| == |ms|
      && (r.1.Err? <==> forall k :: 0 <= k < |ms| ==> !(ms[k].id == id && ms[k].body.userId == user))
      && (r.1.Err? ==> r.1.error.status == 404 && r.0 == ms)
      && (r.1.Ok? ==> r.1.value.body.read && r.1.value.body.userId == user && r.1.value.id == id)
      && (forall k :: 0 <= k < |ms| ==>
            r.0[k] == ms[k] || (ms[k].id == id && ms[k].body.userId == user && r.0[k] == StoredMessage(id, ms[k].body.(read := true))))
  {
  }
}

=== FILE: list_slice.dfy ===
/** What the client's list slices (client/src/store/slices) have in common:
    a list of records mirrored from the server, a loading flag and an error
    string, and four ways a fulfilled request edits the list. */
module ListSlice {
  import opened Wrappers
  import opened Seqs
  import opened Collections

  datatype ListState<T> = ListState(items: seq<T>, loading: bool, error: Option<string>)

  function Initial<T>(): ListState<T> { ListState([], false, None) }

  /** `message || fallback`: JavaScript's `||` skips an absent and an empty
      message alike. */
  function OrElse(message: Option<string>, fallback: string): (r: string)
    ensures r == fallback || (message == Some(r) && r != "")
    ensures fallback != "" ==> r != ""
  {
    if message.Some? && message.value != "" then message.value else fallback
  }

  /** The edit a fulfilled request makes: a fetch replaces the list, a create
      pushes, an update overwrites the first record with the payload's id
      (`findIndex`), a delete filters out every record with the id. */
  datatype Edit<T> = Fetched(all: seq<T>) | Created(item: T) | Updated(item: T) | Deleted(id: string)

  function ApplyEdit<T(==)>(items: seq<T>, key: T -> string, e: Edit<T>): seq<T> {
    match e
    case Fetched(all) => all
    case Created(x) => items + [x]
    case Updated(x) => ReplaceFirst(items, key, key(x), x)
    case Deleted(id) => RemoveById(items, key, id)
  }

  /** The `pending` case: loading, and the last error cleared. */
  function Begin<T>(st: ListState<T>): ListState<T> {
    st.(loading := true, error := None)
  }

  /** The `rejected` case: no longer loading, the error message recorded. */
  function Fail<T>(st: ListState<T>, message: Option<string>, fallback: string): ListState<T> {
    st.(loading := false, error := Some(OrElse(message, fallback)))
  }

  predicate HasKey<T>(items: seq<T>, key: T -> string, id: string) {
    exists i :: 0 <= i < |items| && key(items[i]) == id
  }

  /** On a list without duplicate ids, the client's edits are the server's:
      the update overwrites the record as `findByIdAndUpdate` does, the
      delete drops what `findByIdAndDelete` drops, and a create pushed onto
      the list keeps the ids unique exactly when its id is new. */
  lemma EditsKeepIdsUnique<T>(items: seq<T>, key: T -> string, e: Edit<T>)
    requires UniqueKeys(items, key)
    ensures e.Updated? ==> ApplyEdit(items, key, e) == ReplaceById(items, key, key(e.item), e.item)
    ensures e.Updated? || e.Deleted? ==> UniqueKeys(ApplyEdit(items, key, e), key)
    ensures e.Created? ==> (UniqueKeys(ApplyEdit(items, key, e), key) <==> !HasKey(items, key, key(e.item)))
  {
    match e
    case Fetched(_) =>
    case Created(x) =>
      var r := items + [x];
      if HasKey(items, key, key(x)) {
        var i :| 0 <= i < |items| && key(items[i]) == key(x);
        assert key(r[i]) == key(r[|items|]);
      }
    case Updated(x) =>
      ReplaceFirstSpec(items, key, key(x), x);
      var r := ApplyEdit(items, key, e);
      forall i, j | 0 <= i < j < |r| ensures key(r[i]) != key(r[j]) {
        assert key(r[i]) == key(items[i]) && key(r[j]) == key(items[j]);
      }
    case Deleted(id) =>
      RemoveKeepsUnique(items, key, id);
  }

  lemma {:induction false} RemoveKeepsUnique<T>(items: seq<T>, key: T -> string, id: string)
    requires UniqueKeys(items, key)
    ensures UniqueKeys(RemoveById(items, key, id), key)
  {
    if items != [] {
      var tail := items[1..];
      assert UniqueKeys(tail, key) by {
        forall i, j | 0 <= i < j < |tail| ensures key(tail[i]) != key(tail[j]) {
          assert tail[i] == items[i + 1] && tail[j] == items[j + 1];
        }
      }
      RemoveKeepsUnique(tail, key, id);
      var rest := RemoveById(tail, key, id);
      assert items == [items[0]] + tail;
      if key(items[0]) != id {
        var r := [items[0]] + rest;
        assert RemoveById(items, key, id) == r;
        forall j | 0 < j < |r| ensures key(r[0]) != key(r[j]) {
          assert r[j] in tail;
          var k :| 0 <= k < |tail| && tail[k] == r[j];
          assert items[k + 1] == r[j];
        }
      } else {
        assert RemoveById(items, key, id) == rest;
      }
    }
  }
}

=== FILE: message_model.dfy ===
/** Messages (server/src/models/Message.ts): one delivery record per
    campaign and customer, status pending, delivered or failed, unread by
    default, with optional vendor id and error. */
module MessageModel {
  import opened Wrappers
  import opened Documents

  datatype MessageStatus = Pending | Delivered | Failed

  function StatusName(st: MessageStatus): string {
    match st
    case Pending => "pending"
    case Delivered => "delivered"
    case Failed => "failed"
  }

  /** The status enum is case sensitive: only the three lower-case names pass. */
  function ParseMessageStatus(s: string): (r: Option<MessageStatus>)
    ensures r.Some? <==> s in {"pending", "delivered", "failed"}
    ensures r.Some? ==> StatusName(r.value) == s
  {
    if s == "pending" then Some(Pending)
    else if s == "delivered" then Some(Delivered)
    else if s == "failed" then Some(Failed)
    else None
  }

  datatype Message = Message(
    userId: Id,
    customerId: Id,
    campaignId: Id,
    campaignName: string,
    message: string,
    read: bool,
    status: MessageStatus,
    vendorMessageId: Option<string>,
    error: Option<string>)

  /** A message document built with only the required fields: unread, no
      vendor id, no error. */
  function NewMessage(userId: Id, customerId: Id, campaignId: Id, campaignName: string,
                      message: string, status: MessageStatus): (m: Message)
    ensures !m.read && m.vendorMessageId.None? && m.error.None?
    ensures m.status == status && m.customerId == customerId && m.campaignId == campaignId
  {
    Message(userId, customerId, campaignId, campaignName, message, false, status, None, None)
  }

  /** Required ids, campaign name and body. */
  predicate SchemaValid(m: Message) {
    m.userId != "" && m.customerId != "" && m.campaignId != "" && m.campaignName != "" && m.message != ""
  }
}

=== FILE: message_slice.dfy ===
/** The client's notification list (client/src/store/slices/messageSlice.ts).
    Its records are the client's own notices, keyed by `id`. */
module MessageSlice {
  import opened Wrappers
  import opened Seqs
  import opened Collections
  import opened ListSlice

  datatype Kind = Success | Error | Info | Warning

  datatype Notice = Notice(id: string, kind: Kind, message: string, read: bool)

  function NoticeKey(n: Notice): string { n.id }

  datatype Action =
    | AddMessage(notice: Notice)
    | RemoveMessage(id: string)
    | FetchPending
    | FetchFulfilled(notices: seq<Notice>)
    | FetchRejected(message: Option<string>)
    | MarkedRead(id: string)

  const FetchFailed := "Failed to fetch messages"

  /** `find(m => m.id === id)` then `read = true`: only the first notice with
      the id is marked. */
  function MarkFirstRead(ms: seq<Notice>, id: string): (r: seq<Notice>)
    ensures |r| == |ms|
    ensures forall i :: 0 <= i < |ms| ==> r[i].id == ms[i].id && r[i].kind == ms[i].kind && r[i].message == ms[i].message
    ensures forall i :: 0 <= i < |ms| ==> (r[i].read <==> ms[i].read || FirstIndex(ms, NoticeKey, id) == Some(i))
  {
    var k := FirstIndex(ms, NoticeKey, id);
    if k.None? then ms else ms[k.value := ms[k.value].(read := true)]
  }

  /** The fetch's `pending` case sets loading but, unlike the other slices,
      leaves an earlier error in place. */
  function Reduce(st: ListState<Notice>, a: Action): (r: ListState<Notice>)
    ensures a.FetchPending? ==> r.items == st.items && r.loading && r.error == st.error
    ensures a.FetchRejected? ==> r.items == st.items && !r.loading && r.error.Some? && r.error.value != ""
    ensures a.AddMessage? || a.RemoveMessage? || a.MarkedRead? ==> r.loading == st.loading && r.error == st.error
  {
    match a
    case AddMessage(n) => st.(items := ApplyEdit(st.items, NoticeKey, Created(n)))
    case RemoveMessage(id) => st.(items := ApplyEdit(st.items, NoticeKey, Deleted(id)))
    case FetchPending => st.(loading := true)
    case FetchFulfilled(all) => st.(loading := false, items := ApplyEdit(st.items, NoticeKey, Fetched(all)))
    case FetchRejected(m) => Fail(st, m, FetchFailed)
    case MarkedRead(id) => st.(items := MarkFirstRead(st.items, id))
  }

  function Unread(ms: seq<Notice>): nat {
    Count(ms, (m: Notice) => !m.read)
  }

  /** Marking a notice read lowers the unread count by one exactly when the
      first notice with that id was unread, and otherwise leaves it; marking
      the same id twice is marking it once. */
  lemma MarkReadCountsDown(ms: seq<Notice>, id: string)
    ensures var k := FirstIndex(ms, NoticeKey, id);
      Unread(MarkFirstRead(ms, id)) == Unread(ms) - (if k.Some? && !ms[k.value].read then 1 else 0)
    ensures MarkFirstRead(MarkFirstRead(ms, id), id) == MarkFirstRead(ms, id)
  {
    var k := FirstIndex(ms, NoticeKey, id);
    var once := MarkFirstRead(ms, id);
    if k.Some? {
      CountUpdate(ms, k.value, ms[k.value].(read := true), (m: Notice) => !m.read);
    }
    FirstIndexByKeys(ms, once, NoticeKey, id);
    if k.Some? {
      assert once[k.value := once[k.value].(read := true)] == once;
    }
  }
}

=== FILE: order_form.dfy ===
/** The stand-alone order dialog of client/src/components/OrderForm.tsx. No
    other client file imports it, so the component is never mounted; what
    follows is what it would do if it were. Its number inputs are read with a bare `parseInt`/`parseFloat`, so an item
    can hold NaN, written here as `None`; the total follows JavaScript and
    becomes NaN as soon as one operand is. */
module OrderForm {
  import opened Wrappers
  import opened JsNumber
  import opened Documents
  import opened OrderModel
  import opened OrderRoutes

  datatype FormItem = FormItem(name: string, quantity: Option<int>, price: Option<real>)

  /** `shippingAddress` is a single string here, where the server expects an
      object with five parts. */
  datatype FormData = FormData(
    customerId: string,
    items: seq<FormItem>,
    totalAmount: Option<real>,
    status: string,
    shippingAddress: string)

  const DefaultItem := FormItem("", Some(1), Some(0.0))

  /** The initial state: `customerId || ''` and one default item. */
  function InitialForm(customerId: Option<string>): (f: FormData)
    ensures f.items == [DefaultItem] && f.totalAmount == Some(0.0)
  {
    FormData(if customerId.Some? then customerId.value else "", [DefaultItem], Some(0.0), "pending", "")
  }

  /** `calculateTotal`: Σ quantity·price, left to right, NaN-absorbing. */
  function FormTotal(items: seq<FormItem>): Option<real> {
    if items == [] then Some(0.0)
    else
      var before := FormTotal(items[..|items| - 1]);
      var last := items[|items| - 1];
      if before.None? || last.quantity.None? || last.price.None? then None
      else Some(before.value + last.quantity.value as real * last.price.value)
  }

  predicate Numeric(it: FormItem) { it.quantity.Some? && it.price.Some? }

  function AsOrderItem(it: FormItem): OrderItem
    requires Numeric(it)
  {
    OrderItem(it.name, it.quantity.value, it.price.value)
  }

  /** The dialog's total is the order total of its items when every number
      parsed, and NaN as soon as one did not. */
  lemma {:induction false} FormTotalIsItemsTotal(items: seq<FormItem>)
    ensures FormTotal(items).Some? <==> forall i :: 0 <= i < |items| ==> Numeric(items[i])
    ensures FormTotal(items).Some? ==>
      FormTotal(items).value == ItemsTotal(seq(|items|, i requires 0 <= i < |items| && Numeric(items[i]) => AsOrderItem(items[i])))
  {
    if items != [] {
      var init := items[..|items| - 1];
      FormTotalIsItemsTotal(init);
      if FormTotal(items).Some? {
        var all := seq(|items|, i requires 0 <= i < |items| && Numeric(items[i]) => AsOrderItem(items[i]));
        var front := seq(|init|, i requires 0 <= i < |init| && Numeric(init[i]) => AsOrderItem(init[i]));
        assert all[..|all| - 1] == front;
      }
    }
  }

  datatype ItemChange = NameChange(name: string) | QuantityChange(quantityText: string) | PriceChange(priceText: string)

  function Changed(it: FormItem, c: ItemChange): FormItem {
    match c
    case NameChange(n) => it.(name := n)
    case QuantityChange(t) => it.(quantity := ParseInt(t))
    case PriceChange(t) => it.(price := ParseFloat(t))
  }

  /** `handleItemChange`: the item at `index` takes the new value and the
      total is recomputed. */
  function ChangeItem(f: FormData, index: nat, c: ItemChange): (r: FormData)
    ensures |r.items| == |f.items|
    ensures forall j :: 0 <= j < |f.items| && j != index ==> r.items[j] == f.items[j]
    ensures index < |f.items| ==> r.items[index] == Changed(f.items[index], c)
    ensures r.totalAmount == FormTotal(r.items)
    ensures r.(items := f.items, totalAmount := f.totalAmount) == f
  {
    var items := seq(|f.items|, j requires 0 <= j < |f.items| => if j == index then Changed(f.items[j], c) else f.items[j]);
    f.(items := items, totalAmount := FormTotal(items))
  }

  /** The remove button is disabled while exactly one item remains. */
  predicate RemoveEnabled(f: FormData) { |f.items| != 1 }

  /** `handleRemoveItem`: the item at `index` is filtered out and the total
      recomputed. */
  function RemoveItem(f: FormData, index: nat): (r: FormData)
    ensures !RemoveEnabled(f) ==> r == f
    ensures RemoveEnabled(f) && index < |f.items| ==> r.items == f.items[..index] + f.items[index + 1..]
    ensures RemoveEnabled(f) && index >= |f.items| ==> r.items == f.items
    ensures RemoveEnabled(f) ==> r.totalAmount == FormTotal(r.items)
  {
    if !RemoveEnabled(f) then f
    else
      var items := if index < |f.items| then f.items[..index] + f.items[index + 1..] else f.items;
      f.(items := items, totalAmount := FormTotal(items))
  }

  /** `handleAddItem`: appends a default item without recomputing the total. */
  function AddItem(f: FormData): (r: FormData)
    ensures r.items == f.items + [DefaultItem] && r.totalAmount == f.totalAmount
  {
    f.(items := f.items + [DefaultItem])
  }

  predicate TotalInStep(f: FormData) { f.totalAmount == FormTotal(f.items) }

  /** The total stays in step with the items through every handler,
      although adding an item does not recompute it: the default item's
      line is 0, and NaN stays NaN. */
  lemma TotalStaysInStep(f: FormData, index: nat, c: ItemChange, customerId: Option<string>)
    requires TotalInStep(f)
    ensures TotalInStep(InitialForm(customerId))
    ensures TotalInStep(ChangeItem(f, index, c))
    ensures TotalInStep(RemoveItem(f, index))
    ensures TotalInStep(AddItem(f))
    ensures |f.items| >= 1 ==> |RemoveItem(f, index).items| >= 1
  {
    assert (f.items + [DefaultItem])[..|f.items|] == f.items;
    assert [DefaultItem][..0] == [];
  }

  /** While the address field holds text (always for a new order, whose
      field starts as the empty string), none of the address parts the
      server validates is posted, so the server refuses the body as a create
      and as an update, whatever the items. */
  lemma StringAddressRejected(orders: seq<Order>, b: OrderBody, id: Id, newId: Id, now: nat, suffix: nat)
    requires suffix < 1000
    requires b.shippingAddress == AddressBody(None, None, None, None, None)
    ensures CreateOrder(orders, b, newId, now, suffix) == OrderOutcome(orders, Err(ValidationFailed))
    ensures UpdateOrder(orders, id, b) == OrderOutcome(orders, Err(ValidationFailed))
  {
  }

  /** What the body validator reads for an object-valued field: its
      `toString()`. */
  const ObjectText := "[object Object]"

  /** An edit posts back the order as it was listed, whose customer is the
      populated `{ _id, name, email }` document rather than an id; read as
      text that is no Mongo id, so the server refuses every edit, whatever
      its items and address. */
  lemma EditedOrderRejected(orders: seq<Order>, b: OrderBody, id: Id)
    requires b.customerId == Some(ObjectText)
    ensures UpdateOrder(orders, id, b) == OrderOutcome(orders, Err(ValidationFailed))
  {
    assert |ObjectText| != 24;
  }
}

=== FILE: order_list_view.dfy ===
/** The order table and dialog of client/src/components/OrderList.tsx: the
    status chip's colour, the item editor with its number fallbacks, and the
    total the dialog keeps in step with the items. */
module OrderListView {
  import opened Wrappers
  import opened JsNumber
  import opened Documents
  import opened OrderModel
  import opened Seqs
  import opened Pagination
  import opened OrderRoutes

  /** The dialog's `formData`. `fromStore[i]` says that item `i` is the very
      object the order list in the redux store holds. `handleEdit` copies
      `order.items` by reference, and the store's state is deep-frozen, so
      those objects cannot be assigned to. */
  datatype FormData = FormData(customerId: string, items: seq<OrderItem>, status: string, address: Address,
                               totalAmount: real, fromStore: seq<bool>)

  const InitialForm := FormData("", [], "pending", Address("", "", "", "", ""), 0.0, [])

  /** Every item has its ownership flag. */
  predicate Aligned(f: FormData) { |f.fromStore| == |f.items| }

  /** Item `i` is a frozen object of the store. */
  predicate StoreOwned(f: FormData, i: nat) { i < |f.fromStore| && f.fromStore[i] }

  /** `s` without its element at `i`, or `s` when there is none. */
  function RemoveAt<T>(s: seq<T>, i: nat): (r: seq<T>)
    ensures i < |s| ==> r == s[..i] + s[i + 1..]
    ensures i >= |s| ==> r == s
  {
    if i < |s| then s[..i] + s[i + 1..] else s
  }

  /** What "+ Add Item" appends. */
  const DefaultItem := OrderItem("", 1, 0.0)

  /** The effect on `formData.items`: after every change to the items the
      total is recomputed from them. */
  function Settle(f: FormData): FormData {
    f.(totalAmount := ItemsTotal(f.items))
  }

  /** `parseInt(text) || 1`: an unparsable or zero quantity reads as 1. */
  function QuantityInput(text: string): (q: int)
    ensures q != 0
    ensures q == 1 || ParseInt(text) == Some(q)
    ensures ParseInt(text).None? ==> q == 1
  {
    QueryInt(Some(text), 1)
  }

  /** `parseFloat(text) || 0`: an unparsable price reads as 0. */
  function PriceInput(text: string): (p: real)
    ensures ParseFloat(text).Some? ==> p == ParseFloat(text).value
    ensures ParseFloat(text).None? ==> p == 0.0
  {
    match ParseFloat(text)
    case Some(v) => v
    case None => 0.0
  }

  datatype ItemEdit = SetName(name: string) | SetQuantity(quantityText: string) | SetPrice(priceText: string)

  function Edited(it: OrderItem, e: ItemEdit): OrderItem {
    match e
    case SetName(n) => it.(name := n)
    case SetQuantity(t) => it.(quantity := QuantityInput(t))
    case SetPrice(t) => it.(price := PriceInput(t))
  }

  /** One of the three inputs of item `i` changed. The handler copies the
      array but assigns into the item object itself: on an item the store
      owns the assignment throws and `setFormData` is never reached. */
  function EditItem(f: FormData, i: nat, e: ItemEdit): (r: FormData)
    ensures StoreOwned(f, i) && i < |f.items| ==> r == f
    ensures !(StoreOwned(f, i) && i < |f.items|) ==>
      && |r.items| == |f.items|
      && (forall j :: 0 <= j < |f.items| && j != i ==> r.items[j] == f.items[j])
      && (i < |f.items| ==> r.items[i] == Edited(f.items[i], e))
      && r.totalAmount == ItemsTotal(r.items)
      && r.(items := f.items, totalAmount := f.totalAmount) == f
  {
    if i < |f.items| && StoreOwned(f, i) then f
    else if i < |f.items| then Settle(f.(items := f.items[i := Edited(f.items[i], e)]))
    else Settle(f)
  }

  /** "+ Add Item" appends a fresh object, which the form owns. */
  function AddItem(f: FormData): (r: FormData)
    ensures r.items == f.items + [DefaultItem]
    ensures r.totalAmount == ItemsTotal(r.items)
    ensures Aligned(f) ==>
      && Aligned(r) && !StoreOwned(r, |f.items|)
      && forall j :: 0 <= j < |f.items| ==> StoreOwned(r, j) == StoreOwned(f, j)
  {
    Settle(f.(items := f.items + [DefaultItem], fromStore := f.fromStore + [false]))
  }

  /** The remove button is rendered only while there is more than one item. */
  predicate RemoveOffered(f: FormData) { |f.items| > 1 }

  /** The remove button of item `i`: `items.filter((_, index) => index !== i)`. */
  function RemoveItem(f: FormData, i: nat): (r: FormData)
    ensures RemoveOffered(f) && i < |f.items| ==> r.items == f.items[..i] + f.items[i + 1..]
    ensures !(RemoveOffered(f) && i < |f.items|) ==> r == f
    ensures r != f ==> r.totalAmount == ItemsTotal(r.items)
    ensures Aligned(f) ==> Aligned(r) && r.fromStore == RemoveAt(f.fromStore, if RemoveOffered(f) then i else |f.items|)
  {
    if RemoveOffered(f) && i < |f.items| then
      Settle(f.(items := f.items[..i] + f.items[i + 1..], fromStore := RemoveAt(f.fromStore, i)))
    else f
  }

  /** An added default item keeps the total and adds one unit. */
  lemma AddKeepsTotal(f: FormData)
    requires f.totalAmount == ItemsTotal(f.items)
    ensures AddItem(f).totalAmount == f.totalAmount
    ensures ItemCount(AddItem(f).items) == ItemCount(f.items) + 1
  {
    ItemsTotalAppend(f.items, [DefaultItem]);
    ItemCountAppend(f.items, [DefaultItem]);
    assert ItemsTotal([DefaultItem]) == 0.0 by { assert [DefaultItem][..0] == []; }
    assert ItemCount([DefaultItem]) == 1 by { assert [DefaultItem][..0] == []; }
  }

  /** A removal takes away that item's line amount and units, and an item
      list that is not empty never becomes empty. */
  lemma RemoveTakesItsLine(f: FormData, i: nat)
    requires f.totalAmount == ItemsTotal(f.items)
    ensures RemoveItem(f, i).totalAmount == ItemsTotal(RemoveItem(f, i).items)
    ensures RemoveOffered(f) && i < |f.items| ==>
      && RemoveItem(f, i).totalAmount == f.totalAmount - LineAmount(f.items[i])
      && ItemCount(RemoveItem(f, i).items) == ItemCount(f.items) - f.items[i].quantity
    ensures |f.items| >= 1 ==> |RemoveItem(f, i).items| >= 1
  {
    if RemoveOffered(f) && i < |f.items| {
      ItemsTotalRemove(f.items, i);
      var pre, post := f.items[..i], f.items[i + 1..];
      SplitAt(f.items, i, f.items[i]);
      ItemCountAppend(pre + [f.items[i]], post);
      ItemCountAppend(pre, [f.items[i]]);
      ItemCountAppend(pre, post);
      assert ItemCount([f.items[i]]) == f.items[i].quantity by { assert [f.items[i]][..0] == []; }
    }
  }

  /** A price edit swaps the item's old line amount for the one at the new
      price, unless the item is the store's, when nothing moves. */
  lemma PriceEditMovesTotal(f: FormData, i: nat, priceText: string)
    requires f.totalAmount == ItemsTotal(f.items) && i < |f.items|
    ensures !StoreOwned(f, i) ==>
      EditItem(f, i, SetPrice(priceText)).totalAmount
        == f.totalAmount - LineAmount(f.items[i]) + LineAmount(f.items[i].(price := PriceInput(priceText)))
    ensures StoreOwned(f, i) ==> EditItem(f, i, SetPrice(priceText)).totalAmount == f.totalAmount
  {
    if !StoreOwned(f, i) {
      var it := Edited(f.items[i], SetPrice(priceText));
      assert EditItem(f, i, SetPrice(priceText)).items == f.items[i := it];
      ItemsTotalReplace(f.items, i, it);
    }
  }

  /** `getStatusColor` */
  function StatusColor(status: string): string {
    match status
    case "pending" => "warning"
    case "processing" => "info"
    case "shipped" => "primary"
    case "delivered" => "success"
    case "cancelled" => "error"
    case _ => "default"
  }

  /** Each of the five schema statuses has its own colour, and no schema
      status has the colour of a status outside the enum. */
  lemma ColoursByStatus(other: OrderStatus)
    requires other.Unlisted? && other.name !in {"pending", "processing", "shipped", "delivered", "cancelled"}
    ensures forall a: OrderStatus, b: OrderStatus ::
      (!a.Unlisted? && !b.Unlisted? && StatusColor(StatusName(a)) == StatusColor(StatusName(b))) ==> a == b
    ensures forall a: OrderStatus :: !a.Unlisted? ==> StatusColor(StatusName(a)) != StatusColor(StatusName(other))
  {
  }

  /** The body the dialog posts: numbers as JSON numbers, and the dialog's
      own total, which the server replaces. */
  function Body(f: FormData): (b: OrderBody)
    ensures b.items.Some? && |b.items.value| == |f.items|
  {
    OrderBody(
      Some(f.customerId),
      Some(seq(|f.items|, i requires 0 <= i < |f.items| =>
        BodyItem(Some(f.items[i].name), f.items[i].quantity as real, f.items[i].price))),
      AddressBody(Some(f.address.street), Some(f.address.city), Some(f.address.state),
                  Some(f.address.zipCode), Some(f.address.country)),
      Some(f.status),
      Some(f.totalAmount),
      None)
  }

  /** The server's sanitizers keep every quantity and price of the posted
      items, so the stored items add up to the dialog's items. */
  lemma StoredItemsKeepTotal(f: FormData)
    requires forall i :: 0 <= i < |Body(f).items.value| ==> ItemValid(Body(f).items.value[i])
    ensures ItemsTotal(StoredItems(Body(f).items.value)) == ItemsTotal(f.items)
  {
    var body := Body(f).items.value;
    var stored := StoredItems(body);
    forall i | 0 <= i < |stored| ensures LineAmount(stored[i]) == LineAmount(f.items[i]) {
      assert body[i] == BodyItem(Some(f.items[i].name), f.items[i].quantity as real, f.items[i].price);
      assert stored[i] == StoredItem(body[i]);
      assert (f.items[i].quantity as real).Floor == f.items[i].quantity;
    }
    ItemsTotalByLines(stored, f.items);
  }

  /** The total the dialog shows is the total the server stores: the server
      recomputes it from the items, which come out of its sanitizers with the
      same quantities and prices. */
  lemma ServerStoresShownTotal(orders: seq<Order>, f: FormData, newId: Id, now: nat, suffix: nat)
    requires suffix < 1000 && f.totalAmount == ItemsTotal(f.items)
    requires CreateOrder(orders, Body(f), newId, now, suffix).response.Ok?
    ensures CreateOrder(orders, Body(f), newId, now, suffix).response.value.totalAmount == Some(f.totalAmount)
  {
    var b := Body(f);
    assert BodyValid(b);
    StoredItemsKeepTotal(f);
    assert CreateOrder(orders, b, newId, now, suffix).response.value.items == StoredItems(b.items.value);
  }

  /** `handleEdit`'s customer id for a listed row: the populated customer's
      `_id`. A row whose customer is gone has a `null` reference, and
      reading `_id` from it throws, written `None`. */
  function EditCustomerId(row: ListedOrder): (id: Option<string>)
    ensures id.Some? <==> row.customer.Some?
  {
    if row.customer.Some? then Some(row.customer.value.id) else None
  }

  /** Opening a listed order for editing fills in the order's own stored
      customer id whenever that customer still exists; when it does not, the
      handler throws. */
  lemma EditKeepsCustomer(orders: seq<Order>, customers: seq<Customer>, page: Option<string>, limit: Option<string>, k: nat)
    requires ListOrders(orders, customers, page, limit).Ok?
    requires k < |ListOrders(orders, customers, page, limit).value.orders|
    ensures var r := ListOrders(orders, customers, page, limit).value;
      var skip := Skip(r.info.page, r.info.limit);
      && 0 <= skip + k < |orders|
      && var stored := orders[|orders| - 1 - (skip + k)];
      && (EditCustomerId(r.orders[k]).None? <==> forall i :: 0 <= i < |customers| ==> customers[i].id != stored.customerId)
      && (EditCustomerId(r.orders[k]).Some? ==> EditCustomerId(r.orders[k]).value == stored.customerId)
  {
  }

  /** `handleEdit`: the dialog takes the listed row's populated customer id,
      status, address and the row's own `items` array, every item of which
      is a store object; the items effect then recomputes the total. `None`
      when the row's customer reference is `null` and reading `_id` throws. */
  function OpenEdit(row: ListedOrder): (r: Option<FormData>)
    ensures r.None? <==> row.customer.None?
    ensures r.Some? ==>
      && r.value.customerId == row.customer.value.id
      && r.value.items == row.order.items
      && r.value.status == StatusName(row.order.status)
      && r.value.address == row.order.shippingAddress
      && r.value.totalAmount == ItemsTotal(row.order.items)
      && Aligned(r.value)
      && forall i :: 0 <= i < |r.value.items| ==> StoreOwned(r.value, i)
  {
    match EditCustomerId(row)
    case None => None
    case Some(id) =>
      Some(Settle(FormData(id, row.order.items, StatusName(row.order.status), row.order.shippingAddress,
                           0.0, seq(|row.order.items|, _ => true))))
  }

  /** Typing into any input of an item of an order opened for editing
      changes nothing: the listed items cannot be edited in the dialog. */
  lemma ListedItemsCannotBeEdited(row: ListedOrder, i: nat, e: ItemEdit)
    requires OpenEdit(row).Some? && i < |row.order.items|
    ensures EditItem(OpenEdit(row).value, i, e) == OpenEdit(row).value
  {
  }

  /** An item added after opening is the form's own, so its inputs work,
      while every listed item stays frozen. */
  lemma AddedItemIsEditable(f: FormData, e: ItemEdit)
    requires Aligned(f)
    ensures var g := AddItem(f);
      && EditItem(g, |f.items|, e).items == f.items + [Edited(DefaultItem, e)]
      && forall j :: 0 <= j < |f.items| && StoreOwned(f, j) ==> EditItem(g, j, e) == g
  {
    var g := AddItem(f);
    assert EditItem(g, |f.items|, e).items == g.items[|f.items| := Edited(DefaultItem, e)];
  }
}

=== FILE: order_model.dfy ===
/** Orders (server/src/models/Order.ts): line items, the five-state status,
    the shipping address, and the two sums every layer derives from them —
    the order total Σ quantity·price and a customer's spend over delivered
    orders. */
module OrderModel {
  import opened Wrappers
  import opened Documents
  import opened Seqs

  datatype OrderItem = OrderItem(name: string, quantity: int, price: real)

  /** The five statuses of the schema's enum, plus `Unlisted` for a string
      outside it, which an unvalidated update can store. */
  datatype OrderStatus = Pending | Processing | Shipped | Delivered | Cancelled | Unlisted(name: string)

  datatype Address = Address(street: string, city: string, state: string, zipCode: string, country: string)

  /** A stored order; `totalAmount` is `None` when the document lacks it. */
  datatype Order = Order(
    id: Id,
    customerId: Id,
    orderNumber: string,
    items: seq<OrderItem>,
    totalAmount: Option<real>,
    status: OrderStatus,
    shippingAddress: Address)

  function StatusName(st: OrderStatus): string {
    match st
    case Pending => "pending"
    case Processing => "processing"
    case Shipped => "shipped"
    case Delivered => "delivered"
    case Cancelled => "cancelled"
    case Unlisted(name) => name
  }

  /** The stored status for a status string: the enum member it names, or
      the raw string when it names none. */
  function StatusFor(s: string): (st: OrderStatus)
    ensures StatusName(st) == s
    ensures st.Unlisted? <==> ParseOrderStatus(s).None?
  {
    var p := ParseOrderStatus(s);
    if p.Some? then p.value else Unlisted(s)
  }

  /** The status enum check: exactly the five lower-case names are accepted. */
  function ParseOrderStatus(s: string): (r: Option<OrderStatus>)
    ensures r.Some? <==> s in {"pending", "processing", "shipped", "delivered", "cancelled"}
    ensures r.Some? ==> StatusName(r.value) == s && !r.value.Unlisted?
  {
    if s == "pending" then Some(Pending)
    else if s == "processing" then Some(Processing)
    else if s == "shipped" then Some(Shipped)
    else if s == "delivered" then Some(Delivered)
    else if s == "cancelled" then Some(Cancelled)
    else None
  }

  lemma StatusNameRoundTrip(st: OrderStatus)
    requires !st.Unlisted?
    ensures ParseOrderStatus(StatusName(st)) == Some(st)
  {
  }

  function LineAmount(it: OrderItem): real {
    it.quantity as real * it.price
  }

  /** Σ quantity·price, folded left to right as `items.reduce` does. */
  function ItemsTotal(items: seq<OrderItem>): real {
    if items == [] then 0.0 else ItemsTotal(items[..|items| - 1]) + LineAmount(items[|items| - 1])
  }

  /** Σ quantity, the "Total Items" figure. */
  function ItemCount(items: seq<OrderItem>): int {
    if items == [] then 0 else ItemCount(items[..|items| - 1]) + items[|items| - 1].quantity
  }

  lemma {:induction false} ItemsTotalAppend(xs: seq<OrderItem>, ys: seq<OrderItem>)
    ensures ItemsTotal(xs + ys) == ItemsTotal(xs) + ItemsTotal(ys)
    decreases |ys|
  {
    if ys == [] {
      assert xs + ys == xs;
    } else {
      assert (xs + ys)[..|xs + ys| - 1] == xs + ys[..|ys| - 1];
      ItemsTotalAppend(xs, ys[..|ys| - 1]);
    }
  }

  lemma {:induction false} ItemCountAppend(xs: seq<OrderItem>, ys: seq<OrderItem>)
    ensures ItemCount(xs + ys) == ItemCount(xs) + ItemCount(ys)
    decreases |ys|
  {
    if ys == [] {
      assert xs + ys == xs;
    } else {
      assert (xs + ys)[..|xs + ys| - 1] == xs + ys[..|ys| - 1];
      ItemCountAppend(xs, ys[..|ys| - 1]);
    }
  }

  /** Totals depend only on the line amounts, position by position. */
  lemma {:induction false} ItemsTotalByLines(xs: seq<OrderItem>, ys: seq<OrderItem>)
    requires |xs| == |ys|
    requires forall i :: 0 <= i < |xs| ==> LineAmount(xs[i]) == LineAmount(ys[i])
    ensures ItemsTotal(xs) == ItemsTotal(ys)
  {
    if xs != [] {
      ItemsTotalByLines(xs[..|xs| - 1], ys[..|ys| - 1]);
    }
  }

  /** Replacing one item moves the total by exactly the difference of the two
      line amounts. */
  lemma ItemsTotalReplace(items: seq<OrderItem>, i: nat, it: OrderItem)
    requires i < |items|
    ensures ItemsTotal(items[i := it]) == ItemsTotal(items) - LineAmount(items[i]) + LineAmount(it)
  {
    var pre, post := items[..i], items[i + 1..];
    SplitAt(items, i, it);
    ItemsTotalAppend(pre + [items[i]], post);
    ItemsTotalAppend(pre, [items[i]]);
    ItemsTotalAppend(pre + [it], post);
    ItemsTotalAppend(pre, [it]);
    assert ItemsTotal([it]) == LineAmount(it) by { assert [it][..0] == []; }
    assert ItemsTotal([items[i]]) == LineAmount(items[i]) by { assert [items[i]][..0] == []; }
  }

  /** Removing one item lowers the total by that item's line amount. */
  lemma ItemsTotalRemove(items: seq<OrderItem>, i: nat)
    requires i < |items|
    ensures ItemsTotal(items[..i] + items[i + 1..]) == ItemsTotal(items) - LineAmount(items[i])
  {
    var pre, post := items[..i], items[i + 1..];
    SplitAt(items, i, items[i]);
    ItemsTotalAppend(pre + [items[i]], post);
    ItemsTotalAppend(pre, [items[i]]);
    ItemsTotalAppend(pre, post);
    assert ItemsTotal([items[i]]) == LineAmount(items[i]) by { assert [items[i]][..0] == []; }
  }

  /** The schema bounds on one item: a name, quantity at least 1, price at least 0. */
  predicate ValidItem(it: OrderItem) {
    it.name != "" && it.quantity >= 1 && it.price >= 0.0
  }

  /** Items within the schema bounds give a total within the schema bound
      `totalAmount >= 0`, and at least as many units as items. */
  lemma {:induction false} ValidItemsBounds(items: seq<OrderItem>)
    requires forall i :: 0 <= i < |items| ==> ValidItem(items[i])
    ensures ItemsTotal(items) >= 0.0
    ensures ItemCount(items) >= |items|
  {
    if items != [] {
      ValidItemsBounds(items[..|items| - 1]);
      var last := items[|items| - 1];
      assert LineAmount(last) >= 0.0 by {
        assert last.quantity as real >= 1.0;
      }
    }
  }

  predicate AddressComplete(a: Address) {
    a.street != "" && a.city != "" && a.state != "" && a.zipCode != "" && a.country != ""
  }

  /** The Order schema: required order number, valid items, a required
      non-negative total and a complete shipping address. */
  predicate SchemaValid(o: Order) {
    && o.orderNumber != ""
    && (forall i :: 0 <= i < |o.items| ==> ValidItem(o.items[i]))
    && o.totalAmount.Some? && o.totalAmount.value >= 0.0
    && !o.status.Unlisted?
    && AddressComplete(o.shippingAddress)
  }

  /** The unique index on `orderNumber`. */
  predicate OrderNumbersUnique(store: seq<Order>) {
    forall i, j :: 0 <= i < j < |store| ==> store[i].orderNumber != store[j].orderNumber
  }

  /** `order.totalAmount || 0` (and `$ifNull: ['$$order.totalAmount', 0]`). */
  function AmountOrZero(o: Order): real {
    o.totalAmount.GetOr(0.0)
  }

  predicate DeliveredFor(cid: Id, o: Order) {
    o.customerId == cid && o.status == Delivered
  }

  /** A customer's spend: Σ totalAmount (missing → 0) over that customer's
      delivered orders only. */
  function DeliveredSpend(orders: seq<Order>, cid: Id): real {
    Sum(Filter(orders, o => DeliveredFor(cid, o)), AmountOrZero)
  }

  /** Spend is additive over a split of the order store. */
  lemma DeliveredSpendAppend(xs: seq<Order>, ys: seq<Order>, cid: Id)
    ensures DeliveredSpend(xs + ys, cid) == DeliveredSpend(xs, cid) + DeliveredSpend(ys, cid)
  {
    FilterAppend(xs, ys, o => DeliveredFor(cid, o));
    SumAppend(Filter(xs, o => DeliveredFor(cid, o)), Filter(ys, o => DeliveredFor(cid, o)), AmountOrZero);
  }

  /** Adding an order that is not delivered, or belongs to someone else, leaves
      a customer's spend unchanged; adding a delivered order of theirs raises
      it by that order's amount. */
  lemma DeliveredSpendExtend(orders: seq<Order>, o: Order, cid: Id)
    ensures DeliveredSpend(orders + [o], cid)
      == DeliveredSpend(orders, cid) + (if DeliveredFor(cid, o) then AmountOrZero(o) else 0.0)
  {
    DeliveredSpendAppend(orders, [o], cid);
    assert [o][1..] == [];
    if DeliveredFor(cid, o) {
      assert Filter([o], (x: Order) => DeliveredFor(cid, x)) == [o];
      assert Sum([o], AmountOrZero) == AmountOrZero(o) by { assert [o][..0] == []; }
    } else {
      assert Filter([o], (x: Order) => DeliveredFor(cid, x)) == [];
    }
  }

  /** A store whose orders all carry a non-negative total gives a non-negative
      spend. */
  lemma DeliveredSpendNonNegative(orders: seq<Order>, cid: Id)
    requires forall i :: 0 <= i < |orders| ==> AmountOrZero(orders[i]) >= 0.0
    ensures DeliveredSpend(orders, cid) >= 0.0
  {
    var d := Filter(orders, o => DeliveredFor(cid, o));
    SumNonNegative(d, AmountOrZero);
  }

  /** Reading a field of an order document by name, as an aggregation path
      `'$orders.<name>'` does. The schema has no `total` field. */
  function OrderField(o: Order, name: string): Value {
    if name == "totalAmount" then (if o.totalAmount.Some? then Num(o.totalAmount.value) else Absent)
    else if name == "status" then Str(StatusName(o.status))
    else if name == "customerId" then Str(o.customerId)
    else if name == "orderNumber" then Str(o.orderNumber)
    else Absent
  }
}

=== FILE: order_slice.dfy ===
/** The client's order list (client/src/store/slices/orderSlice.ts). Unlike
    the segment and customer lists, every request here drives the loading
    flag and reports its own failure. */
module OrderSlice {
  import opened Wrappers
  import opened Documents
  import opened Collections
  import opened ListSlice
  import opened OrderModel
  import opened OrderRoutes

  datatype Thunk = FetchOrders | FetchCustomerOrders | CreateOrder | UpdateOrderStatus | DeleteOrder | UpdateOrder

  function Fallback(t: Thunk): string {
    match t
    case FetchOrders => "Failed to fetch orders"
    case FetchCustomerOrders => "Failed to fetch customer orders"
    case CreateOrder => "Failed to create order"
    case UpdateOrderStatus => "Failed to update order status"
    case DeleteOrder => "Failed to delete order"
    case UpdateOrder => "Failed to update order"
  }

  datatype Action =
    | Started(thunk: Thunk)
    | Rejected(thunk: Thunk, message: Option<string>)
    | OrdersFetched(orders: seq<Order>)
    | CustomerOrdersFetched(orders: seq<Order>)
    | OrderCreated(order: Order)
    | StatusUpdated(order: Order)
    | OrderDeleted(id: Id)
    | OrderUpdated(order: Order)

  function EditOf(a: Action): Edit<Order>
    requires !a.Started? && !a.Rejected?
  {
    match a
    case OrdersFetched(all) => Fetched(all)
    case CustomerOrdersFetched(all) => Fetched(all)
    case OrderCreated(o) => Created(o)
    case StatusUpdated(o) => Updated(o)
    case OrderDeleted(id) => Deleted(id)
    case OrderUpdated(o) => Updated(o)
  }

  function Reduce(st: ListState<Order>, a: Action): (r: ListState<Order>)
    ensures a.Started? ==> r.items == st.items && r.loading && r.error.None?
    ensures a.Rejected? ==> r.items == st.items && !r.loading && r.error.Some? && r.error.value != ""
    ensures !a.Started? && !a.Rejected? ==> !r.loading && r.error == st.error
  {
    match a
    case Started(_) => Begin(st)
    case Rejected(t, m) => Fail(st, m, Fallback(t))
    case _ => st.(loading := false, items := ApplyEdit(st.items, OrderKey, EditOf(a)))
  }

  /** Each request's failure is reported under its own message, and the
      messages are pairwise different, so the error says which request
      failed when the server gives no message. */
  lemma FailureNamesTheRequest(st: ListState<Order>, t: Thunk, u: Thunk)
    ensures Reduce(Reduce(st, Started(t)), Rejected(t, None)).error == Some(Fallback(t))
    ensures Reduce(Reduce(st, Started(t)), Rejected(t, Some(""))).error == Some(Fallback(t))
    ensures t != u ==> Fallback(t) != Fallback(u)
  {
    if t != u {
      assert Fallback(t)[10] != Fallback(u)[10] || Fallback(t)[..15] != Fallback(u)[..15] || |Fallback(t)| != |Fallback(u)|;
    }
  }

  /** A client list that holds the order collection in creation order
      still holds it after a successful create, status patch, update or delete is reflected
      in it. A client that began with an empty collection and has only
      reflected writes holds such a list; a fetched page is newest first
      and does not. */
  lemma CreateMirrorsServer(st: ListState<Order>, orders: seq<Order>, b: OrderBody, newId: Id, now: nat, suffix: nat)
    requires suffix < 1000
    requires st.items == orders
    requires OrderRoutes.CreateOrder(orders, b, newId, now, suffix).response.Ok?
    ensures var o := OrderRoutes.CreateOrder(orders, b, newId, now, suffix);
      Reduce(st, OrderCreated(o.response.value)).items == o.orders
  {
    CreateOrderStores(orders, b, newId, now, suffix);
  }

  lemma PatchMirrorsServer(st: ListState<Order>, orders: seq<Order>, id: Id, status: Option<string>)
    requires st.items == orders && UniqueKeys(orders, OrderKey)
    requires PatchStatus(orders, id, status).response.Ok?
    ensures var o := PatchStatus(orders, id, status);
      Reduce(st, StatusUpdated(o.response.value)).items == o.orders
      && UniqueKeys(o.orders, OrderKey)
  {
    var o := PatchStatus(orders, id, status);
    EditsKeepIdsUnique(orders, OrderKey, Updated(o.response.value));
  }

  lemma UpdateMirrorsServer(st: ListState<Order>, orders: seq<Order>, id: Id, b: OrderBody)
    requires st.items == orders && UniqueKeys(orders, OrderKey)
    requires OrderRoutes.UpdateOrder(orders, id, b).response.Ok?
    ensures var o := OrderRoutes.UpdateOrder(orders, id, b);
      Reduce(st, OrderUpdated(o.response.value)).items == o.orders
      && UniqueKeys(o.orders, OrderKey)
  {
    var o := OrderRoutes.UpdateOrder(orders, id, b);
    UpdateReplaces(st, o.response.value);
  }

  /** An update reflected in a list without duplicate ids replaces the
      record with that id and keeps the ids unique. */
  lemma UpdateReplaces(st: ListState<Order>, x: Order)
    requires UniqueKeys(st.items, OrderKey)
    ensures Reduce(st, OrderUpdated(x)).items == ReplaceById(st.items, OrderKey, x.id, x)
    ensures UniqueKeys(Reduce(st, OrderUpdated(x)).items, OrderKey)
  {
    EditsKeepIdsUnique(st.items, OrderKey, Updated(x));
  }

  lemma DeleteMirrorsServer(st: ListState<Order>, orders: seq<Order>, id: Id)
    requires st.items == orders
    requires OrderRoutes.DeleteOrder(orders, id).response.Ok?
    ensures Reduce(st, OrderDeleted(id)).items == OrderRoutes.DeleteOrder(orders, id).orders
  {
  }
}

=== FILE: orders.dfy ===
/** The order endpoints of server/src/routes/orders.ts: create and full
    update recompute `totalAmount` from the items, the list fills in a falsy
    total, the status patch checks the enum, and unknown ids give 404. */
module OrderRoutes {
  import opened Wrappers
  import opened Strings
  import opened JsNumber
  import opened Documents
  import opened Seqs
  import opened Collections
  import opened Validators
  import opened OrderModel
  import opened Pagination

  /** One item as sent: quantity and price are JSON numbers. */
  datatype BodyItem = BodyItem(name: Option<string>, quantity: real, price: real)

  datatype AddressBody = AddressBody(
    street: Option<string>, city: Option<string>, state: Option<string>,
    zipCode: Option<string>, country: Option<string>)

  /** The request body; `totalAmount` and `orderNumber` may be sent but a
      create overrides both and an update overrides the total. */
  datatype OrderBody = OrderBody(
    customerId: Option<string>,
    items: Option<seq<BodyItem>>,
    shippingAddress: AddressBody,
    status: Option<string>,
    totalAmount: Option<real>,
    orderNumber: Option<string>)

  /** `isInt({ min })` on a number. */
  predicate IsIntAtLeast(x: real, min: int) {
    x == x.Floor as real && x >= min as real
  }

  predicate ItemValid(it: BodyItem) {
    NotBlank(it.name) && IsIntAtLeast(it.quantity, 1) && it.price >= 0.0
  }

  predicate AddressValid(a: AddressBody) {
    NotBlank(a.street) && NotBlank(a.city) && NotBlank(a.state) && NotBlank(a.zipCode) && NotBlank(a.country)
  }

  /** The validator chain shared by create and update. */
  predicate BodyValid(b: OrderBody) {
    && b.customerId.Some? && IsMongoId(b.customerId.value)
    && b.items.Some? && b.items.value != []
    && (forall i :: 0 <= i < |b.items.value| ==> ItemValid(b.items.value[i]))
    && AddressValid(b.shippingAddress)
  }

  const ValidationFailed := HttpError(400, "Validation failed")
  const OrderNotFound := HttpError(404, "Order not found")
  /** A unique-index violation is a driver error, which the error handler
      answers with a 500. */
  const DuplicateKey := HttpError(500, "Internal Server Error")
  const SchemaRejected := HttpError(400, "Validation Error")

  /** The items after the `trim()` sanitizers, as stored. */
  function StoredItem(it: BodyItem): OrderItem
    requires ItemValid(it)
  {
    OrderItem(Trim(it.name.value), it.quantity.Floor, it.price)
  }

  function StoredItems(items: seq<BodyItem>): (r: seq<OrderItem>)
    requires forall i :: 0 <= i < |items| ==> ItemValid(items[i])
    ensures |r| == |items|
    ensures forall i :: 0 <= i < |items| ==> r[i] == StoredItem(items[i])
  {
    seq(|items|, i requires 0 <= i < |items| => StoredItem(items[i]))
  }

  function StoredAddress(a: AddressBody): Address
    requires AddressValid(a)
  {
    Address(Trim(a.street.value), Trim(a.city.value), Trim(a.state.value), Trim(a.zipCode.value), Trim(a.country.value))
  }

  /** `ORD-<milliseconds>-<0..999>` */
  function OrderNumber(now: nat, suffix: nat): string {
    "ORD-" + Decimal(now) + "-" + Decimal(suffix)
  }

  predicate NumberTaken(orders: seq<Order>, n: string) {
    exists i :: 0 <= i < |orders| && orders[i].orderNumber == n
  }

  datatype OrderOutcome = OrderOutcome(orders: seq<Order>, response: Result<Order>)

  /** POST /orders. `now` is the clock and `suffix` the random part
      `Math.floor(Math.random() * 1000)`. */
  function CreateOrder(orders: seq<Order>, b: OrderBody, newId: Id, now: nat, suffix: nat): OrderOutcome
    requires suffix < 1000
  {
    if !BodyValid(b) then OrderOutcome(orders, Err(ValidationFailed))
    else
      var items := StoredItems(b.items.value);
      var number := OrderNumber(now, suffix);
      var status := if b.status.Some? then ParseOrderStatus(b.status.value) else Some(Pending);
      if status.None? then OrderOutcome(orders, Err(SchemaRejected))
      else if NumberTaken(orders, number) then OrderOutcome(orders, Err(DuplicateKey))
      else
        var o := Order(newId, b.customerId.value, number, items, Some(ItemsTotal(items)), status.value, StoredAddress(b.shippingAddress));
        OrderOutcome(orders + [o], Ok(o))
  }

  /** A create either fails and writes nothing, or appends exactly the
      order it returns, with a total equal to the sum of its own items. */
  lemma CreateOrderStores(orders: seq<Order>, b: OrderBody, newId: Id, now: nat, suffix: nat)
    requires suffix < 1000
    ensures var out := CreateOrder(orders, b, newId, now, suffix);
      && (out.response.Err? ==> out.orders == orders)
      && (!BodyValid(b) ==> out.response == Err(ValidationFailed))
      && (out.response.Ok? ==>
            && out.orders == orders + [out.response.value]
            && out.response.value.totalAmount == Some(ItemsTotal(out.response.value.items))
            && |out.response.value.items| == |b.items.value| > 0
            && !NumberTaken(orders, out.response.value.orderNumber))
  {
  }

  /** The total the client sends, and any order number, are ignored. */
  lemma CreateIgnoresClientTotal(orders: seq<Order>, b: OrderBody, newId: Id, now: nat, suffix: nat,
                                 t: Option<real>, n: Option<string>)
    requires suffix < 1000
    ensures CreateOrder(orders, b.(totalAmount := t, orderNumber := n), newId, now, suffix)
      == CreateOrder(orders, b, newId, now, suffix)
  {
    var b' := b.(totalAmount := t, orderNumber := n);
    assert BodyValid(b') == BodyValid(b);
  }

  /** A created order satisfies the Order schema: valid items, a
      non-negative total, an enum status and a complete address. */
  lemma CreatedOrderValid(orders: seq<Order>, b: OrderBody, newId: Id, now: nat, suffix: nat)
    requires suffix < 1000
    requires CreateOrder(orders, b, newId, now, suffix).response.Ok?
    ensures SchemaValid(CreateOrder(orders, b, newId, now, suffix).response.value)
  {
    var o := CreateOrder(orders, b, newId, now, suffix).response.value;
    var items := StoredItems(b.items.value);
    assert o.items == items;
    forall i | 0 <= i < |items| ensures ValidItem(items[i]) {
      assert items[i] == StoredItem(b.items.value[i]);
    }
    ValidItemsBounds(items);
  }

  /** Creating keeps the order numbers of the store unique. */
  lemma CreateKeepsNumbersUnique(orders: seq<Order>, b: OrderBody, newId: Id, now: nat, suffix: nat)
    requires suffix < 1000 && OrderNumbersUnique(orders)
    ensures OrderNumbersUnique(CreateOrder(orders, b, newId, now, suffix).orders)
  {
    var out := CreateOrder(orders, b, newId, now, suffix);
    if out.response.Ok? {
      CreateOrderStores(orders, b, newId, now, suffix);
      var all := out.orders;
      forall i, j | 0 <= i < j < |all| ensures all[i].orderNumber != all[j].orderNumber {
        if j == |orders| {
          assert all[i] == orders[i];
        } else {
          assert all[i] == orders[i] && all[j] == orders[j];
        }
      }
    }
  }

  /** PUT /orders/:id: the body's fields overwrite the stored ones, with the
      total recomputed from the new items. The update runs no schema
      validators, so a status outside the enum is stored as given. */
  function UpdateOrder(orders: seq<Order>, id: Id, b: OrderBody): (o: OrderOutcome)
    ensures o.response.Err? ==> o.orders == orders
    ensures o.response.Ok? ==> o.response.value.id == id && o.orders == ReplaceById(orders, OrderKey, id, o.response.value)
  {
    if !BodyValid(b) then OrderOutcome(orders, Err(ValidationFailed))
    else WriteUpdate(orders, id, b.customerId.value, b.items.value, b.orderNumber, b.status, b.shippingAddress)
  }

  /** The update once the body has passed validation: only the fields read
      here reach the stored order. */
  function WriteUpdate(orders: seq<Order>, id: Id, customerId: string, bodyItems: seq<BodyItem>,
                       orderNumber: Option<string>, status: Option<string>, address: AddressBody): (o: OrderOutcome)
    requires forall i :: 0 <= i < |bodyItems| ==> ItemValid(bodyItems[i])
    requires AddressValid(address)
    ensures o.response.Err? ==> o.orders == orders
    ensures o.response.Ok? ==> o.response.value.id == id && o.orders == ReplaceById(orders, OrderKey, id, o.response.value)
    ensures FindOrder(orders, id).Some? && orderNumber.None? ==> o.response.Ok?
    ensures o.response.Ok? && status.Some? ==> o.response.value.status == StatusFor(status.value)
  {
    var found := FindOrder(orders, id);
    if found.None? then OrderOutcome(orders, Err(OrderNotFound))
    else
      var current := found.value;
      var items := StoredItems(bodyItems);
      var number := if orderNumber.Some? then orderNumber.value else current.orderNumber;
      if number != current.orderNumber && NumberTaken(orders, number) then OrderOutcome(orders, Err(DuplicateKey))
      else
        var updated := Order(id, customerId, number, items, Some(ItemsTotal(items)),
                             if status.Some? then StatusFor(status.value) else current.status,
                             StoredAddress(address));
        OrderOutcome(ReplaceById(orders, OrderKey, id, updated), Ok(updated))
  }

  /** The primary key `_id`. */
  function OrderKey(o: Order): string { o.id }

  /** `Order.findById(id)` */
  function FindOrder(orders: seq<Order>, id: Id): (r: Option<Order>)
    ensures r.Some? ==> r.value in orders && r.value.id == id
    ensures r.None? ==> forall i :: 0 <= i < |orders| ==> orders[i].id != id
  {
    FindById(orders, OrderKey, id)
  }

  /** An update touches only that order, writes nothing when it fails, and
      answers 404 for an unknown id. */
  lemma UpdateOrderFrame(orders: seq<Order>, id: Id, b: OrderBody)
    ensures var out := UpdateOrder(orders, id, b);
      && |out.orders| == |orders|
      && (forall i :: 0 <= i < |orders| && orders[i].id != id ==> out.orders[i] == orders[i])
      && (out.response.Err? ==> out.orders == orders)
      && (BodyValid(b) && FindOrder(orders, id).None? ==> out.response == Err(OrderNotFound))
  {
    if BodyValid(b) {
      var found := FindOrder(orders, id);
      if found.Some? {
        var out := UpdateOrder(orders, id, b);
        if out.response.Ok? {
          ReplaceOnlyTarget(orders, OrderKey, id, out.response.value);
        }
      }
    }
  }

  /** The updated order keeps its id, takes the body's status as given, and
      has the total of its new items whatever total the body carried. */
  lemma UpdateOrderResult(orders: seq<Order>, id: Id, b: OrderBody)
    ensures var out := UpdateOrder(orders, id, b);
      out.response.Ok? ==>
        && out.response.value.id == id
        && out.response.value.totalAmount == Some(ItemsTotal(out.response.value.items))
        && (b.status.Some? ==> StatusName(out.response.value.status) == b.status.value)
  {
  }

  lemma UpdateIgnoresClientTotal(orders: seq<Order>, id: Id, b: OrderBody, t: Option<real>)
    ensures UpdateOrder(orders, id, b.(totalAmount := t)) == UpdateOrder(orders, id, b)
  {
    var b' := b.(totalAmount := t);
    assert b'.customerId == b.customerId && b'.items == b.items && b'.shippingAddress == b.shippingAddress;
    assert b'.status == b.status && b'.orderNumber == b.orderNumber;
    assert BodyValid(b') == BodyValid(b);
  }

  /** An update with a status outside the enum succeeds and leaves an order
      the schema would not accept. */
  lemma UpdateBypassesStatusEnum(orders: seq<Order>, id: Id, b: OrderBody)
    requires BodyValid(b) && FindOrder(orders, id).Some? && b.orderNumber.None?
    requires b.status == Some("lost")
    ensures UpdateOrder(orders, id, b).response.Ok?
    ensures !SchemaValid(UpdateOrder(orders, id, b).response.value)
  {
    var o := WriteUpdate(orders, id, b.customerId.value, b.items.value, None, Some("lost"), b.shippingAddress);
    assert UpdateOrder(orders, id, b) == o;
  }

  /** PATCH /orders/:id/status */
  function PatchStatus(orders: seq<Order>, id: Id, status: Option<string>): OrderOutcome {
    var st := if status.Some? then ParseOrderStatus(status.value) else None;
    if st.None? then OrderOutcome(orders, Err(ValidationFailed))
    else
      var found := FindOrder(orders, id);
      if found.None? then OrderOutcome(orders, Err(OrderNotFound))
      else
        var updated := found.value.(status := st.value);
        OrderOutcome(ReplaceById(orders, OrderKey, id, updated), Ok(updated))
  }

  /** The patch accepts exactly the five enum names, sets only the status of
      only that order, and answers 404 for an unknown id. */
  lemma PatchStatusFacts(orders: seq<Order>, id: Id, status: Option<string>)
    ensures var out := PatchStatus(orders, id, status);
      && (out.response.Err? ==> out.orders == orders)
      && ((status.None? || status.value !in {"pending", "processing", "shipped", "delivered", "cancelled"})
            ==> out.response == Err(ValidationFailed))
      && (out.response.Ok? <==> status.Some? && ParseOrderStatus(status.value).Some? && FindOrder(orders, id).Some?)
      && (out.response.Ok? ==>
            && StatusName(out.response.value.status) == status.value
            && out.response.value == FindOrder(orders, id).value.(status := out.response.value.status)
            && forall i :: 0 <= i < |orders| && orders[i].id != id ==> out.orders[i] == orders[i])
  {
    var out := PatchStatus(orders, id, status);
    if out.response.Ok? {
      ReplaceOnlyTarget(orders, OrderKey, id, out.response.value);
    }
  }

  /** DELETE /orders/:id */
  function DeleteOrder(orders: seq<Order>, id: Id): OrderOutcome {
    var found := FindOrder(orders, id);
    if found.None? then OrderOutcome(orders, Err(OrderNotFound))
    else OrderOutcome(RemoveById(orders, OrderKey, id), Ok(found.value))
  }

  lemma DeleteOrderFacts(orders: seq<Order>, id: Id)
    ensures var out := DeleteOrder(orders, id);
      && (out.response.Err? <==> forall i :: 0 <= i < |orders| ==> orders[i].id != id)
      && (out.response.Err? ==> out.response.error == OrderNotFound && out.orders == orders)
      && (forall o :: o in out.orders <==> o in orders && (out.response.Err? || o.id != id))
  {
    RemoveKeepsOthers(orders, OrderKey, id);
  }

  // ---------------------------------------------------------------------
  // Listing.

  /** `!order.totalAmount`: missing or zero. */
  predicate FalsyTotal(o: Order) {
    o.totalAmount.None? || o.totalAmount.value == 0.0
  }

  /** The listed copy of one order: a falsy total is filled in from the
      items; any other stored total is shown as it is. */
  function Listed(o: Order): Order {
    if FalsyTotal(o) then o.(totalAmount := Some(ItemsTotal(o.items))) else o
  }

  /** A `customerId` after `populate('customerId', 'name email')`: the
      customer's `_id` with its `name` and `email`. */
  datatype CustomerRef = CustomerRef(id: Id, name: Value, email: Value)

  /** Populating one reference: the customer with that id, or `null` when
      no customer has it. */
  function PopulateCustomer(customers: seq<Customer>, id: Id): (r: Option<CustomerRef>)
    ensures r.None? <==> forall i :: 0 <= i < |customers| ==> customers[i].id != id
    ensures r.Some? ==>
      && r.value.id == id && FindCustomer(customers, id).Some?
      && r.value.name == Field(FindCustomer(customers, id).value, "name")
      && r.value.email == Field(FindCustomer(customers, id).value, "email")
  {
    match FindCustomer(customers, id)
    case None => None
    case Some(c) => Some(CustomerRef(c.id, Field(c, "name"), Field(c, "email")))
  }

  /** A listed order: the stored order with its total filled in, answered
      with the populated customer (or `null`) in place of its
      `customerId`. */
  datatype ListedOrder = ListedOrder(order: Order, customer: Option<CustomerRef>)

  function ListRow(customers: seq<Customer>, o: Order): ListedOrder {
    ListedOrder(Listed(o), PopulateCustomer(customers, o.customerId))
  }

  datatype OrderPage = OrderPage(orders: seq<ListedOrder>, info: PageInfo)

  /** GET /orders over the store in creation order. Mongoose sorts before it
      skips whatever the order of the calls, so the page is read newest
      first; each row is shown with its total filled in and its customer
      populated from the customer collection. */
  function ListOrders(orders: seq<Order>, customers: seq<Customer>, page: Option<string>, limit: Option<string>)
    : (r: Result<OrderPage>)
    ensures r.Err? <==> Skip(Info(|orders|, page, limit).page, Info(|orders|, page, limit).limit) < 0
    ensures r.Ok? ==> r.value.info.total == |orders|
    ensures r.Ok? ==> r.value.info.page == Info(|orders|, page, limit).page
                      && r.value.info.limit == Info(|orders|, page, limit).limit
    ensures r.Ok? ==> var skip := Skip(r.value.info.page, r.value.info.limit);
      && |r.value.orders| == PageSize(|orders|, skip, r.value.info.limit)
      && forall k :: 0 <= k < |r.value.orders| ==>
           && 0 <= skip + k < |orders|
           && r.value.orders[k].order == Listed(orders[|orders| - 1 - (skip + k)])
           && r.value.orders[k].customer == PopulateCustomer(customers, orders[|orders| - 1 - (skip + k)].customerId)
  {
    var info := Info(|orders|, page, limit);
    var rows :- Window(NewestFirst(orders), info.page, info.limit);
    Ok(OrderPage(Map(rows, (o: Order) => ListRow(customers, o)), info))
  }

  /** Listing shows every order of the page with a total, and that total
      agrees with the items whenever the stored one did or was falsy; a stale
      non-zero total is passed through unchanged. */
  lemma ListedTotals(o: Order)
    ensures Listed(o).totalAmount.Some?
    ensures Listed(o).items == o.items && Listed(o).id == o.id && Listed(o).status == o.status
    ensures o.totalAmount == Some(ItemsTotal(o.items)) || FalsyTotal(o) ==> Listed(o).totalAmount == Some(ItemsTotal(o.items))
    ensures !FalsyTotal(o) ==> Listed(o) == o
  {
  }

  /** An order just created shows in the list with its items' total, and
      listing twice changes nothing more. */
  lemma CreatedOrderListsItsTotal(orders: seq<Order>, b: OrderBody, newId: Id, now: nat, suffix: nat)
    requires suffix < 1000
    requires CreateOrder(orders, b, newId, now, suffix).response.Ok?
    ensures var o := CreateOrder(orders, b, newId, now, suffix).response.value;
      Listed(o).totalAmount == Some(ItemsTotal(o.items)) && Listed(Listed(o)) == Listed(o)
  {
    CreateOrderStores(orders, b, newId, now, suffix);
  }
}

=== FILE: pagination.dfy ===
/** The list endpoints' pagination (server/src/routes/orders.ts,
    server/src/routes/customers.ts and server/src/routes/campaigns.ts):
    `page` and `limit` read with `parseInt(q) || default`,
    `skip = (page - 1) * limit`, `pages = Math.ceil(total / limit)`, and the
    newest-first order of `sort({ createdAt: -1 })`. */
module Pagination {
  import opened Wrappers
  import opened Strings
  import opened JsNumber
  import opened Seqs

  /** `parseInt(q) || d`: a missing or unparsable value (NaN) and 0 are both
      falsy and fall back to `d`. */
  function QueryInt(q: Option<string>, d: int): (r: int)
    ensures d != 0 ==> r != 0
    ensures r == d || (q.Some? && ParseInt(q.value) == Some(r))
  {
    if q.None? then d
    else
      var p := ParseInt(q.value);
      if p.None? || p.value == 0 then d else p.value
  }

  /** Missing, empty, non-numeric and zero query values give the default; a
      plain non-zero digit string gives its value. */
  lemma QueryIntDefaults(d: int, ds: string)
    requires ds != [] && AllDigits(ds)
    ensures QueryInt(None, d) == d && QueryInt(Some(""), d) == d
    ensures QueryInt(Some("abc"), d) == d && QueryInt(Some("0"), d) == d
    ensures QueryInt(Some(ds), d) == (if DigitsValue(ds) == 0 then d else DigitsValue(ds))
  {
    FalsyTexts();
    QueryIntDigits(d, ds);
  }

  lemma QueryIntDigits(d: int, ds: string)
    requires ds != [] && AllDigits(ds)
    ensures QueryInt(Some(ds), d) == (if DigitsValue(ds) == 0 then d else DigitsValue(ds))
  {
    DigitStringsConvert(ds);
  }

  lemma FalsyTexts()
    ensures ParseInt("abc") == None && ParseInt("0") == Some(0) && ParseInt("") == None
  {
    assert DigitRunEnd("abc", 0) == 0;
    DigitStringsConvert("0");
    assert DigitsValue("0") == 0 by { assert "0"[..0] == ""; }
  }

  /** `(page - 1) * limit` */
  function Skip(page: int, limit: int): int {
    (page - 1) * limit
  }

  /** `Math.ceil(total / limit)`, computed exactly on integers (a negative
      limit gives a non-positive count). */
  function CeilDiv(total: nat, limit: int): (r: int)
    requires limit != 0
    ensures limit > 0 ==> r >= 0 && (r - 1) * limit < total <= r * limit
    ensures limit < 0 ==> r <= 0
  {
    if limit > 0 then
      var q := (total + limit - 1) / limit;
      var m := (total + limit - 1) % limit;
      assert q * limit + m == total + limit - 1 && 0 <= m < limit;
      assert (q - 1) * limit == q * limit - limit;
      q
    else -(total / (-limit))
  }

  /** The `pages` figure: the fewest pages of `limit` rows that hold `total`. */
  lemma PagesIsLeast(total: nat, limit: int, k: int)
    requires limit > 0 && 0 <= k && total <= k * limit
    ensures CeilDiv(total, limit) <= k
  {
    var r := CeilDiv(total, limit);
    if r > k {
      assert (r - 1) * limit >= k * limit by {
        assert r - 1 >= k;
        MulMonotone(k, r - 1, limit);
      }
    }
  }

  lemma MulMonotone(a: int, b: int, m: int)
    requires a <= b && m >= 0
    ensures a * m <= b * m
  {
  }

  /** `sort({ createdAt: -1 })` over a collection kept in creation order:
      every create appends, so the newest document comes first when the
      collection is read from its end. */
  function NewestFirst<T>(xs: seq<T>): (r: seq<T>)
    ensures |r| == |xs|
    ensures forall k :: 0 <= k < |xs| ==> r[k] == xs[|xs| - 1 - k]
  {
    if xs == [] then [] else [xs[|xs| - 1]] + NewestFirst(xs[..|xs| - 1])
  }

  /** A document just created heads the listing, ahead of all the others in
      their previous order. */
  lemma NewestFirstAppend<T>(xs: seq<T>, x: T)
    ensures NewestFirst(xs + [x]) == [x] + NewestFirst(xs)
  {
    assert (xs + [x])[..|xs|] == xs;
  }

  /** The number of rows a page holds: the rows after `skip`, at most
      `|limit|` of them. */
  function PageSize(n: nat, skip: int, limit: int): nat {
    if skip >= n then 0 else Min(Abs(limit), n - skip)
  }

  /** A page of the newest-first listing holds `PageSize` rows, the `k`-th
      being the `skip + k`-th most recent of the collection. */
  lemma NewestPage<T>(xs: seq<T>, page: int, limit: int)
    requires limit != 0
    ensures Window(NewestFirst(xs), page, limit).Ok? ==>
      var w := Window(NewestFirst(xs), page, limit).value;
      var skip := Skip(page, limit);
      && |w| == PageSize(|xs|, skip, limit)
      && forall k :: 0 <= k < |w| ==> 0 <= skip + k < |xs| && w[k] == xs[|xs| - 1 - (skip + k)]
  {
  }

  /** The rows of one page: Mongo rejects a negative skip; a negative limit
      is read as its absolute value. */
  function Window<T>(xs: seq<T>, page: int, limit: int): (r: Result<seq<T>>)
    requires limit != 0
    ensures r.Err? <==> Skip(page, limit) < 0
    ensures r.Ok? ==> |r.value| <= Abs(limit)
    ensures r.Ok? ==> |r.value| == PageSize(|xs|, Skip(page, limit), limit)
    ensures r.Ok? && r.value != [] ==> Skip(page, limit) + |r.value| <= |xs|
    ensures r.Ok? && r.value != [] ==> forall k :: 0 <= k < |r.value| ==> r.value[k] == xs[Skip(page, limit) + k]
  {
    var skip := Skip(page, limit);
    if skip < 0 then Err(HttpError(500, "Internal Server Error"))
    else
      var lo := Min(skip, |xs|);
      Ok(xs[lo..Min(lo + Abs(limit), |xs|)])
  }

  function Abs(x: int): nat { if x < 0 then -x else x }

  datatype PageInfo = PageInfo(page: int, limit: int, total: nat, pages: int)

  function Info(total: nat, page: Option<string>, limit: Option<string>): (r: PageInfo)
    ensures r.limit != 0 && r.page != 0
    ensures r.pages == CeilDiv(total, r.limit)
  {
    var l := QueryInt(limit, 10);
    PageInfo(QueryInt(page, 1), l, total, CeilDiv(total, l))
  }

  /** With a positive limit every row lies on exactly one of the pages
      1..pages, at the offset the skip formula gives, and the pages after the
      last are empty. */
  lemma PagesCoverRows<T>(xs: seq<T>, limit: int, k: nat)
    requires limit > 0 && k < |xs|
    ensures var p := k / limit + 1;
      && 1 <= p <= CeilDiv(|xs|, limit)
      && Window(xs, p, limit).Ok?
      && 0 <= k - Skip(p, limit) < |Window(xs, p, limit).value|
      && Window(xs, p, limit).value[k - Skip(p, limit)] == xs[k]
    ensures forall q :: q > k / limit + 1 || q < k / limit + 1 ==>
      q < 1 || Window(xs, q, limit).Err? || Window(xs, q, limit).value == [] || !(Skip(q, limit) <= k < Skip(q, limit) + limit)
  {
    var p := k / limit + 1;
    RowPage(|xs|, limit, k);
    var lo := Min(Skip(p, limit), |xs|);
    assert lo == Skip(p, limit);
    OtherPagesMissRow(limit, k);
  }

  /** Row `k` lies in the skip range of page `k / limit + 1`, which is one of
      the counted pages. */
  lemma RowPage(n: nat, limit: int, k: nat)
    requires limit > 0 && k < n
    ensures 1 <= k / limit + 1 <= CeilDiv(n, limit)
    ensures Skip(k / limit + 1, limit) <= k < Skip(k / limit + 1, limit) + limit
  {
    var p := k / limit + 1;
    assert Skip(p, limit) == (k / limit) * limit;
    var r := CeilDiv(n, limit);
    if r < p {
      assert r * limit <= (k / limit) * limit by { MulMonotone(r, k / limit, limit); }
    }
  }

  /** No other page's skip range holds row `k`. */
  lemma OtherPagesMissRow(limit: int, k: nat)
    requires limit > 0
    ensures forall q :: q > k / limit + 1 || q < k / limit + 1 ==> !(Skip(q, limit) <= k < Skip(q, limit) + limit)
  {
    var p := k / limit + 1;
    assert Skip(p, limit) == (k / limit) * limit;
    forall q | q > p || q < p
      ensures !(Skip(q, limit) <= k < Skip(q, limit) + limit)
    {
      if q > p {
        assert Skip(q, limit) >= Skip(p, limit) + limit by { MulMonotone(p, q - 1, limit); }
      } else {
        assert Skip(q, limit) + limit <= Skip(p, limit) by { MulMonotone(q, p - 1, limit); }
      }
    }
  }
}

=== FILE: rules.dfy ===
/** The segment rule engine (server/src/routes/segments.ts and the
    `/:id/customers` handler of server/src/routes/campaigns.ts): each rule is
    translated into a store filter fragment, the fragments are joined with
    `$and` when the segment's operator is exactly `AND` and with `$or`
    otherwise, and the store returns the matching customers in store order.

    Two layers are modelled: the filter language the store evaluates (`Cond`,
    `Query`, `Run`) and a direct reading of what a rule means for a customer
    (`RuleAccepts`, `SegmentAccepts`). `AudienceCorrect` ties them together. */
module SegmentRules {
  import opened Wrappers
  import opened Documents
  import opened Strings
  import opened Seqs
  import opened SegmentModel

  /** Filter fragments the handlers produce. `Gt`/`Lt` carry the bound after
      `Number(...)`, `None` being NaN. `Regex` is the `{ $regex, $options: 'i' }`
      form, read as a case-insensitive literal substring test. */
  datatype Cond =
    | Unconstrained
    | Eq(field: string, v: Value)
    | Ne(field: string, v: Value)
    | Gt(field: string, bound: Option<real>)
    | Lt(field: string, bound: Option<real>)
    | Regex(field: string, pattern: Value)
    | Either(a: Cond, b: Cond)
    | Both(a: Cond, b: Cond)

  /** The store's matcher: equality is exact (a string never equals a number),
      `$ne` also matches a missing field, range operators only compare numbers
      and never match against NaN, and `$regex` only matches strings. */
  predicate Holds(q: Cond, c: Customer) {
    match q
    case Unconstrained => true
    case Eq(f, v) => Field(c, f) == v
    case Ne(f, v) => Field(c, f) != v
    case Gt(f, b) => Field(c, f).Num? && b.Some? && Field(c, f).n > b.value
    case Lt(f, b) => Field(c, f).Num? && b.Some? && Field(c, f).n < b.value
    case Regex(f, pat) => pat.Str? && Field(c, f).Str? && Contains(ToLower(Field(c, f).s), ToLower(pat.s))
    case Either(a, b) => Holds(a, c) || Holds(b, c)
    case Both(a, b) => Holds(a, c) && Holds(b, c)
  }

  /** `{ $and: conds }` or `{ $or: conds }`. */
  datatype Query = AllOf(conds: seq<Cond>) | AnyOf(conds: seq<Cond>)

  predicate Matches(q: Query, c: Customer) {
    match q
    case AllOf(cs) => forall i :: 0 <= i < |cs| ==> Holds(cs[i], c)
    case AnyOf(cs) => exists i :: 0 <= i < |cs| && Holds(cs[i], c)
  }

  const EmptyLogicalArray := HttpError(500, "$and/$or/$nor must be a nonempty array")

  /** `find(query)` (and `aggregate` with a leading `$match`): the store
      rejects a logical operator over an empty array; otherwise the matching
      customers come back in store order. */
  function Run(q: Query, store: seq<Customer>): (r: Result<seq<Customer>>)
    ensures r.Err? <==> q.conds == []
    ensures r.Err? ==> r.error.status == 500
    ensures r.Ok? ==> |r.value| <= |store|
    ensures r.Ok? ==> forall i :: 0 <= i < |store| ==> (store[i] in r.value <==> Matches(q, store[i]))
  {
    if q.conds == [] then Err(EmptyLogicalArray)
    else Ok(Filter(store, c => Matches(q, c)))
  }

  /** A rule's value read as a number, when it is a string that `Number()`
      accepts (`typeof v === 'string' && !isNaN(Number(v))`). */
  function NumericView(v: Value): Option<real> {
    if IsNumericString(v) then NumberOf(v) else None
  }

  /** One rule as the handlers translate it. */
  function Translate(r: Rule): Cond {
    if r.operator == "equals" then
      if NumericView(r.value).Some? then Either(Eq(r.field, r.value), Eq(r.field, Num(NumericView(r.value).value)))
      else Eq(r.field, r.value)
    else if r.operator == "notEquals" then
      if NumericView(r.value).Some? then Both(Ne(r.field, r.value), Ne(r.field, Num(NumericView(r.value).value)))
      else Ne(r.field, r.value)
    else if r.operator == "greaterThan" then Gt(r.field, NumberOf(r.value))
    else if r.operator == "lessThan" then Lt(r.field, NumberOf(r.value))
    else Unconstrained
  }

  /** The whole segment: one fragment per rule, joined by `$and` only when the
      operator is exactly "AND". */
  function CompileSegment(rules: seq<Rule>, ruleOperator: string): (q: Query)
    ensures |q.conds| == |rules|
    ensures forall i :: 0 <= i < |rules| ==> q.conds[i] == Translate(rules[i])
    ensures q.AllOf? <==> ruleOperator == "AND"
  {
    var conds := seq(|rules|, i requires 0 <= i < |rules| => Translate(rules[i]));
    if ruleOperator == "AND" then AllOf(conds) else AnyOf(conds)
  }

  // ---------------------------------------------------------------------
  // What a rule means, stated directly.

  /** Equality as the rules promise it: the value itself, or, for a numeric
      string, the number it spells. */
  predicate LooselyEquals(fieldValue: Value, ruleValue: Value) {
    fieldValue == ruleValue || (NumericView(ruleValue).Some? && fieldValue == Num(NumericView(ruleValue).value))
  }

  predicate RuleAccepts(r: Rule, c: Customer) {
    var fv := Field(c, r.field);
    var bound := NumberOf(r.value);
    if r.operator == "equals" then LooselyEquals(fv, r.value)
    else if r.operator == "notEquals" then !LooselyEquals(fv, r.value)
    else if r.operator == "greaterThan" then fv.Num? && bound.Some? && fv.n > bound.value
    else if r.operator == "lessThan" then fv.Num? && bound.Some? && fv.n < bound.value
    else true
  }

  /** All rules (operator "AND") or at least one (anything else). */
  predicate SegmentAccepts(rules: seq<Rule>, ruleOperator: string, c: Customer) {
    if ruleOperator == "AND" then forall i :: 0 <= i < |rules| ==> RuleAccepts(rules[i], c)
    else exists i :: 0 <= i < |rules| && RuleAccepts(rules[i], c)
  }

  /** The audience of a segment, as both list handlers compute it. */
  function Audience(store: seq<Customer>, rules: seq<Rule>, ruleOperator: string): Result<seq<Customer>> {
    Run(CompileSegment(rules, ruleOperator), store)
  }

  /** `calculateSegmentSize`: `countDocuments` over the same query. */
  function SegmentSize(store: seq<Customer>, rules: seq<Rule>, ruleOperator: string): Result<nat> {
    var q := CompileSegment(rules, ruleOperator);
    if q.conds == [] then Err(EmptyLogicalArray) else Ok(Count(store, c => Matches(q, c)))
  }

  // ---------------------------------------------------------------------
  // Properties.

  /** The translation of a rule matches exactly the customers the rule
      accepts. */
  lemma TranslateSound(r: Rule, c: Customer)
    ensures Holds(Translate(r), c) <==> RuleAccepts(r, c)
  {
    if r.operator == "equals" || r.operator == "notEquals" {
      TranslateEquality(r, c);
    } else {
      TranslateOrder(r, c);
    }
  }

  lemma TranslateEquality(r: Rule, c: Customer)
    requires r.operator == "equals" || r.operator == "notEquals"
    ensures Holds(Translate(r), c) <==> RuleAccepts(r, c)
  {
    if r.operator == "equals" {
      TranslateEquals(r, c);
    } else {
      TranslateNotEquals(r, c);
    }
  }

  lemma TranslateEquals(r: Rule, c: Customer)
    requires r.operator == "equals"
    ensures Holds(Translate(r), c) <==> LooselyEquals(Field(c, r.field), r.value)
  {
    var nv := NumericView(r.value);
    assert Translate(r) == if nv.Some? then Either(Eq(r.field, r.value), Eq(r.field, Num(nv.value))) else Eq(r.field, r.value);
    EqualityHolds(r.field, r.value, nv, c);
  }

  lemma TranslateNotEquals(r: Rule, c: Customer)
    requires r.operator == "notEquals"
    ensures Holds(Translate(r), c) <==> !LooselyEquals(Field(c, r.field), r.value)
  {
    var nv := NumericView(r.value);
    assert Translate(r) == if nv.Some? then Both(Ne(r.field, r.value), Ne(r.field, Num(nv.value))) else Ne(r.field, r.value);
    EqualityHolds(r.field, r.value, nv, c);
  }

  /** The two fragments an equality rule becomes, for any reading of its
      value as a number. */
  lemma EqualityHolds(field: string, v: Value, nv: Option<real>, c: Customer)
    ensures Holds(if nv.Some? then Either(Eq(field, v), Eq(field, Num(nv.value))) else Eq(field, v), c)
      <==> Field(c, field) == v || (nv.Some? && Field(c, field) == Num(nv.value))
    ensures Holds(if nv.Some? then Both(Ne(field, v), Ne(field, Num(nv.value))) else Ne(field, v), c)
      <==> !(Field(c, field) == v || (nv.Some? && Field(c, field) == Num(nv.value)))
  {
  }

  lemma TranslateOrder(r: Rule, c: Customer)
    requires r.operator != "equals" && r.operator != "notEquals"
    ensures Holds(Translate(r), c) <==> RuleAccepts(r, c)
  {
    if r.operator == "greaterThan" {
      assert Translate(r) == Gt(r.field, NumberOf(r.value));
    } else if r.operator == "lessThan" {
      assert Translate(r) == Lt(r.field, NumberOf(r.value));
    } else {
      assert Translate(r) == Unconstrained;
    }
  }

  lemma CompiledMatches(rules: seq<Rule>, ruleOperator: string, c: Customer)
    ensures Matches(CompileSegment(rules, ruleOperator), c) <==> SegmentAccepts(rules, ruleOperator, c)
  {
    var q := CompileSegment(rules, ruleOperator);
    forall i | 0 <= i < |rules|
      ensures Holds(q.conds[i], c) <==> RuleAccepts(rules[i], c)
    {
      TranslateSound(rules[i], c);
    }
  }

  /** The audience is a server error exactly for an empty rule list;
      otherwise it is the customers the segment accepts, in store order. */
  lemma AudienceCorrect(store: seq<Customer>, rules: seq<Rule>, ruleOperator: string)
    ensures Audience(store, rules, ruleOperator).Err? <==> rules == []
    ensures rules != [] ==>
      Audience(store, rules, ruleOperator) == Ok(Filter(store, c => SegmentAccepts(rules, ruleOperator, c)))
  {
    var q := CompileSegment(rules, ruleOperator);
    if rules != [] {
      forall i | 0 <= i < |store|
        ensures Matches(q, store[i]) == SegmentAccepts(rules, ruleOperator, store[i])
      {
        CompiledMatches(rules, ruleOperator, store[i]);
      }
      FilterCongruent(store, c => Matches(q, c), c => SegmentAccepts(rules, ruleOperator, c));
    }
  }

  /** The stored `customerCount` and the preview count are the length of the
      audience the customers handler lists. */
  lemma SizeIsAudienceLength(store: seq<Customer>, rules: seq<Rule>, ruleOperator: string)
    ensures SegmentSize(store, rules, ruleOperator).Ok? <==> Audience(store, rules, ruleOperator).Ok?
    ensures SegmentSize(store, rules, ruleOperator).Ok? ==>
      SegmentSize(store, rules, ruleOperator).value == |Audience(store, rules, ruleOperator).value|
  {
    var q := CompileSegment(rules, ruleOperator);
    FilterCount(store, c => Matches(q, c));
  }

  /** `notEquals` accepts exactly the customers `equals` rejects, for the
      same field and value, missing fields included. */
  lemma NotEqualsComplementsEquals(field: string, v: Value, c: Customer)
    ensures Holds(Translate(Rule(field, "notEquals", v)), c) <==> !Holds(Translate(Rule(field, "equals", v)), c)
  {
    TranslateSound(Rule(field, "notEquals", v), c);
    TranslateSound(Rule(field, "equals", v), c);
  }

  /** A rule whose value is a digit string matches the field whether it is
      stored as that string or as the number it spells. */
  lemma DigitStringMatchesBothForms(field: string, ds: string, c: Customer)
    requires ds != [] && AllDigits(ds)
    ensures Field(c, field) == Str(ds) ==> RuleAccepts(Rule(field, "equals", Str(ds)), c)
    ensures Field(c, field) == Num(JsNumber.DigitsValue(ds) as real) ==> RuleAccepts(Rule(field, "equals", Str(ds)), c)
    ensures Field(c, field) == Num(JsNumber.DigitsValue(ds) as real) ==> !RuleAccepts(Rule(field, "notEquals", Str(ds)), c)
  {
    JsNumber.DigitStringsConvert(ds);
  }

  /** `Number('')` is 0, so an `equals` rule with an empty value also matches
      a field holding the number 0. */
  lemma EmptyValueMatchesZero(field: string, c: Customer)
    requires Field(c, field) == Num(0.0)
    ensures RuleAccepts(Rule(field, "equals", Str("")), c)
  {
    JsNumber.EmptyStringConversions();
  }

  /** Range rules only ever accept numeric fields: a string or a missing
      field is never greater or less than anything, and a bound that is not
      a number accepts nobody. */
  lemma RangeRulesNeedNumbers(r: Rule, c: Customer)
    requires r.operator in {"greaterThan", "lessThan"}
    ensures RuleAccepts(r, c) ==> Field(c, r.field).Num?
    ensures NumberOf(r.value).None? ==> !RuleAccepts(r, c)
  {
  }

  /** An operator the engine does not know (`contains` included) places no
      restriction, so under OR it admits every customer. */
  lemma UnknownOperatorAdmitsAll(rules: seq<Rule>, i: nat, ruleOperator: string, c: Customer)
    requires i < |rules|
    requires !(rules[i].operator in {"equals", "notEquals", "greaterThan", "lessThan"})
    requires ruleOperator != "AND"
    ensures SegmentAccepts(rules, ruleOperator, c)
  {
    assert RuleAccepts(rules[i], c);
  }

  /** Adding a rule to an AND segment never widens its audience; adding one
      to an OR segment never narrows it. */
  lemma AddingRuleMonotone(rules: seq<Rule>, r: Rule, ruleOperator: string, c: Customer)
    ensures ruleOperator == "AND" && SegmentAccepts(rules + [r], ruleOperator, c) ==> SegmentAccepts(rules, ruleOperator, c)
    ensures ruleOperator != "AND" && SegmentAccepts(rules, ruleOperator, c) ==> SegmentAccepts(rules + [r], ruleOperator, c)
  {
    if ruleOperator == "AND" && SegmentAccepts(rules + [r], ruleOperator, c) {
      forall i | 0 <= i < |rules| ensures RuleAccepts(rules[i], c) {
        assert (rules + [r])[i] == rules[i];
      }
    }
    if ruleOperator != "AND" && SegmentAccepts(rules, ruleOperator, c) {
      var i :| 0 <= i < |rules| && RuleAccepts(rules[i], c);
      assert (rules + [r])[i] == rules[i];
    }
  }

  /** Any operator spelling other than exactly "AND" (`and`, `OR`, empty)
      means OR. */
  lemma OperatorIsCaseSensitive(rules: seq<Rule>, op: string, c: Customer)
    requires op != "AND"
    ensures SegmentAccepts(rules, op, c) == SegmentAccepts(rules, "OR", c)
    ensures SegmentAccepts(rules, "and", c) == SegmentAccepts(rules, "OR", c)
  {
  }
}

=== FILE: segment_form.dfy ===
/** The segment editor of client/src/components/SegmentList.tsx: the form's
    rule list editing and the checks run before the form is submitted. */
module SegmentForm {
  import opened Wrappers
  import opened Strings
  import opened Documents
  import opened SegmentModel
  import opened SegmentRoutes

  /** A rule as the form holds it: every part is a string. */
  datatype FormRule = FormRule(field: string, operator: string, value: string)

  datatype RulePart = FieldPart | OperatorPart | ValuePart

  datatype FormData = FormData(name: string, description: string, rules: seq<FormRule>, ruleOperator: string)

  const InitialForm := FormData("", "", [], "AND")

  const BlankRule := FormRule("", "equals", "")

  const NameMissing := "Please enter a segment name"
  const NoRules := "Please add at least one rule"
  const RuleIncomplete := "Please fill in all fields for each rule"

  /** `!rule.field.trim() || !rule.operator || !rule.value` is false. */
  predicate RuleComplete(r: FormRule) {
    Trim(r.field) != "" && r.operator != "" && r.value != ""
  }

  /** The alert shown instead of submitting, if any; the checks run in the
      order name, rule count, rule contents. */
  function SubmitAlert(f: FormData): (r: Option<string>)
    ensures r.None? <==> Trim(f.name) != "" && |f.rules| > 0 && forall i :: 0 <= i < |f.rules| ==> RuleComplete(f.rules[i])
    ensures Trim(f.name) == "" ==> r == Some(NameMissing)
    ensures Trim(f.name) != "" && f.rules == [] ==> r == Some(NoRules)
  {
    if Trim(f.name) == "" then Some(NameMissing)
    else if |f.rules| == 0 then Some(NoRules)
    else if exists i :: 0 <= i < |f.rules| && !RuleComplete(f.rules[i]) then Some(RuleIncomplete)
    else None
  }

  /** `handleAddRule` */
  function AddRule(f: FormData): (r: FormData)
    ensures |r.rules| == |f.rules| + 1 && r.rules[..|f.rules|] == f.rules
    ensures r.rules[|f.rules|] == BlankRule
    ensures r.(rules := f.rules) == f
  {
    f.(rules := f.rules + [BlankRule])
  }

  /** `handleUpdateRule`: the form only offers indexes of existing rules. */
  function UpdateRule(f: FormData, index: nat, part: RulePart, v: string): (r: FormData)
    requires index < |f.rules|
    ensures |r.rules| == |f.rules| && r.(rules := f.rules) == f
    ensures forall i :: 0 <= i < |f.rules| && i != index ==> r.rules[i] == f.rules[i]
    ensures part.FieldPart? ==> r.rules[index] == f.rules[index].(field := v)
    ensures part.OperatorPart? ==> r.rules[index] == f.rules[index].(operator := v)
    ensures part.ValuePart? ==> r.rules[index] == f.rules[index].(value := v)
  {
    var current := f.rules[index];
    var updated := match part
      case FieldPart => current.(field := v)
      case OperatorPart => current.(operator := v)
      case ValuePart => current.(value := v);
    f.(rules := f.rules[index := updated])
  }

  /** `handleRemoveRule`: `rules.filter((_, i) => i !== index)`. */
  function RemoveRule(f: FormData, index: nat): (r: FormData)
    ensures index < |f.rules| ==> r.rules == f.rules[..index] + f.rules[index + 1..]
    ensures index >= |f.rules| ==> r == f
    ensures r.(rules := f.rules) == f
  {
    if index < |f.rules| then f.(rules := f.rules[..index] + f.rules[index + 1..]) else f
  }

  /** A freshly added rule has an empty field, so the form cannot be
      submitted until it is filled in or removed; removing it again gives
      back the form as it was. */
  lemma AddedRuleBlocksSubmit(f: FormData)
    ensures SubmitAlert(AddRule(f)).Some?
    ensures RemoveRule(AddRule(f), |f.rules|) == f
  {
    var g := AddRule(f);
    assert !RuleComplete(g.rules[|f.rules|]) by { assert Trim("") == ""; }
    assert g.rules[..|f.rules|] + g.rules[|f.rules| + 1..] == f.rules;
  }

  /** The body the form posts. */
  function ToBody(f: FormData): (b: SegmentBody)
    ensures b.rules.Some? && |b.rules.value| == |f.rules|
    ensures b.customerCount.None? && b.createdBy.None?
  {
    SegmentBody(Some(f.name), Some(f.description),
      Some(seq(|f.rules|, i requires 0 <= i < |f.rules| => Rule(f.rules[i].field, f.rules[i].operator, Str(f.rules[i].value)))),
      Some(f.ruleOperator), None, None)
  }

  /** A form that passes the client's checks, with operators picked from the
      form's menus, is accepted by the server's validators, and the segment
      it creates passes the schema: the client's checks imply the server's. */
  lemma SubmittableFormIsAccepted(f: FormData, id: Id, user: Id)
    requires SubmitAlert(f).None?
    requires f.ruleOperator in {"AND", "OR"}
    requires forall i :: 0 <= i < |f.rules| ==> f.rules[i].operator in RuleOperators
    ensures BodyValid(ToBody(f))
    ensures var b := ToBody(f);
      SchemaValid(NewSegment(id, Trim(f.name), f.description, b.rules.value, b.ruleOperator, Some(user)))
  {
    var b := ToBody(f);
    forall i | 0 <= i < |f.rules| ensures RuleSchemaValid(b.rules.value[i]) {
      assert RuleComplete(f.rules[i]);
    }
    NewSegmentSchema(id, Trim(f.name), f.description, b.rules.value, b.ruleOperator, Some(user));
  }
}

=== FILE: segment_model.dfy ===
/** Segments (server/src/models/Segment.ts): a named list of rules joined by
    AND or OR, with a cached customer count. */
module SegmentModel {
  import opened Wrappers
  import opened Documents

  /** A rule as stored or as posted: the operator is kept as the raw string so
      that unknown operators (and `contains`) can be represented. */
  datatype Rule = Rule(field: string, operator: string, value: Value)

  datatype Segment = Segment(
    id: Id,
    name: string,
    description: string,
    rules: seq<Rule>,
    ruleOperator: string,
    customerCount: int,
    createdBy: Option<Id>)

  /** The primary key `_id`. */
  function SegmentKey(s: Segment): string { s.id }

  const RuleOperators: set<string> := {"equals", "notEquals", "greaterThan", "lessThan"}

  /** The rule sub-schema: all three parts required, operator from the enum. */
  predicate RuleSchemaValid(r: Rule) {
    r.field != "" && r.operator in RuleOperators && r.value != Absent
  }

  predicate SchemaValid(s: Segment) {
    && s.name != ""
    && (forall i :: 0 <= i < |s.rules| ==> RuleSchemaValid(s.rules[i]))
    && s.ruleOperator in {"AND", "OR"}
    && s.createdBy.Some?
  }

  /** A new segment document: `ruleOperator` defaults to AND and
      `customerCount` to 0. */
  function NewSegment(id: Id, name: string, description: string, rules: seq<Rule>,
                      ruleOperator: Option<string>, createdBy: Option<Id>): (s: Segment)
    ensures s.customerCount == 0
    ensures s.ruleOperator == (if ruleOperator.Some? then ruleOperator.value else "AND")
    ensures s.rules == rules && s.name == name && s.createdBy == createdBy
  {
    Segment(id, name, description, rules, ruleOperator.GetOr("AND"), 0, createdBy)
  }

  /** A new segment passes the schema exactly when it has a name and a creator,
      its rules are well formed and its operator (AND when omitted) is AND or OR. */
  lemma NewSegmentSchema(id: Id, name: string, description: string, rules: seq<Rule>,
                         ruleOperator: Option<string>, createdBy: Option<Id>)
    ensures SchemaValid(NewSegment(id, name, description, rules, ruleOperator, createdBy)) <==>
      name != "" && createdBy.Some?
      && (forall i :: 0 <= i < |rules| ==> RuleSchemaValid(rules[i]))
      && (ruleOperator.None? || ruleOperator.value in {"AND", "OR"})
  {
  }
}

=== FILE: segment_routes.dfy ===
/** The segment handlers of server/src/routes/segments.ts other than the
    customer list: list, create, preview, update, read and delete. The handlers
    save first and count afterwards, so a count that fails leaves the write
    in place. */
module SegmentRoutes {
  import opened Wrappers
  import opened Strings
  import opened Documents
  import opened Seqs
  import opened Collections
  import opened SegmentModel
  import opened SegmentRules
  import opened AudienceResolution
  import opened Pagination

  /** A request body; `None` is a missing key, and `rules: None` also stands
      for a value that is not an array. The handlers spread the whole body
      into the document, so a `customerCount` or a `createdBy` in it is
      written too (`createdBy: Some(None)` is an explicit `null`). */
  datatype SegmentBody = SegmentBody(
    name: Option<string>,
    description: Option<string>,
    rules: Option<seq<Rule>>,
    ruleOperator: Option<string>,
    customerCount: Option<int>,
    createdBy: Option<Option<Id>>)

  const ValidationFailed := HttpError(400, "Validation failed")

  /** The route validators: a name that is not blank once trimmed, an array of
      rules, and an operator that is exactly AND or OR. */
  predicate BodyValid(b: SegmentBody) {
    && b.name.Some? && Trim(b.name.value) != ""
    && b.rules.Some?
    && b.ruleOperator.Some? && b.ruleOperator.value in {"AND", "OR"}
  }

  /** The result of a write handler: the segment collection afterwards and
      the response. */
  datatype Outcome = Outcome(segments: seq<Segment>, response: Result<Segment>)

  /** POST /segments with the caller's id (`None` when unauthenticated) and a
      fresh id for the new document. */
  function CreateSegment(segments: seq<Segment>, store: seq<Customer>, b: SegmentBody,
                         user: Option<Id>, newId: Id): Outcome
  {
    if !BodyValid(b) then Outcome(segments, Err(ValidationFailed))
    else if user.None? then Outcome(segments, Err(HttpError(401, "User not authenticated")))
    else
      var description := if b.description.Some? then Trim(b.description.value) else "";
      var created := NewSegment(newId, Trim(b.name.value), description, b.rules.value, b.ruleOperator, user);
      var s := if b.customerCount.Some? then created.(customerCount := b.customerCount.value) else created;
      if !SchemaValid(s) then Outcome(segments, Err(HttpError(400, "Validation Error")))
      else
        var count := SegmentSize(store, s.rules, s.ruleOperator);
        if count.Err? then Outcome(segments + [s], Err(count.error))
        else
          var counted := s.(customerCount := count.value);
          Outcome(segments + [counted], Ok(counted))
  }

  /** A successful create appends exactly one segment, named by the trimmed
      name, owned by the caller, whose stored count is the size of its
      audience. */
  lemma CreateSegmentStoresCount(segments: seq<Segment>, store: seq<Customer>, b: SegmentBody, user: Option<Id>, newId: Id)
    requires CreateSegment(segments, store, b, user, newId).response.Ok?
    ensures var o := CreateSegment(segments, store, b, user, newId);
      && o.segments == segments + [o.response.value]
      && o.response.value.name == Trim(b.name.value)
      && o.response.value.createdBy == user
      && o.response.value.rules == b.rules.value
      && Audience(store, o.response.value.rules, o.response.value.ruleOperator).Ok?
      && o.response.value.customerCount == |Audience(store, o.response.value.rules, o.response.value.ruleOperator).value|
  {
    var s := CreateSegment(segments, store, b, user, newId).response.value;
    SizeIsAudienceLength(store, s.rules, s.ruleOperator);
  }

  /** A create is rejected without any write when validation or
      authentication fails; a segment with no rules is rejected with a server
      error only after it has been stored, with the body's count or else 0. */
  lemma CreateSegmentFailures(segments: seq<Segment>, store: seq<Customer>, b: SegmentBody, user: Option<Id>, newId: Id)
    ensures !BodyValid(b) ==> CreateSegment(segments, store, b, user, newId) == Outcome(segments, Err(ValidationFailed))
    ensures BodyValid(b) && user.None? ==> CreateSegment(segments, store, b, user, newId).segments == segments
    ensures BodyValid(b) && user.Some? && b.rules.value == [] ==>
      var o := CreateSegment(segments, store, b, user, newId);
      && o.response.Err? && o.response.error.status == 500
      && |o.segments| == |segments| + 1
      && o.segments[|segments|].customerCount == (if b.customerCount.Some? then b.customerCount.value else 0)
  {
  }

  /** POST /segments/preview: no validation; a body without a rule array
      fails inside the handler (a server error), and anything but "AND" is
      OR. */
  function Preview(store: seq<Customer>, rules: Option<seq<Rule>>, ruleOperator: string): Result<nat> {
    if rules.None? then Err(HttpError(500, "Internal Server Error"))
    else SegmentSize(store, rules.value, ruleOperator)
  }

  /** The preview counts exactly the customers the segment accepts. */
  lemma PreviewCountsAccepted(store: seq<Customer>, rules: seq<Rule>, ruleOperator: string)
    ensures Preview(store, Some(rules), ruleOperator).Ok? <==> rules != []
    ensures rules != [] ==>
      Preview(store, Some(rules), ruleOperator) == Ok(Count(store, c => SegmentAccepts(rules, ruleOperator, c)))
  {
    SizeIsAudienceLength(store, rules, ruleOperator);
    AudienceCorrect(store, rules, ruleOperator);
    if rules != [] {
      FilterCount(store, c => SegmentAccepts(rules, ruleOperator, c));
    }
  }

  /** The update as `findByIdAndUpdate` applies it: body keys overwrite and
      missing ones keep the stored values. No validator runs on this write. */
  function ApplyBody(s: Segment, b: SegmentBody): Segment
    requires BodyValid(b)
  {
    s.(name := Trim(b.name.value),
       description := if b.description.Some? then Trim(b.description.value) else s.description,
       rules := b.rules.value,
       ruleOperator := b.ruleOperator.value,
       customerCount := if b.customerCount.Some? then b.customerCount.value else s.customerCount,
       createdBy := if b.createdBy.Some? then b.createdBy.value else s.createdBy)
  }

  /** PUT /segments/:id: the body is written, the count is taken, and the
      final `save()` validates the whole document against the schema; a
      failure there (a 400) leaves the uncounted write in place. */
  function UpdateSegment(segments: seq<Segment>, store: seq<Customer>, id: Id, b: SegmentBody): (o: Outcome)
    ensures o.response.Ok? ==> o.response.value.id == id && o.segments == ReplaceById(segments, SegmentKey, id, o.response.value)
  {
    if !BodyValid(b) then Outcome(segments, Err(ValidationFailed))
    else
      var current := FindSegment(segments, id);
      if current.None? then Outcome(segments, Err(HttpError(404, "Segment not found")))
      else
        var updated := ApplyBody(current.value, b);
        var written := ReplaceById(segments, SegmentKey, id, updated);
        var count := SegmentSize(store, updated.rules, updated.ruleOperator);
        if count.Err? then Outcome(written, Err(count.error))
        else
          var counted := updated.(customerCount := count.value);
          if !SchemaValid(counted) then Outcome(written, Err(HttpError(400, "Validation Error")))
          else Outcome(ReplaceById(segments, SegmentKey, id, counted), Ok(counted))
  }

  /** An update changes only the segment with that id: on success it carries
      the new fields and a recomputed count, passes the schema, keeps its id,
      and keeps its creator unless the body names one; every other segment
      is as before. An unknown id or an invalid body changes nothing. */
  lemma UpdateSegmentOnlyTarget(segments: seq<Segment>, store: seq<Customer>, id: Id, b: SegmentBody)
    ensures (!BodyValid(b) || FindSegment(segments, id).None?) ==>
      UpdateSegment(segments, store, id, b).segments == segments && UpdateSegment(segments, store, id, b).response.Err?
    ensures FindSegment(segments, id).None? && BodyValid(b) ==>
      UpdateSegment(segments, store, id, b).response.error.status == 404
    ensures var o := UpdateSegment(segments, store, id, b);
      && |o.segments| == |segments|
      && forall i :: 0 <= i < |segments| && segments[i].id != id ==> o.segments[i] == segments[i]
    ensures var o := UpdateSegment(segments, store, id, b);
      o.response.Ok? ==>
        && o.response.value.id == id
        && SchemaValid(o.response.value)
        && (b.createdBy.None? ==> o.response.value.createdBy == FindSegment(segments, id).value.createdBy)
        && (b.createdBy.Some? ==> o.response.value.createdBy == b.createdBy.value)
        && o.response.value.rules == b.rules.value
        && SegmentSize(store, b.rules.value, b.ruleOperator.value) == Ok(o.response.value.customerCount)
  {
    if BodyValid(b) && FindSegment(segments, id).Some? {
      var updated := ApplyBody(FindSegment(segments, id).value, b);
      ReplaceOnlyTarget(segments, SegmentKey, id, updated);
      ReplaceOnlyTarget(segments, SegmentKey, id, updated.(customerCount := 0));
    }
  }

  /** An update whose rules break the rule schema (an operator outside the
      enum, such as `contains`) is written and counted, then refused by the
      final `save()` with a 400, and the uncounted write stays. */
  lemma UpdateValidatesOnSave(segments: seq<Segment>, store: seq<Customer>, id: Id, b: SegmentBody, k: nat)
    requires BodyValid(b) && FindSegment(segments, id).Some?
    requires k < |b.rules.value| && !RuleSchemaValid(b.rules.value[k])
    ensures UpdateSegment(segments, store, id, b) ==
      Outcome(ReplaceById(segments, SegmentKey, id, ApplyBody(FindSegment(segments, id).value, b)),
              Err(HttpError(400, "Validation Error")))
  {
    var updated := ApplyBody(FindSegment(segments, id).value, b);
    assert SegmentSize(store, updated.rules, updated.ruleOperator).Ok?;
    assert !SchemaValid(updated.(customerCount := 0));
  }

  /** GET /segments/:id */
  function GetSegment(segments: seq<Segment>, id: Id): (r: Result<Segment>)
    ensures r.Ok? <==> exists i :: 0 <= i < |segments| && segments[i].id == id
    ensures r.Ok? ==> r.value in segments && r.value.id == id
    ensures r.Err? ==> r.error.status == 404
  {
    var s := FindSegment(segments, id);
    if s.None? then Err(HttpError(404, "Segment not found")) else Ok(s.value)
  }

  /** DELETE /segments/:id */
  function DeleteSegment(segments: seq<Segment>, id: Id): Outcome {
    if FindSegment(segments, id).None? then Outcome(segments, Err(HttpError(404, "Segment not found")))
    else Outcome(RemoveById(segments, SegmentKey, id), Ok(FindSegment(segments, id).value))
  }

  /** A delete removes exactly the segments with that id and keeps the
      others in order; an unknown id is a 404 and changes nothing. */
  lemma DeleteSegmentRemovesOnlyTarget(segments: seq<Segment>, id: Id)
    ensures DeleteSegment(segments, id).response.Err? <==> (forall i :: 0 <= i < |segments| ==> segments[i].id != id)
    ensures DeleteSegment(segments, id).response.Err? ==> DeleteSegment(segments, id).segments == segments
    ensures forall s :: s in DeleteSegment(segments, id).segments <==> s in segments && s.id != id
  {
    RemoveKeepsOthers(segments, SegmentKey, id);
  }

  datatype SegmentPage = SegmentPage(segments: seq<Segment>, pagination: PageInfo)

  /** GET /segments over the collection in creation order: the page is read
      newest first (Mongoose sorts before it skips). */
  function ListSegments(segments: seq<Segment>, page: Option<string>, limit: Option<string>): (r: Result<SegmentPage>)
    ensures r.Err? <==> Skip(Info(|segments|, page, limit).page, Info(|segments|, page, limit).limit) < 0
    ensures r.Ok? ==> r.value.pagination.total == |segments|
    ensures r.Ok? ==> r.value.pagination.page == Info(|segments|, page, limit).page
                      && r.value.pagination.limit == Info(|segments|, page, limit).limit
    ensures r.Ok? ==> var skip := Skip(r.value.pagination.page, r.value.pagination.limit);
      && |r.value.segments| == PageSize(|segments|, skip, r.value.pagination.limit)
      && forall k :: 0 <= k < |r.value.segments| ==>
           0 <= skip + k < |segments| && r.value.segments[k] == segments[|segments| - 1 - (skip + k)]
  {
    var info := Info(|segments|, page, limit);
    var rows :- Window(NewestFirst(segments), info.page, info.limit);
    Ok(SegmentPage(rows, info))
  }
}

=== FILE: segment_slice.dfy ===
/** The client's segment list (client/src/store/slices/segmentSlice.ts). */
module SegmentSlice {
  import opened Wrappers
  import opened Documents
  import opened Collections
  import opened ListSlice
  import opened SegmentModel
  import opened AudienceResolution
  import opened SegmentRoutes

  datatype Action =
    | FetchPending
    | FetchFulfilled(segments: seq<Segment>)
    | FetchRejected(message: Option<string>)
    | CreateFulfilled(segment: Segment)
    | UpdateFulfilled(segment: Segment)
    | DeleteFulfilled(id: Id)

  const FetchFailed := "Failed to fetch segments"

  /** Only the fetch touches the flags; a failed fetch keeps the list it had,
      and the edits leave loading and error as they were. */
  function Reduce(st: ListState<Segment>, a: Action): (r: ListState<Segment>)
    ensures a.FetchRejected? ==> r.items == st.items && !r.loading && r.error.Some? && r.error.value != ""
    ensures a.FetchPending? ==> r.items == st.items && r.loading && r.error.None?
    ensures a.CreateFulfilled? || a.UpdateFulfilled? || a.DeleteFulfilled? ==>
      r.loading == st.loading && r.error == st.error
  {
    match a
    case FetchPending => Begin(st)
    case FetchFulfilled(all) => st.(loading := false, items := ApplyEdit(st.items, SegmentKey, Fetched(all)))
    case FetchRejected(m) => Fail(st, m, FetchFailed)
    case CreateFulfilled(s) => st.(items := ApplyEdit(st.items, SegmentKey, Created(s)))
    case UpdateFulfilled(s) => st.(items := ApplyEdit(st.items, SegmentKey, Updated(s)))
    case DeleteFulfilled(id) => st.(items := ApplyEdit(st.items, SegmentKey, Deleted(id)))
  }

  /** A client list that holds the segment collection in creation order
      still holds it after a successful create, update or delete is reflected
      in it. A client that began with an empty collection and has only
      reflected writes holds such a list; a fetched page is newest first
      and does not. */
  lemma CreateMirrorsServer(st: ListState<Segment>, segments: seq<Segment>, store: seq<Customer>,
                            b: SegmentBody, user: Option<Id>, newId: Id)
    requires st.items == segments
    requires CreateSegment(segments, store, b, user, newId).response.Ok?
    ensures var o := CreateSegment(segments, store, b, user, newId);
      Reduce(st, CreateFulfilled(o.response.value)).items == o.segments
  {
  }

  lemma UpdateMirrorsServer(st: ListState<Segment>, segments: seq<Segment>, store: seq<Customer>, id: Id, b: SegmentBody)
    requires st.items == segments && UniqueKeys(segments, SegmentKey)
    requires UpdateSegment(segments, store, id, b).response.Ok?
    ensures var o := UpdateSegment(segments, store, id, b);
      Reduce(st, UpdateFulfilled(o.response.value)).items == o.segments
      && UniqueKeys(o.segments, SegmentKey)
  {
    var o := UpdateSegment(segments, store, id, b);
    UpdateReplaces(st, o.response.value);
  }

  /** An update reflected in a list without duplicate ids replaces the
      record with that id and keeps the ids unique. */
  lemma UpdateReplaces(st: ListState<Segment>, x: Segment)
    requires UniqueKeys(st.items, SegmentKey)
    ensures Reduce(st, UpdateFulfilled(x)).items == ReplaceById(st.items, SegmentKey, x.id, x)
    ensures UniqueKeys(Reduce(st, UpdateFulfilled(x)).items, SegmentKey)
  {
    EditsKeepIdsUnique(st.items, SegmentKey, Updated(x));
  }

  lemma DeleteMirrorsServer(st: ListState<Segment>, segments: seq<Segment>, id: Id)
    requires st.items == segments
    requires DeleteSegment(segments, id).response.Ok?
    ensures Reduce(st, DeleteFulfilled(id)).items == DeleteSegment(segments, id).segments
  {
  }
}

=== FILE: send_query.dfy ===
/** The audience query the send handler builds on its own
    (server/src/routes/campaigns.ts, the segment branch of `/:id/send`): one
    filter object keyed by field name, filled rule by rule. A rule counts only
    when its field and operator are non-empty and its value is defined;
    `equals` is exact, `contains` is a case-insensitive pattern, the range
    operators compare numbers, and every other operator (`notEquals`
    included) is skipped. A later rule on the same field overwrites an earlier
    one, and the segment's AND/OR operator is not consulted: every entry of
    the filter must hold. */
module SendQuery {
  import opened Wrappers
  import opened Documents
  import opened Strings
  import opened Seqs
  import opened SegmentModel
  import opened SegmentRules

  const SendOperators: set<string> := {"equals", "contains", "greaterThan", "lessThan"}

  /** `rule.field && rule.operator && rule.value !== undefined`, and an
      operator the switch handles. */
  predicate Effective(r: Rule) {
    r.field != "" && r.operator in SendOperators && r.value != Absent
  }

  /** The filter entry an effective rule writes. */
  function SendCond(r: Rule): Cond {
    if r.operator == "equals" then Eq(r.field, r.value)
    else if r.operator == "contains" then Regex(r.field, r.value)
    else if r.operator == "greaterThan" then Gt(r.field, NumberOf(r.value))
    else Lt(r.field, NumberOf(r.value))
  }

  /** One iteration of the `forEach`. */
  function Step(filter: map<string, Cond>, r: Rule): map<string, Cond> {
    if Effective(r) then filter[r.field := SendCond(r)] else filter
  }

  function BuildSendFilter(rules: seq<Rule>): map<string, Cond> {
    if rules == [] then map[] else Step(BuildSendFilter(rules[..|rules| - 1]), rules[|rules| - 1])
  }

  /** `Customer.find(filter)`: every entry must hold. */
  predicate SendMatches(filter: map<string, Cond>, c: Customer) {
    forall f :: f in filter ==> Holds(filter[f], c)
  }

  /** The customers the send handler targets for a segment; an empty filter
      selects every customer, and no rule list is an error here. */
  function SendAudience(store: seq<Customer>, rules: seq<Rule>): seq<Customer> {
    Filter(store, c => SendMatches(BuildSendFilter(rules), c))
  }

  // ---------------------------------------------------------------------
  // The rule list read directly: the last effective rule on each field
  // decides.

  predicate Superseded(rules: seq<Rule>, i: int) {
    0 <= i < |rules| && exists j :: i < j < |rules| && Effective(rules[j]) && rules[j].field == rules[i].field
  }

  predicate Decisive(rules: seq<Rule>, i: int) {
    0 <= i < |rules| && Effective(rules[i]) && !Superseded(rules, i)
  }

  predicate SendAccepts(rules: seq<Rule>, c: Customer) {
    forall i | 0 <= i < |rules| :: Decisive(rules, i) ==> Holds(SendCond(rules[i]), c)
  }

  /** The filter has an entry for exactly the fields some effective rule
      names, and that entry is the one written by the last such rule. */
  lemma BuildSendFilterSpec(rules: seq<Rule>)
    ensures forall i :: Decisive(rules, i) ==>
      rules[i].field in BuildSendFilter(rules) && BuildSendFilter(rules)[rules[i].field] == SendCond(rules[i])
    ensures forall f :: f in BuildSendFilter(rules) ==>
      exists i :: Decisive(rules, i) && rules[i].field == f
  {
    DecisiveRulesWritten(rules);
    EntriesFromDecisive(rules);
  }

  /** A rule decisive in `rules` other than the last is decisive in the
      rules before the last, and the last rule does not write its field. */
  lemma DecisiveBeforeLast(rules: seq<Rule>, i: int)
    requires rules != [] && i < |rules| - 1 && Decisive(rules, i)
    ensures Decisive(rules[..|rules| - 1], i)
    ensures !(Effective(rules[|rules| - 1]) && rules[|rules| - 1].field == rules[i].field)
  {
    var pre := rules[..|rules| - 1];
    assert forall j :: 0 <= j < |pre| ==> pre[j] == rules[j];
  }

  lemma {:induction false} DecisiveRulesWritten(rules: seq<Rule>)
    ensures forall i :: Decisive(rules, i) ==>
      rules[i].field in BuildSendFilter(rules) && BuildSendFilter(rules)[rules[i].field] == SendCond(rules[i])
  {
    if rules != [] {
      var n := |rules| - 1;
      var pre := rules[..n];
      DecisiveRulesWritten(pre);
      assert BuildSendFilter(rules) == Step(BuildSendFilter(pre), rules[n]);
      forall i | Decisive(rules, i) && i < n
        ensures rules[i].field in BuildSendFilter(rules) && BuildSendFilter(rules)[rules[i].field] == SendCond(rules[i])
      {
        DecisiveBeforeLast(rules, i);
      }
    }
  }

  lemma {:induction false} EntriesFromDecisive(rules: seq<Rule>)
    ensures forall f :: f in BuildSendFilter(rules) ==>
      exists i :: Decisive(rules, i) && rules[i].field == f
  {
    if rules != [] {
      var n := |rules| - 1;
      var pre := rules[..n];
      var last := rules[n];
      EntriesFromDecisive(pre);
      assert BuildSendFilter(rules) == Step(BuildSendFilter(pre), last);
      forall f | f in BuildSendFilter(rules)
        ensures exists i :: Decisive(rules, i) && rules[i].field == f
      {
        if Effective(last) && last.field == f {
          assert Decisive(rules, n);
        } else {
          assert f in BuildSendFilter(pre);
          var i :| Decisive(pre, i) && pre[i].field == f;
          DecisiveExtends(rules, i);
        }
      }
    }
  }

  /** A rule decisive in the rules before the last stays decisive when the
      last rule does not write its field. */
  lemma DecisiveExtends(rules: seq<Rule>, i: int)
    requires rules != [] && Decisive(rules[..|rules| - 1], i)
    requires !(Effective(rules[|rules| - 1]) && rules[|rules| - 1].field == rules[i].field)
    ensures Decisive(rules, i) && rules[i] == rules[..|rules| - 1][i]
  {
    var pre := rules[..|rules| - 1];
    assert forall j :: 0 <= j < |pre| ==> pre[j] == rules[j];
  }

  /** The filter matches exactly the customers satisfying the last effective
      rule on every field. */
  lemma SendFilterCorrect(rules: seq<Rule>, c: Customer)
    ensures SendMatches(BuildSendFilter(rules), c) <==> SendAccepts(rules, c)
  {
    BuildSendFilterSpec(rules);
    var m := BuildSendFilter(rules);
    if SendAccepts(rules, c) {
      forall f | f in m ensures Holds(m[f], c) {
        var i :| Decisive(rules, i) && rules[i].field == f;
      }
    }
  }

  /** A `notEquals` rule (or any other operator outside the switch) leaves
      the filter unchanged, so on its own it targets every customer, where the
      segment compiler would exclude the matching ones. */
  lemma NotEqualsIgnoredAtSend(store: seq<Customer>, field: string, v: Value)
    ensures BuildSendFilter([Rule(field, "notEquals", v)]) == map[]
    ensures SendAudience(store, [Rule(field, "notEquals", v)]) == store
  {
    var rules := [Rule(field, "notEquals", v)];
    assert rules[..0] == [];
    assert BuildSendFilter(rules) == Step(BuildSendFilter([]), rules[0]);
    assert !Effective(rules[0]);
    assert BuildSendFilter(rules) == map[];
    FilterAll(store, c => SendMatches(BuildSendFilter(rules), c));
  }

  /** `contains` is honoured at send time but places no restriction in the
      segment compiler. */
  lemma ContainsOnlyAtSend(field: string, pattern: string, c: Customer)
    requires field != ""
    ensures RuleAccepts(Rule(field, "contains", Str(pattern)), c)
    ensures SendMatches(BuildSendFilter([Rule(field, "contains", Str(pattern))]), c) <==>
      Field(c, field).Str? && Contains(ToLower(Field(c, field).s), ToLower(pattern))
  {
    var rules := [Rule(field, "contains", Str(pattern))];
    assert rules[..0] == [];
    assert BuildSendFilter(rules) == Step(BuildSendFilter([]), rules[0]);
    assert Effective(rules[0]) && SendCond(rules[0]) == Regex(field, Str(pattern));
    var m := BuildSendFilter(rules);
    assert m == map[field := Regex(field, Str(pattern))];
    assert SendMatches(m, c) <==> Holds(m[field], c);
  }

  /** Of two effective rules on one field only the second survives. */
  lemma LaterRuleOverwrites(r1: Rule, r2: Rule)
    requires Effective(r1) && Effective(r2) && r1.field == r2.field
    ensures BuildSendFilter([r1, r2]) == map[r2.field := SendCond(r2)]
  {
    var rules := [r1, r2];
    assert rules[..1] == [r1];
    assert [r1][..0] == [];
    assert BuildSendFilter([r1]) == Step(BuildSendFilter([]), r1);
    assert BuildSendFilter(rules) == Step(BuildSendFilter([r1]), r2);
  }

  const Ann := Customer("a", map["name" := Str("Ann")])
  const Bob := Customer("b", map["name" := Str("Bob")])
  const AnnOrBob := [Rule("name", "equals", Str("Ann")), Rule("name", "equals", Str("Bob"))]

  /** A concrete divergence: the OR segment "name is Ann or name is Bob" lists
      both customers, while the send handler, ignoring OR and keeping only the
      last rule on `name`, targets Bob alone. */
  lemma OrSegmentNarrowedAtSend()
    ensures Audience([Ann, Bob], AnnOrBob, "OR") == Ok([Ann, Bob])
    ensures SendAudience([Ann, Bob], AnnOrBob) == [Bob]
  {
    OrSegmentListsBoth();
    SendTargetsLastOnly();
  }

  lemma OrSegmentListsBoth()
    ensures Audience([Ann, Bob], AnnOrBob, "OR") == Ok([Ann, Bob])
  {
    OrSegmentAcceptsBoth();
    AudienceCorrect([Ann, Bob], AnnOrBob, "OR");
    FilterAll([Ann, Bob], c => SegmentAccepts(AnnOrBob, "OR", c));
  }

  lemma OrSegmentAcceptsBoth()
    ensures SegmentAccepts(AnnOrBob, "OR", Ann) && SegmentAccepts(AnnOrBob, "OR", Bob)
  {
    NotNumeric("Ann");
    NotNumeric("Bob");
    assert RuleAccepts(AnnOrBob[0], Ann);
    assert RuleAccepts(AnnOrBob[1], Bob);
  }

  lemma SendTargetsLastOnly()
    ensures SendAudience([Ann, Bob], AnnOrBob) == [Bob]
  {
    LaterRuleOverwrites(AnnOrBob[0], AnnOrBob[1]);
    var m := BuildSendFilter(AnnOrBob);
    assert m == map["name" := Eq("name", Str("Bob"))];
    var p := c => SendMatches(BuildSendFilter(AnnOrBob), c);
    assert !p(Ann) by { assert !Holds(m["name"], Ann); }
    assert p(Bob);
    assert [Ann, Bob][1..] == [Bob];
    assert [Bob][1..] == [];
    assert Filter([Bob], p) == [Bob];
    assert Filter([Ann, Bob], p) == [Bob];
  }

  /** A string starting with an ASCII letter is not a number. */
  lemma NotNumeric(s: string)
    requires s != [] && IsLetter(s[0])
    ensures JsNumber.ToNumber(s) == None
  {
    assert TrimStart(s) == s;
    var t := Trim(s);
    var _ := TrimIsMiddle(s);
    assert t != [] && t[0] == s[0];
  }
}

=== FILE: seqs.dfy ===
/** Order-preserving filtering and counting over sequences: the meaning of a
    document-store `find`/`countDocuments` and of JavaScript's `Array.filter`. */
module Seqs {

  function Filter<T(==)>(xs: seq<T>, p: T -> bool): (r: seq<T>)
    ensures |r| <= |xs|
    ensures forall i :: 0 <= i < |r| ==> r[i] in xs && p(r[i])
    ensures forall i :: 0 <= i < |xs| && p(xs[i]) ==> xs[i] in r
  {
    if xs == [] then [] else (if p(xs[0]) then [xs[0]] else []) + Filter(xs[1..], p)
  }

  lemma FilterSingleton<T>(x: T, p: T -> bool)
    ensures Filter([x], p) == if p(x) then [x] else []
  {
    assert [x][1..] == [];
  }

  lemma FilterThree<T>(a: T, b: T, e: T, p: T -> bool)
    ensures Filter([a, b, e], p) == (if p(a) then [a] else []) + (if p(b) then [b] else []) + (if p(e) then [e] else [])
  {
    assert [a, b, e][1..] == [b, e];
    assert [b, e][1..] == [e];
    FilterSingleton(e, p);
  }

  /** A sequence is its part before `i`, the element at `i`, and the rest;
      writing `x` at `i` swaps only the middle part. */
  lemma SplitAt<T>(xs: seq<T>, i: nat, x: T)
    requires i < |xs|
    ensures xs == xs[..i] + [xs[i]] + xs[i + 1..]
    ensures xs[i := x] == xs[..i] + [x] + xs[i + 1..]
  {
    assert xs[..i + 1] == xs[..i] + [xs[i]];
    assert xs == xs[..i + 1] + xs[i + 1..];
  }

  function Min(a: int, b: int): int { if a <= b then a else b }

  lemma PrefixOfAppend<T>(xs: seq<T>, ys: seq<T>, m: nat)
    requires m <= |xs|
    ensures (xs + ys)[..m] == xs[..m]
  {
  }

  lemma PrefixJoin<T>(xs: seq<T>, i: nat, j: nat)
    requires i <= j <= |xs|
    ensures xs[..i] + xs[i..j] == xs[..j]
  {
  }

  /** `xs.filter(p).length` */
  function Count<T>(xs: seq<T>, p: T -> bool): (n: nat)
    ensures n <= |xs|
  {
    if xs == [] then 0 else (if p(xs[0]) then 1 else 0) + Count(xs[1..], p)
  }

  lemma {:induction false} FilterCount<T>(xs: seq<T>, p: T -> bool)
    ensures |Filter(xs, p)| == Count(xs, p)
  {
    if xs != [] {
      FilterCount(xs[1..], p);
    }
  }

  lemma {:induction false} FilterAppend<T>(xs: seq<T>, ys: seq<T>, p: T -> bool)
    ensures Filter(xs + ys, p) == Filter(xs, p) + Filter(ys, p)
  {
    if xs == [] {
      assert xs + ys == ys;
    } else {
      assert (xs + ys)[1..] == xs[1..] + ys;
      FilterAppend(xs[1..], ys, p);
    }
  }

  lemma {:induction false} CountAppend<T>(xs: seq<T>, ys: seq<T>, p: T -> bool)
    ensures Count(xs + ys, p) == Count(xs, p) + Count(ys, p)
  {
    FilterCount(xs + ys, p);
    FilterCount(xs, p);
    FilterCount(ys, p);
    FilterAppend(xs, ys, p);
  }

  /** A filter whose predicate holds everywhere is the identity. */
  lemma {:induction false} FilterAll<T>(xs: seq<T>, p: T -> bool)
    requires forall i :: 0 <= i < |xs| ==> p(xs[i])
    ensures Filter(xs, p) == xs
  {
    if xs != [] {
      FilterAll(xs[1..], p);
    }
  }

  /** Filters with predicates that agree on the elements give the same result. */
  lemma {:induction false} FilterCongruent<T>(xs: seq<T>, p: T -> bool, q: T -> bool)
    requires forall i :: 0 <= i < |xs| ==> p(xs[i]) == q(xs[i])
    ensures Filter(xs, p) == Filter(xs, q)
  {
    if xs != [] {
      FilterCongruent(xs[1..], p, q);
    }
  }

  function Sum<T>(xs: seq<T>, f: T -> real): real {
    if xs == [] then 0.0 else Sum(xs[..|xs| - 1], f) + f(xs[|xs| - 1])
  }

  /** `xs.map(g)` */
  function Map<T, U>(xs: seq<T>, g: T -> U): (r: seq<U>)
    ensures |r| == |xs| && forall i :: 0 <= i < |xs| ==> r[i] == g(xs[i])
  {
    seq(|xs|, i requires 0 <= i < |xs| => g(xs[i]))
  }

  lemma MapAppend<T, U>(xs: seq<T>, ys: seq<T>, g: T -> U)
    ensures Map(xs + ys, g) == Map(xs, g) + Map(ys, g)
  {
  }

  /** Summing `f` after mapping by `g` is summing any `h` that agrees with
      `f` after `g` on the elements. */
  lemma {:induction false} SumMap<T, U>(xs: seq<T>, g: T -> U, f: U -> real, h: T -> real)
    requires forall i :: 0 <= i < |xs| ==> h(xs[i]) == f(g(xs[i]))
    ensures Sum(Map(xs, g), f) == Sum(xs, h)
  {
    if xs != [] {
      var n := |xs| - 1;
      assert Map(xs, g)[..n] == Map(xs[..n], g);
      SumMap(xs[..n], g, f, h);
    }
  }

  lemma {:induction false} SumZero<T>(xs: seq<T>)
    ensures Sum(xs, (x: T) => 0.0) == 0.0
  {
    if xs != [] {
      SumZero(xs[..|xs| - 1]);
    }
  }

  /** Sums of functions that agree on the elements are equal. */
  lemma {:induction false} SumCongruent<T>(xs: seq<T>, f: T -> real, h: T -> real)
    requires forall i :: 0 <= i < |xs| ==> f(xs[i]) == h(xs[i])
    ensures Sum(xs, f) == Sum(xs, h)
  {
    if xs != [] {
      SumCongruent(xs[..|xs| - 1], f, h);
    }
  }

  lemma {:induction false} SumAppend<T>(xs: seq<T>, ys: seq<T>, f: T -> real)
    ensures Sum(xs + ys, f) == Sum(xs, f) + Sum(ys, f)
    decreases |ys|
  {
    if ys == [] {
      assert xs + ys == xs;
    } else {
      assert (xs + ys)[..|xs + ys| - 1] == xs + ys[..|ys| - 1];
      SumAppend(xs, ys[..|ys| - 1], f);
    }
  }

  lemma {:induction false} SumNonNegative<T>(xs: seq<T>, f: T -> real)
    requires forall i :: 0 <= i < |xs| ==> f(xs[i]) >= 0.0
    ensures Sum(xs, f) >= 0.0
  {
    if xs != [] {
      SumNonNegative(xs[..|xs| - 1], f);
    }
  }

  /** Overwriting one element changes the count by what leaves and what
      arrives at that position. */
  lemma {:induction false} CountUpdate<T>(xs: seq<T>, i: nat, y: T, p: T -> bool)
    requires i < |xs|
    ensures Count(xs[i := y], p) == Count(xs, p) - (if p(xs[i]) then 1 else 0) + (if p(y) then 1 else 0)
  {
    if i > 0 {
      assert xs[i := y][1..] == xs[1..][i - 1 := y];
      CountUpdate(xs[1..], i - 1, y, p);
    } else {
      assert xs[i := y][1..] == xs[1..];
    }
  }
}

=== FILE: strings.dfy ===
/** Character classes and the string normalisations the handlers apply to
    request fields: JavaScript's `trim()` and ASCII `toLowerCase()`. */
module Strings {

  /** The whitespace that `String.prototype.trim` and the regular
      expression `\s` remove: the ASCII controls and space, the Unicode
      space separators, the line and paragraph separators and the byte-order
      mark. */
  predicate IsSpace(c: char) {
    || c == ' ' || c == '\t' || c == '\n' || c == '\r' || c == '\U{000B}' || c == '\U{000C}'
    || c == '\U{00A0}' || c == '\U{1680}' || ('\U{2000}' <= c <= '\U{200A}')
    || c == '\U{2028}' || c == '\U{2029}' || c == '\U{202F}' || c == '\U{205F}'
    || c == '\U{3000}' || c == '\U{FEFF}'
  }

  /** A name of two no-break spaces is blank once trimmed. */
  lemma NoBreakSpacesAreBlank()
    ensures Trim("\U{00A0}\U{00A0}") == ""
  {
    assert TrimStart("\U{00A0}\U{00A0}") == TrimStart("\U{00A0}");
    assert TrimStart("\U{00A0}") == TrimStart("");
  }

  predicate IsDigit(c: char) { '0' <= c <= '9' }

  predicate IsLetter(c: char) { ('a' <= c <= 'z') || ('A' <= c <= 'Z') }

  predicate IsHexDigit(c: char) { IsDigit(c) || ('a' <= c <= 'f') || ('A' <= c <= 'F') }

  predicate AllDigits(s: string) { forall i :: 0 <= i < |s| ==> IsDigit(s[i]) }

  /** `s.trimStart()`: drops leading whitespace only. */
  function TrimStart(s: string): (r: string)
    ensures |r| <= |s| && r == s[|s| - |r|..]
    ensures forall i :: 0 <= i < |s| - |r| ==> IsSpace(s[i])
    ensures r == [] || !IsSpace(r[0])
  {
    if |s| > 0 && IsSpace(s[0]) then TrimStart(s[1..]) else s
  }

  /** Drops trailing whitespace only. */
  function TrimEnd(s: string): (r: string)
    ensures |r| <= |s| && r == s[..|r|]
    ensures forall i :: |r| <= i < |s| ==> IsSpace(s[i])
    ensures r == [] || !IsSpace(r[|r| - 1])
  {
    if |s| > 0 && IsSpace(s[|s| - 1]) then TrimEnd(s[..|s| - 1]) else s
  }

  /** `s.trim()`. */
  function Trim(s: string): string {
    TrimEnd(TrimStart(s))
  }

  /** Trimming keeps a contiguous middle part of the input, removes only
      whitespace around it, and leaves no whitespace at either end. */
  lemma TrimIsMiddle(s: string) returns (i: nat)
    ensures OccursAt(Trim(s), s, i)
    ensures forall k :: 0 <= k < i ==> IsSpace(s[k])
    ensures forall k :: i + |Trim(s)| <= k < |s| ==> IsSpace(s[k])
    ensures Trim(s) == [] || (!IsSpace(Trim(s)[0]) && !IsSpace(Trim(s)[|Trim(s)| - 1]))
  {
    var a := TrimStart(s);
    var t := TrimEnd(a);
    i := |s| - |a|;
    MiddleOf(s, a, t);
    if t != [] {
      assert t[0] == a[0];
    }
  }

  /** Dropping whitespace from the front of `s` and then from the back of
      what is left leaves a middle part of `s`. */
  lemma MiddleOf(s: string, a: string, t: string)
    requires |a| <= |s| && a == s[|s| - |a|..] && |t| <= |a| && t == a[..|t|]
    requires forall k :: |t| <= k < |a| ==> IsSpace(a[k])
    ensures OccursAt(t, s, |s| - |a|)
    ensures forall k :: |s| - |a| + |t| <= k < |s| ==> IsSpace(s[k])
  {
    var i := |s| - |a|;
    assert s[i..i + |t|] == s[i..][..|t|];
    forall k | i + |t| <= k < |s|
      ensures IsSpace(s[k])
    {
      assert s[k] == a[k - i];
    }
  }

  /** A string with a non-whitespace character somewhere is not blank. */
  lemma NonSpaceNotBlank(s: string, k: nat)
    requires k < |s| && !IsSpace(s[k])
    ensures Trim(s) != ""
  {
    var i := TrimIsMiddle(s);
  }

  /** A string with no whitespace at either end is its own trim. */
  lemma Untrimmed(s: string)
    requires s == [] || (!IsSpace(s[0]) && !IsSpace(s[|s| - 1]))
    ensures TrimStart(s) == s && TrimEnd(s) == s && Trim(s) == s
  {
    assert TrimStart(s) == s;
  }

  /** Trimming an already trimmed string changes nothing. */
  lemma TrimIdempotent(s: string)
    ensures Trim(Trim(s)) == Trim(s)
  {
    var _ := TrimIsMiddle(s);
    var t := Trim(s);
    Untrimmed(t);
  }

  function LowerChar(c: char): char {
    if 'A' <= c <= 'Z' then (c as int - 'A' as int + 'a' as int) as char else c
  }

  /** `s.toLowerCase()` restricted to ASCII letters. */
  function ToLower(s: string): string {
    seq(|s|, i requires 0 <= i < |s| => LowerChar(s[i]))
  }

  /** Lower-casing keeps the length, leaves no upper-case ASCII letter behind
      and is idempotent. */
  lemma ToLowerNormalises(s: string)
    ensures |ToLower(s)| == |s|
    ensures forall i :: 0 <= i < |s| ==> !('A' <= ToLower(s)[i] <= 'Z')
    ensures ToLower(ToLower(s)) == ToLower(s)
  {
  }

  /** `p` occurs in `s` starting at index `i`. */
  predicate OccursAt(p: string, s: string, i: int) {
    0 <= i && i + |p| <= |s| && s[i..i + |p|] == p
  }

  predicate Contains(s: string, p: string) {
    exists i | 0 <= i <= |s| :: OccursAt(p, s, i)
  }
}

=== FILE: validators.dfy ===
/** The request-validation predicates shared by the server routes and the
    client forms: object-id shape, non-blank text, and the e-mail and phone
    patterns that both sides write as the same regular expressions. */
module Validators {
  import opened Wrappers
  import opened Strings

  /** `isMongoId`: 24 hexadecimal characters. */
  predicate IsMongoId(s: string) {
    |s| == 24 && forall i :: 0 <= i < |s| ==> IsHexDigit(s[i])
  }

  /** `trim().notEmpty()` on an optional body field. */
  predicate NotBlank(s: Option<string>) { s.Some? && Trim(s.value) != "" }

  /** `array.join(sep)` */
  function Join(parts: seq<string>, sep: string): string {
    if parts == [] then ""
    else if |parts| == 1 then parts[0]
    else parts[0] + sep + Join(parts[1..], sep)
  }

  /** Joining non-empty messages gives the empty string only for no messages. */
  lemma {:induction false} JoinEmpty(parts: seq<string>, sep: string)
    requires forall i :: 0 <= i < |parts| ==> parts[i] != ""
    ensures Join(parts, sep) == "" <==> parts == []
  {
    if |parts| > 1 {
      assert |Join(parts, sep)| >= |parts[0]|;
    }
  }

  predicate LocalChar(c: char) {
    IsLetter(c) || IsDigit(c) || c == '.' || c == '_' || c == '%' || c == '+' || c == '-'
  }

  predicate DomainChar(c: char) {
    IsLetter(c) || IsDigit(c) || c == '.' || c == '-'
  }

  /** `^[a-zA-Z0-9._%+-]+@[a-zA-Z0-9.-]+\.[a-zA-Z]{2,}$`: a non-empty local
      part, one `@`, a non-empty domain part, a dot, and at least two letters
      to the end. The `@` sits at `a` and the final dot at `k`. */
  predicate EmailSplit(s: string, a: int, k: int) {
    && 0 < a && a + 1 < k && k + 2 < |s|
    && s[a] == '@' && s[k] == '.'
    && (forall i :: 0 <= i < a ==> LocalChar(s[i]))
    && (forall i :: a < i < k ==> DomainChar(s[i]))
    && (forall i :: k < i < |s| ==> IsLetter(s[i]))
  }

  predicate EmailMatches(s: string) {
    exists a, k | 0 <= a < |s| && 0 <= k < |s| :: EmailSplit(s, a, k)
  }

  /** `^[0-9]{10,}$` */
  predicate PhoneMatches(s: string) {
    |s| >= 10 && AllDigits(s)
  }

  /** A matching address has exactly one `@`, which is the split point. */
  lemma EmailHasOneAt(s: string, a: int, k: int)
    requires EmailSplit(s, a, k)
    ensures forall i :: 0 <= i < |s| && s[i] == '@' ==> i == a
    ensures '@' in s
  {
  }

  /** Some addresses on each side of the pattern. */
  lemma EmailExamples()
    ensures EmailMatches("ann@shop.io")
    ensures !EmailMatches("ann@shop") && !EmailMatches("@shop.io") && !EmailMatches("ann@shop.i")
    ensures !EmailMatches(" ann@shop.io")
  {
    assert EmailSplit("ann@shop.io", 3, 8);
    NoSplitWithoutDot("ann@shop");
    forall a, k | 0 <= a < |"@shop.io"| && 0 <= k < |"@shop.io"| ensures !EmailSplit("@shop.io", a, k) {
      if EmailSplit("@shop.io", a, k) {
        EmailHasOneAt("@shop.io", a, k);
      }
    }
    forall a, k | 0 <= a < |"ann@shop.i"| && 0 <= k < |"ann@shop.i"| ensures !EmailSplit("ann@shop.i", a, k) {
      if EmailSplit("ann@shop.i", a, k) {
        EmailHasOneAt("ann@shop.i", a, k);
      }
    }
    assert !LocalChar(" ann@shop.io"[0]);
  }

  lemma NoSplitWithoutDot(s: string)
    requires forall i :: 0 <= i < |s| ==> s[i] != '.'
    ensures !EmailMatches(s)
  {
  }
}

=== FILE: wrappers.dfy ===
/** Failure-carrying values shared by every module: an optional value and an
    HTTP-shaped result (status code plus message), the way the route handlers
    answer either with data or with an error response. */
module Wrappers {

  datatype Option<+T> = None | Some(value: T) {
    function GetOr(default: T): T {
      match this
      case Some(v) => v
      case None => default
    }
  }

  /** The status code and message a handler answers with when it throws. */
  datatype HttpError = HttpError(status: int, message: string)

  datatype Result<+T> = Ok(value: T) | Err(error: HttpError) {
    predicate IsFailure() { Err? }

    function PropagateFailure<U>(): Result<U>
      requires Err?
    {
      Err(error)
    }

    function Extract(): T
      requires Ok?
    {
      value
    }
  }
}
